=== FILE: README.md ===
# kube-resource-analyzer in Dafny

This project models the core of kube-resource-analyzer (`kra`). kra is a Django application. It
watches a Kubernetes cluster, records pods, resource usage samples and OOM kills, and folds the
samples into per-container summaries. From those summaries it derives suggestions for memory
limits and CPU requests, and it applies adjustments by patching the workloads.

The model covers these parts of kra:

- **KubeWatch, KubeWatchSpec, KubeWatchAsWritten** (`kra/kube_watch.py`). The list-then-watch
  loop that keeps a local table of objects. The initial listing, the resync after a stale
  version, native events and the stream signals are modelled. A consumer that applies the
  yielded events in order ends up with the watcher's table.
- **Pods** (`kra/collectors/pods.py`). The pod collector. It resolves a pod's topmost
  controller owner and upserts the pod row with its workload.
- **Metrics** (`kra/collectors/metrics.py`). The usage collector. It converts the scraped
  bytes and nanocores, matches containers by name, and keeps going past the failure of a
  pod or a node.
- **Oom and OomMessage** (`kra/collectors/oom.py`). The OOM collector. The watcher thread
  queues OOMKilling node events once the initial listing is done. The handler parses the
  kernel message with the two regular expressions, finds the newest process record, parses
  its cgroup and saves the OOMEvent.
- **Cgroup** (`kra/utils.py`). `parse_cgroup`, the `/pod<uid>/<runtime id>$` pattern.
- **ContainerAnalytics** (`kra/analytics/container.py`). The per-container statistics query:
  span, maxima, the lag-weighted memory total and the averages.
- **Summaries** (`kra/tasks/make_summary.py`, `kra/tasks/make_summaries.py`). Grouping by
  container name, `_fill_summary`, and regeneration for one workload or for all of them,
  together with the invariant that ties the Summary and InstanceSummary tables together.
- **SuggestionPolicy** (`kra/tasks/make_suggestion.py`). The memory and CPU rules and the
  per-summary suggestion task.
- **OomSuggestions** (`kra/tasks/make_suggestions.py`). The OOM-only suggestion rule, run as
  one transaction.
- **ApplyAdjustment and Kube** (`kra/tasks/apply_adjustment.py`, `kra/kube.py`). The lock,
  finish and schedule guards, the JSON patch built per container, and the summary updates.
- **Models and DbRouters** (`kra/models.py`, `kra/db_routers.py`). The `WorkloadKind` enum,
  `Summary.get_all`, `Suggestion.get_all` and the PSRecord router.

`Common`, `Decimal`, `Rounding` and `Grouping` hold the shared vocabulary:

- `Option` and `Result`;
- `str(n)` for natural numbers;
- Python's `math.ceil`, `int()` and half-to-even `round()`;
- `defaultdict(list)` grouping.

State that the source changes in place is a class: the watcher's table, the pod and workload
tables, the collected samples, the summary tables, the suggestion tables and the adjustment
task. Each such class has methods proved against specification functions. Pure logic is
functions and lemmas.

Two behaviours of the code are easy to misread:

- When the watch stream closes or times out, the watcher reopens it from the held resource
  version. It does not list again. Only a stale resource version (`ValueError`) sends it back
  to listing (`kra/kube_watch.py:41-50`, `77-80`).
- The memory total of the statistics query weighs each sample by the time since the previous
  sample. The first sample's lag is NULL, so its memory is never weighed
  (`kra/analytics/container.py:37`).

## Model

| member | source | states |
|---|---|---|
| Models.KindValue | kra/models.py:11-17 | each workload kind has its value, which lies between 1 and 6 |
| Models.KindValues | kra/models.py:11-17 | the six kinds have the distinct values 1 to 6, and `WorkloadKind[name]` finds each one by its name |
| Models.KindFromName | kra/models.py:11-17 | `WorkloadKind[name]` returns the member with that name |
| Models.KindFromNameComplete | kra/models.py:11-17 | a name finds a member exactly when it is one of the six member names; any other name is a KeyError |
| Models.LastDoneAt | kra/models.py:129 | `order_by('done_at').last()` is the newest `done_at`: it is attained, and no row is newer |
| Models.SummaryGetAllChoice | kra/models.py:127-140 | `Summary.get_all` regenerates exactly when forced, when no summary is stored, or when the newest is older than `MAX_SUMMARY_AGE`; otherwise it yields every stored row once, in (namespace, name) order |
| Models.SuggestionGetAllOrder | kra/models.py:154-158 | `Suggestion.get_all` recomputes only when forced, and returns every row once, by descending priority |
| Models.SortBySorted | kra/models.py:138-140 | the `order_by` sort returns a permutation of its input that is ordered by the given total preorder |
| Models.NamespacedLeTotalPreorder | kra/models.py:139 | ordering by namespace, then name, is total and transitive |
| Kube.ContainersPath | kra/kube.py:24-31 | the containers path starts at `spec` and ends at `containers`; CronJob's path goes through `spec.jobTemplate`, and every other kind's through `spec.template.spec` |
| Kube.TablesCoverAllKinds | kra/kube.py:6-31 | the read, patch and containers-path tables each have all six kinds as their keys |
| DbRouters.DbForRead | kra/db_routers.py:6-9 | reads go to `ps` exactly for PSRecord; the router has no opinion on other models |
| DbRouters.DbForWrite | kra/db_routers.py:11-14 | writes go to `ps` exactly for PSRecord; the router has no opinion on other models |
| DbRouters.AllowRelation | kra/db_routers.py:16-19 | a relation is allowed exactly when either object is a PSRecord; otherwise the router has no opinion |
| DbRouters.AllowMigrate | kra/db_routers.py:21-24 | for `kra.psrecord`, migration is allowed exactly on `ps`; the router has no opinion on other models |
| DbRouters.PsRecordStaysOnPs | kra/db_routers.py:6-24 | PSRecord is read and written on the one database it migrates on, and every model is read where it is written |
| DbRouters.AllowRelationSymmetric | kra/db_routers.py:16-19 | relations are judged the same in both directions |
| Cgroup.ParseCgroup | kra/utils.py:6-14 | when both ids are returned, they are non-empty runs of `[\w\-]` and `\w` characters; otherwise both are None |
| Cgroup.ParseCgroupSound | kra/utils.py:3-14 | whatever `parse_cgroup` returns is a match of `/pod([\w\-]+)/(\w+)$` in the text |
| Cgroup.ParseCgroupComplete | kra/utils.py:3-14 | whenever the pattern matches, `parse_cgroup` returns the groups of that match, so the match is unique |
| Cgroup.ParseCgroupNone | kra/utils.py:11-13 | `(None, None)` is returned exactly when the pattern matches nowhere |
| Cgroup.ParseCgroupRoundTrip | kra/utils.py:3-14 | any path followed by `/pod<uid>/<runtime id>` parses back into that uid and runtime id |
| Grouping.GroupBy | kra/tasks/make_summary.py:11-13 | filling a `defaultdict(list)` gives the keys in order of first appearance, each with its items in input order |
| Grouping.KeysOfSpec | kra/tasks/make_summary.py:11-13 | the grouped keys are distinct, and they are exactly the keys of the items |
| Grouping.GroupsPartition | kra/tasks/make_summary.py:11-13 | the groups together hold every item exactly as often as the input does |
| Rounding.RoundHalfEven | kra/tasks/make_summary.py:66-69 | Python's `round`: a nearest integer to the value, with a tie going to the even neighbour |
| Rounding.RoundMonotone | kra/tasks/make_summary.py:66-69 | rounding keeps the order of its arguments |
| Rounding.Ceil | kra/tasks/make_suggestion.py:53 | `math.ceil`: the least integer that is not below the value |
| Rounding.Trunc | kra/tasks/make_suggestions.py:21 | `int()` on a float: truncation toward zero |
| Decimal.ParseNatToString | kra/tasks/make_suggestions.py:27 | the decimal digits `str(n)` prints parse back to `n` |
| Decimal.NatToStringInjective | kra/tasks/make_suggestions.py:27 | different numbers print differently |
| KubeWatchSpec.ParseEventType | kra/kube_watch.py:11-16 | `EventType(s)` is the member whose value is `s`; it is None (a ValueError) when no member has that value |
| KubeWatchSpec.UpsertAll | kra/kube_watch.py:93-96 | storing a listing adds exactly the listed uids to the keys, and each entry stays under its own uid |
| KubeWatchSpec.AddedEvents | kra/kube_watch.py:93-96 | the initial listing yields one ADDED per listed object, in list order |
| KubeWatchSpec.PutKeys | kra/kube_watch.py:95 | the dict's key order after the stores holds the old keys and the listed uids, each once |
| KubeWatchSpec.Without | kra/kube_watch.py:87 | `del` takes the key out of the key order |
| KubeWatchSpec.KeepKeys | kra/kube_watch.py:110-113 | the deletion pass leaves exactly the alive keys in the key order |
| KubeWatchSpec.ListedIsDiff | kra/kube_watch.py:101-108 | with distinct uids, the listing pass yields the diff of the listing against the stored table |
| KubeWatchSpec.DiffEmpty | kra/kube_watch.py:105-108 | a listing that matches the table version for version yields no event |
| KubeWatchSpec.ResyncContents | kra/kube_watch.py:99-114 | after a resync the table holds exactly the listed uids, each with its listed object |
| KubeWatchSpec.AddedReplay | kra/kube_watch.py:93-96 | replaying the initial listing's events builds the table the listing built |
| KubeWatchSpec.ListedReplay | kra/kube_watch.py:101-108 | replaying the listing pass's events gives the stored uids at their stored versions |
| KubeWatchSpec.StaleReplay | kra/kube_watch.py:110-114 | replaying the DELETED events removes exactly the stale uids |
| KubeWatchSpec.ResyncReplay | kra/kube_watch.py:99-114 | a consumer that applies the resync's events to the old table arrives at the new table, uid for uid and version for version |
| KubeWatchSpec.ResyncIdempotent | kra/kube_watch.py:99-114 | listing the same objects again right away yields nothing and changes neither the table nor its key order: the second resync's key order is the first one's |
| KubeWatchSpec.StableOrder | kra/kube_watch.py:99-114 | a key order that already holds exactly the listed uids is kept as it is by a resync |
| KubeWatchSpec.ApplyOrderKeys | kra/kube_watch.py:45-52 | the key order after a delivered event (appended when new, dropped when deleted, kept otherwise) lists exactly the keys of the table after that event |
| KubeWatchSpec.UpsertAllIdem | kra/kube_watch.py:104 | storing objects that are already stored, each under its own uid, leaves the table as it is |
| KubeWatchSpec.WithoutNoDups | kra/kube_watch.py:87 | the key order keeps its keys distinct through a `del` |
| KubeWatchSpec.KeepKeysNoDups | kra/kube_watch.py:110-113 | the key order keeps its keys distinct through the deletion pass |
| KubeWatchSpec.DeleteStep | kra/kube_watch.py:110-113 | one deletion step over a snapshot of the keys leaves the kept keys, then the rest of the snapshot |
| KubeWatchSpec.StaleStep | kra/kube_watch.py:110-114 | one deletion step removes the key when it is stale and yields its DELETED with the removed object |
| KubeWatch.KubeWatcher.constructor | kra/kube_watch.py:24-27 | a new watcher holds no resource version and an empty table, and has yielded nothing |
| KubeWatch.KubeWatcher.Store | kra/kube_watch.py:85 | `db[uid] = obj` stores the object and puts a new key last in the key order |
| KubeWatch.KubeWatcher.Remove | kra/kube_watch.py:87 | `del db[uid]` removes the entry and its key |
| KubeWatch.KubeWatcher.HandleEvent | kra/kube_watch.py:83-91 | ADDED and MODIFIED store the object and DELETED removes a stored one. ERROR, BOOKMARK and a DELETED of an unknown uid raise and leave the table as it was |
| KubeWatch.KubeWatcher.HandleInitial | kra/kube_watch.py:93-96 | every listed object is stored, with one ADDED yielded for each |
| KubeWatch.KubeWatcher.StoreListed | kra/kube_watch.py:99-108 | each listed object is stored, yielding ADDED for a new uid and MODIFIED for a changed version; the alive uids are the listed ones |
| KubeWatch.KubeWatcher.DropStale | kra/kube_watch.py:110-114 | every stored uid that is not alive is removed in key order, yielding DELETED with its object |
| KubeWatch.KubeWatcher.HandleRestart | kra/kube_watch.py:98-114 | the resync yields the listing pass's events and then the deletions, and leaves the resync table and key order |
| KubeWatch.KubeWatcher.Sync | kra/kube_watch.py:32-39 | with no resource version held (None or empty) the listing is the initial one, otherwise it is a resync. Then the listing's version is held and streaming begins. A consumer replaying everything yielded still holds the table |
| KubeWatch.KubeWatcher.OpenStream | kra/kube_watch.py:55-64 | the timeout lies between 300 and 600 seconds, the request timeout is 10 seconds longer, and the held version is sent only when it is truthy |
| KubeWatch.KubeWatcher.OnStreamSignal | kra/kube_watch.py:41-52 | a delivered event is applied, its version held and the event yielded; the dict's key order gains a new uid at its end and loses a deleted one. An unknown type or a rejected event ends the generator with the table and its key order unchanged. A close or timeout keeps streaming from the held version; a stale version returns the watcher to listing |
| KubeWatchAsWritten.ListPassOutcome | kra/kube_watch.py:101-108 | as written, the listing pass succeeds exactly when every listed uid is already stored, and it then agrees with the corrected pass; otherwise it raises KeyError for the first new uid |
| KubeWatchAsWritten.NeverAdded | kra/kube_watch.py:105-106 | as written, the resync never yields ADDED |
| KubeWatchAsWritten.AtMostOneDeleted | kra/kube_watch.py:110-114 | as written, the resync yields at most one DELETED |
| KubeWatchAsWritten.FirstStale | kra/kube_watch.py:110-111 | the first key in dict order that is not alive, which is None exactly when every key is alive |
| KubeWatchAsWritten.AgreesWithoutNewOrStale | kra/kube_watch.py:99-114 | when the listing names exactly the stored uids, the code as written does what the corrected resync does |
| KubeWatchAsWritten.NewObjectAborts | kra/kube_watch.py:103 | an object created while the watch was down makes the resync as written raise KeyError without yielding anything |
| KubeWatchAsWritten.TwoStaleOnlyOneDeleted | kra/kube_watch.py:110-114 | with two objects deleted while the watch was down, the code as written yields one DELETED and raises, and leaves the other object in the table |
| Pods.KindToReadAccepts | kra/collectors/pods.py:100-114 | exactly the six workload kinds have a read function, each reading its own kind; any other kind raises |
| Pods.FirstController | kra/collectors/pods.py:84-86 | the first owner reference that is a controller; None exactly when no reference is one |
| Pods.OwnerRecursiveNone | kra/collectors/pods.py:81-86 | an object without a controller reference has no owner, because non-controller references are skipped |
| Pods.OwnerRecursiveEmpty | kra/collectors/pods.py:80-97 | when the walk finds no owner, the object has no controller reference |
| Pods.OwnerRecursiveStep | kra/collectors/pods.py:88-95 | a found owner is either the topmost owner above the controller owner, or the controller owner itself when nothing is above it |
| Pods.OwnerRecursiveTop | kra/collectors/pods.py:80-97 | the owner found tops a chain of controller owners that starts at the object, and it has no controller reference of its own |
| Pods.OwnerRecursiveClimbs | kra/collectors/pods.py:91-93 | the topmost owner of an object is that of its controller owner, when that one has an owner |
| Pods.IndexOf | kra/collectors/pods.py:72-76 | the lookup in the Workload table finds a row with that key, or none exactly when no row has it |
| Pods.IndexOfUnique | kra/models.py:31 | when workload keys are unique, the lookup of a row's key is that row |
| Pods.Upsert | kra/collectors/pods.py:64 | `update_or_create` writes the pod's namespace, name, start time and workload choice. It keeps the pod's `gone_at` and leaves every other pod untouched |
| Pods.HandleUpdateWorkload | kra/collectors/pods.py:39-64 | a started pod's row carries the workload found for it, or none when it has no owner. A failed lookup keeps the workload the row had |
| Pods.PodCollector.constructor | kra/collectors/pods.py:13-26 | the collector starts with empty pod and workload tables |
| Pods.PodCollector.GetOrCreate | kra/collectors/pods.py:72-76 | `get_or_create` returns the row with that key and creates it only when it is missing, keeping keys unique |
| Pods.PodCollector.HandleUpdate | kra/collectors/pods.py:39-64 | a pod that has not started changes nothing. A started pod is upserted with the workload its owner lookup found |
| Pods.PodCollector.HandleDelete | kra/collectors/pods.py:35-36 | the stored pod with that uid is marked gone at that time; an unknown uid changes nothing |
| Pods.PodCollector.Dispatch | kra/collectors/pods.py:29-36 | ADDED and MODIFIED leave the tables `handle_update` makes of the pod. DELETED marks the stored pod with that uid gone at that time, leaves any other uid's row and the Workload table as they were, and changes nothing for an unknown uid. Other event types change nothing. Rows are never removed and the Workload table only grows |
| Pods.PodCollector.Run | kra/collectors/pods.py:26-36 | over a run of events, the tables are those that dispatching each event in turn makes: pods are never removed, a row exists exactly for the stored pods and the started pods that were added or modified, and the Workload table only grows |
| Pods.RunTablesGrow | kra/collectors/pods.py:26-36 | over any run of events, the pod rows are the stored ones and those of the started pods added or modified, and the old Workload rows stay first, in order |
| Metrics.MemoryMi | kra/collectors/metrics.py:97 | the stored memory is the number of whole mebibytes plus one, so the bytes lie in the mebibyte below it |
| Metrics.CpuM | kra/collectors/metrics.py:99 | the stored CPU is the number of whole millicores |
| Metrics.ConversionsMonotone | kra/collectors/metrics.py:97-99 | more memory or CPU in use never gives a smaller sample |
| Metrics.ByNameLast | kra/collectors/metrics.py:90 | a name is found exactly when the pod has a container row of that name, and the lookup returns the last such row |
| Metrics.KubeProxyIgnored | kra/collectors/metrics.py:86-88 | the kube-proxy pseudo pod saves nothing, whatever it reports |
| Metrics.SamplesSound | kra/collectors/metrics.py:91-100 | every saved sample belongs to a scraped container matching a row of that name, and is that container's conversion |
| Metrics.SamplesFailure | kra/collectors/metrics.py:91-100 | the pod loop raises exactly when some matched container lacks its memory or CPU field; unmatched names never raise |
| Metrics.SamplesComplete | kra/collectors/metrics.py:91-100 | without a failure, each matched container yields exactly one sample |
| Metrics.SamplesAfterFailure | kra/collectors/metrics.py:91-100 | once the pod loop has raised, the containers after the failure change nothing |
| Metrics.NodeSamplesSplit | kra/collectors/metrics.py:70-74 | the samples of a run of pods are those of its parts, in order, so a failing pod does not affect the others |
| Metrics.CollectSamplesSplit | kra/collectors/metrics.py:60-65 | the samples of a run of nodes are those of its parts, in order |
| Metrics.FailedNodeContained | kra/collectors/metrics.py:60-65 | a node whose scrape fails contributes nothing, and the nodes around it contribute everything they would alone |
| Metrics.SleepAfterCycle | kra/collectors/metrics.py:50-58 | the thread sleeps exactly when the cycle took less than the interval, and then for the rest of the interval |
| Metrics.CollectorThread.constructor | kra/collectors/metrics.py:43-46 | the thread starts with its interval and no samples |
| Metrics.CollectorThread.CollectPod | kra/collectors/metrics.py:83-100 | appends the pod's samples and reports whether it raised part-way |
| Metrics.CollectorThread.CollectNode | kra/collectors/metrics.py:67-74 | appends the samples of every pod of a scraped node; a failed scrape appends nothing |
| Metrics.CollectorThread.Collect | kra/collectors/metrics.py:60-65 | appends the samples of every node, a failing node being skipped |
| Metrics.CollectorThread.RunSupervised | kra/collectors/metrics.py:48-58 | each cycle collects, and the sleep after each cycle is the rest of the interval when any is left |
| Oom.FirstMarker | kra/collectors/oom.py:43-45 | the index of the first DONE_INITIAL marker, with no marker before it; None exactly when the stream has none |
| Oom.Watch | kra/collectors/oom.py:39-54 | the watcher thread queues exactly the wanted events after the first marker, in order |
| Oom.SkipListing | kra/collectors/oom.py:43-45 | the first loop stops just after the first marker, and reports whether there was one |
| Oom.QueueWanted | kra/collectors/oom.py:47-54 | the second loop queues the ADDED OOMKilling events about a node from where the first loop stopped, in order |
| Oom.SelectedSound | kra/collectors/oom.py:47-54 | every queued event is ADDED, is OOMKilling and is about a node, and comes from the stream |
| Oom.SelectedComplete | kra/collectors/oom.py:47-54 | every wanted item of the stream is queued |
| Oom.QueuedArrival | kra/collectors/oom.py:43-54 | a new stream item adds its event to the queue exactly when a marker was already seen and the item is wanted |
| Oom.QueuedMembers | kra/collectors/oom.py:43-54 | an event is queued exactly when a wanted item after the first marker carries it |
| Oom.LatestPsRecord | kra/collectors/oom.py:101-103 | `get_ps_record` returns a record of that node and pid taken no later than the event, and no eligible record is newer. It is None exactly when no record is eligible |
| Oom.LatestPsRecordUnique | kra/collectors/oom.py:101-103 | since `ts` is the primary key, the newest eligible record is determined |
| Oom.Matching | kra/collectors/oom.py:92 | the containers with that runtime id in the pod with that uid |
| Oom.ContainerGet | kra/collectors/oom.py:92 | `Container.objects.get` succeeds exactly when one row matches and returns it; DoesNotExist exactly when none does |
| Oom.HandleOk | kra/collectors/oom.py:70-96 | a row is saved exactly when every check passes, in the handler's order. It carries the victim and target read from the message, the event's time, and the one container that the newest eligible record's cgroup names |
| Oom.HandleKernelReport | kra/collectors/oom.py:70-96 | for a kernel report with target and victim lines, a matching process record and one matching container, the handler saves that container's row with both pids and comms |
| Oom.HandleWithoutRecord | kra/collectors/oom.py:84-86 | a report without an eligible process record fails with "No ps record" |
| Oom.Outcomes | kra/collectors/oom.py:63-68 | one outcome per queued event |
| Oom.HandleQueue | kra/collectors/oom.py:62-68 | the handler loop saves the rows of the events that succeed and logs the failures of the others, with each failure's node |
| Oom.EveryEventAccounted | kra/collectors/oom.py:62-68 | every queued event ends as a saved row or as a logged failure: together they number the queued events |
| Oom.SavedRowsAppend | kra/collectors/oom.py:65-68 | a failure on one event does not affect the others: the rows saved for a split queue are those of its halves |
| OomMessage.SkipWhile | kra/collectors/oom.py:17-18 | the end of the longest run of characters that satisfy the test, starting at the given index |
| OomMessage.LastClose | kra/collectors/oom.py:17-18 | greedy `(.*)\)` ends at the last `)` before the end of the line |
| OomMessage.DigitRun | kra/collectors/oom.py:17-18 | `\d+` ends after a non-empty run of digits, which is followed by a non-digit |
| OomMessage.FirstMatch | kra/collectors/oom.py:74 | `re.search` reports the least index at which the pattern matches |
| OomMessage.SearchNone | kra/collectors/oom.py:74-76 | the search finds nothing exactly when the pattern matches at no index |
| OomMessage.MatchAtMessage | kra/collectors/oom.py:17-18 | a kill line in a message matches there with its pid and comm, even when the comm holds a `)`, provided nothing after it closes a parenthesis on that line |
| OomMessage.KernelMessageTarget | kra/collectors/oom.py:79-82 | the target pattern finds the "Kill process" line of a kernel message |
| OomMessage.KernelMessageVictim | kra/collectors/oom.py:74-77 | the victim pattern skips the "Kill process" line and finds the "Killed process" line |
| OomMessage.KilledIsNotKill | kra/collectors/oom.py:17 | where "Killed" stands, the target pattern does not match |
| OomMessage.KillIsNotKilled | kra/collectors/oom.py:18 | where "Kill " stands, the victim pattern does not match |
| ContainerAnalytics.Window | kra/analytics/container.py:40 | `WINDOW w AS (ORDER BY measured_at)` holds the container's samples, rearranged into time order |
| ContainerAnalytics.MinTime | kra/analytics/container.py:27 | `min(measured_at)` is attained and is not above any sample's time |
| ContainerAnalytics.MaxTime | kra/analytics/container.py:28 | `max(measured_at)` is attained and is not below any sample's time |
| ContainerAnalytics.MaxMemory | kra/analytics/container.py:30 | `max(memory_mi)` is attained and bounds every sample |
| ContainerAnalytics.MaxCpu | kra/analytics/container.py:29 | `max(cpu_m_seconds)` is attained and bounds every sample |
| ContainerAnalytics.SqlSumBound | kra/analytics/container.py:31-37 | over a time-ordered window, the weighted memory sum is NULL exactly when there is at most one sample, and otherwise lies between 0 and the memory bound times the span |
| ContainerAnalytics.FirstSampleIgnored | kra/analytics/container.py:37 | the first sample's memory is never weighed: changing it leaves every term as it was |
| ContainerAnalytics.WindowEnds | kra/analytics/container.py:24-28 | the first and last samples of the window are the earliest and latest ones |
| ContainerAnalytics.WindowMembers | kra/analytics/container.py:38-40 | the window holds exactly the container's samples |
| ContainerAnalytics.WindowTotal | kra/analytics/container.py:31-37 | a container's weighted memory total is bounded by its largest memory times its span |
| ContainerAnalytics.StatsMeaning | kra/analytics/container.py:19-31 | a row exists exactly when the container has samples. Its span is the latest minus the earliest time, and the maxima are attained bounds. The memory total is NULL for a single sample and otherwise at most the maximum times the span. Both averages are NULL on a zero span |
| ContainerAnalytics.StatsAgree | kra/analytics/container.py:19-20 | wherever the query as written does not fail, it agrees with the guarded query |
| ContainerAnalytics.SameInstantFails | kra/analytics/container.py:19 | two samples taken at the same instant make the query as written fail with a division by zero |
| ContainerAnalytics.ContainersSummaryRows | kra/analytics/container.py:5-61 | a container has a row exactly when it has samples, and the row holds its statistics |
| Summaries.LastStartedSpec | kra/tasks/make_summary.py:27-30 | there is no latest-started container exactly when no container of that workload has that name. Otherwise it is one of them, started no earlier than any other |
| Summaries.AccumulateMaxima | kra/tasks/make_summary.py:35-36 | the maxima start from 0: they bound every container's maximum and are 0 or some container's maximum |
| Summaries.AccumulateSums | kra/tasks/make_summary.py:57-62 | the totals add up over consecutive runs of containers |
| Summaries.AccumulateBounded | kra/tasks/make_summary.py:57-59 | when each container's memory total is at most its maximum over its time, so is the sum |
| Summaries.Instances | kra/tasks/make_summary.py:44-53 | one InstanceSummary per container, in order, copying its statistics |
| Summaries.FillMeaning | kra/tasks/make_summary.py:25-69 | `_fill_summary` fails with AttributeError exactly when no container of that name is in the workload. Otherwise it fails with TypeError exactly when some container's memory total is NULL, and with ZeroDivisionError exactly when every total is present and the seconds add up to zero. Otherwise it carries the latest-started container's limit and request, the maxima from 0, and nearest-integer averages of the totals over the seconds |
| Summaries.FillAverageBelowMax | kra/tasks/make_summary.py:54-67 | when every container's memory total is bounded by its maximum over its time, the summary's average memory does not exceed its maximum |
| Summaries.FillSummary | kra/tasks/make_summary.py:25-69 | the loop computes `_fill_summary`'s summary or its error. It yields one instance per container up to the first one with a NULL memory total, which raises before its own instance is yielded, and none when no container of that name exists |
| Summaries.SingleSampleFails | kra/tasks/make_summary.py:59 | a container measured once has a NULL memory total, so adding it to the workload's total raises TypeError for its whole name |
| Summaries.AssembleFails | kra/tasks/make_summary.py:17-22 | a block fails exactly when one of its names' summaries fails |
| Summaries.AssembleRows | kra/tasks/make_summary.py:17-22 | otherwise the block holds one Summary per name, in order, and all their instances |
| Summaries.AssembleErrPrefix | kra/tasks/make_summary.py:17-22 | the first failing name decides the outcome, whatever follows it |
| Summaries.BuildNamesFails | kra/tasks/make_summary.py:17-22 | over a list of names, the block fails exactly when some name's summary fails |
| Summaries.BuildNamesRows | kra/tasks/make_summary.py:17-22 | otherwise it holds, in order, the summary `_fill_summary` makes of each name's group, and the groups' instances one after the other |
| Summaries.BuildFails | kra/tasks/make_summary.py:9-22 | `make_summary` fails exactly when the summary of some container's name fails |
| Summaries.BuildSummaries | kra/tasks/make_summary.py:9-22 | otherwise it writes one Summary per distinct container name, each the summary of that name's containers |
| Summaries.BuildNamesCovered | kra/tasks/make_summary.py:11-13 | the names summarised are exactly the names of the containers |
| Summaries.BuildInstances | kra/tasks/make_summary.py:9-22 | it writes one InstanceSummary per container, as often as the container occurs |
| Summaries.BuildNamesOrder | kra/tasks/make_summary.py:18-20 | the block's summaries follow the names in order, all of that workload |
| Summaries.InstancesNamed | kra/tasks/make_summary.py:18-22 | every InstanceSummary written belongs to one of the containers' names |
| Summaries.BuildWorkload | kra/tasks/make_summary.py:9-22 | regenerating one workload groups its containers by name and writes each name's block |
| Summaries.OtherSummaries | kra/tasks/make_summary.py:15 | deleting a workload's summaries leaves exactly the other workloads' summaries |
| Summaries.OtherInstances | kra/tasks/make_summary.py:15 | the cascade leaves exactly the other workloads' instances |
| Summaries.DeleteConsistent | kra/tasks/make_summary.py:15 | deleting one workload's summaries keeps the tables consistent: keys distinct and every instance owned |
| Summaries.AppendConsistent | kra/tasks/make_summary.py:17-22 | another workload's consistent rows, followed by a consistent block of one workload alone, are consistent |
| Summaries.BuildDistinct | kra/models.py:121 | the summaries of one block have distinct (workload, container name) keys, all of that workload |
| Summaries.BuildOwned | kra/tasks/make_summary.py:17-22 | every instance of a block belongs to one of the block's summaries |
| Summaries.ReplaceConsistent | kra/tasks/make_summary.py:15-22 | writing a workload's regenerated rows after deleting its old ones keeps the tables consistent |
| Summaries.VisitOrder | kra/tasks/make_summaries.py:43 | every workload is visited once, in (namespace, name) order |
| Summaries.WorkloadContainersMembers | kra/tasks/make_summaries.py:36-47 | a workload's containers are exactly the summarised containers of the pods that belong to it |
| Summaries.TogetherFails | kra/tasks/make_summaries.py:42-52 | the blocks written together fail exactly when one of them fails |
| Summaries.TogetherSummaries | kra/tasks/make_summaries.py:42-52 | otherwise they hold exactly the summaries of the blocks |
| Summaries.TogetherConsistent | kra/tasks/make_summaries.py:42-52 | consistent blocks, each of its own workload with the workloads distinct, are consistent together |
| Summaries.BlocksConsistent | kra/tasks/make_summaries.py:43-52 | each workload's block is consistent and belongs to that workload alone |
| Summaries.BuildCovers | kra/tasks/make_summary.py:17-22 | a workload's block has a summary for the name of each of its containers |
| Summaries.BuildSound | kra/tasks/make_summary.py:17-22 | each summary of a block is the summary of that workload's containers of its name |
| Summaries.RegeneratedCovers | kra/tasks/make_summaries.py:14-52 | `make_summaries` writes a Summary for each workload and each name of its containers |
| Summaries.RegeneratedSound | kra/tasks/make_summaries.py:14-52 | every Summary it writes is the summary of one workload's containers of that name |
| Summaries.RegeneratedConsistent | kra/tasks/make_summaries.py:14-52 | the regenerated rows are consistent when the workloads have distinct ids |
| Summaries.GatherContainers | kra/tasks/make_summaries.py:45-46 | the nested loop collects the containers of the workload's pods, pod by pod |
| Summaries.RegenerateAll | kra/tasks/make_summaries.py:43-52 | the loop over workloads gives the blocks written together, or the first error |
| Summaries.SummaryStore.constructor | kra/models.py:109-121 | the tables start empty and consistent, with no suggestions |
| Summaries.OtherSuggestions | kra/models.py:144 | the `Suggestion.summary` cascade of a workload's summary delete leaves exactly the other workloads' suggestions |
| Summaries.DeleteSuggestionsOwned | kra/models.py:144 | after that cascade every remaining suggestion still belongs to a stored summary |
| Summaries.SummaryStore.MakeSummary | kra/tasks/make_summary.py:9-22 | `make_summary` replaces the workload's rows with its regenerated ones, or only deletes them when the block raises. Either way the delete's cascade removes the workload's suggestions (`kra/models.py:144`). The tables stay consistent, every suggestion keeps its summary, and every other workload's rows stay |
| Summaries.SummaryStore.MakeSummaries | kra/tasks/make_summaries.py:14-52 | `make_summaries` deletes every summary, and through the cascade every suggestion. It writes the regenerated rows of every workload, or nothing when a block raises, and keeps the tables consistent |
| SuggestionPolicy.ScanOomsSpec | kra/tasks/make_suggestion.py:55-61 | the OOM scan ends on the largest of the usage target and the targets of the killed containers' limits. It sets the OOM priority and a kill's reason exactly when a kill raised the target |
| SuggestionPolicy.SuggestMemoryMeaning | kra/tasks/make_suggestion.py:47-88 | the target is at least `MEM_MIN`, the usage target and every kill's target. A new limit, equal to the target, is suggested exactly when there is no limit or the limit lies outside [lower, upper]. Otherwise priority and reason are reset |
| SuggestionPolicy.SuggestMemoryPriority | kra/tasks/make_suggestion.py:68-82 | the priority is the distance to the target, plus `OOM_PRIORITY` when a kill raised it. With no limit it is the target, plus `OOM_PRIORITY` after any kill |
| SuggestionPolicy.SuggestMemoryPositive | kra/tasks/make_suggestion.py:63-82 | under sensible settings a suggested memory change has a positive priority and a reason naming the kill or the crossed bound |
| SuggestionPolicy.MemoryBand | kra/tasks/make_suggestion.py:63-66 | under sensible settings the memory band contains the target |
| SuggestionPolicy.SuggestCpuMeaning | kra/tasks/make_suggestion.py:91-113 | a new request is suggested exactly when there is none or it lies outside [lower, upper]. It is then the target, with the distance as priority and a reason naming the crossed bound |
| SuggestionPolicy.SuggestCpuPositive | kra/tasks/make_suggestion.py:100-111 | a suggested request change has a positive priority unless the target is 0 |
| SuggestionPolicy.CpuBand | kra/tasks/make_suggestion.py:96-98 | under sensible settings the CPU band contains the target |
| SuggestionPolicy.CpuReasonMislabelled | kra/tasks/make_suggestion.py:108 | a request above the upper bound is reported with the lower bound's value |
| SuggestionPolicy.MakeSuggestionMeaning | kra/tasks/make_suggestion.py:25-44 | a suggestion is kept exactly when memory or CPU needs a change, with both rules' values and reasons and the sum of their priorities; otherwise an existing one is deleted |
| SuggestionPolicy.MakeSuggestionPositive | kra/tasks/make_suggestion.py:34-44 | under sensible settings, with limits and requests in place, a kept suggestion has a positive priority |
| SuggestionPolicy.EventsOf | kra/tasks/make_suggestion.py:17-19 | the OOM events of exactly that workload's containers of that name |
| SuggestionPolicy.FindSummary | kra/tasks/make_suggestion.py:14-16 | the summary with that workload and name, or None (DoesNotExist) when there is none |
| SuggestionPolicy.SuggestionTable.Refresh | kra/tasks/make_suggestion.py:12-22 | the summary's suggestion is replaced by the new one, or deleted when nothing needs a change. Other suggestions stay, and nothing changes when the summary does not exist |
| OomSuggestions.LatestSpec | kra/tasks/make_suggestions.py:18-19 | the latest kill is None exactly when the container was never killed; otherwise it is one of its kills, and none is later |
| OomSuggestions.MinLimitAbove | kra/tasks/make_suggestions.py:21 | the minimum limit is above the killed limit with the reserve added, so with a non-negative reserve it is above the killed limit |
| OomSuggestions.PriorityAbove | kra/tasks/make_suggestions.py:26 | below the minimum, the priority exceeds 1000 and is stored as at least 1000 |
| OomSuggestions.ReasonNamesLimit | kra/tasks/make_suggestions.py:27 | different killed limits give different reasons |
| OomSuggestions.SuggestionForMeaning | kra/tasks/make_suggestions.py:15-28 | a suggestion is made exactly when the container was killed under a limit and its current non-zero limit is below the minimum. It then carries that minimum, a priority of at least 1000 and a reason naming the killed limit |
| OomSuggestions.SuggestionsMeaning | kra/tasks/make_suggestions.py:15-28 | the loop fails exactly when some investigation fails; otherwise its rows are exactly the suggestions made for the investigations |
| OomSuggestions.MakeSuggestionsFailed | kra/tasks/make_suggestions.py:11-28 | once a prefix of the investigations fails, the whole loop fails the same way |
| OomSuggestions.OomSuggestionTable.MakeSuggestions | kra/tasks/make_suggestions.py:11-28 | the stored suggestions become exactly the loop's rows; on a failure the transaction rolls back and the old rows stay |
| ApplyAdjustment.WalkNest | kra/tasks/apply_adjustment.py:63-67 | following a path attribute by attribute reaches what stands at its end |
| ApplyAdjustment.GetContainers | kra/tasks/apply_adjustment.py:63-67 | `_get_containers` follows the kind's containers path attribute by attribute, under the client's snake_case attribute names |
| ApplyAdjustment.AttributeNameLower | kra/kube.py:24-31 | a field name without capitals is its own attribute name |
| ApplyAdjustment.ContainersAttributePathNames | kra/kube.py:24-31 | the attribute path walked is the kind's JSON containers path with each field renamed to its attribute |
| ApplyAdjustment.ContainersAttributePathDiffers | kra/kube.py:24-31 | the attribute path equals the JSON path exactly for the kinds other than CronJob |
| ApplyAdjustment.CronJobAttributeMissing | kra/tasks/apply_adjustment.py:63-67 | as written, walking a CronJob's client object by its JSON path stops at `jobTemplate`, an attribute the object does not have |
| ApplyAdjustment.OtherKindsReachList | kra/tasks/apply_adjustment.py:63-67 | for every other kind the JSON path reaches the container list |
| ApplyAdjustment.GetContainersReachesList | kra/tasks/apply_adjustment.py:63-67 | walking the attribute path reaches the container list for every kind |
| ApplyAdjustment.PatchPathOf | kra/tasks/apply_adjustment.py:70-74 | the path of container `idx` is the kind's joined containers path between `/` and `/<idx>/resources` |
| ApplyAdjustment.JoinCronJobPath | kra/tasks/apply_adjustment.py:71 | the CronJob path is the pod template path under `spec/jobTemplate` |
| ApplyAdjustment.PatchPathInjective | kra/tasks/apply_adjustment.py:70-74 | different containers get different paths, so each operation replaces its own container's resources |
| ApplyAdjustment.AdjustmentFor | kra/tasks/apply_adjustment.py:56 | the dict comprehension finds the last adjustment for the name; None exactly when there is none |
| ApplyAdjustment.FirstMissing | kra/tasks/apply_adjustment.py:57 | the first container without an adjustment; None exactly when every container has one |
| ApplyAdjustment.JsonPatchOps | kra/tasks/apply_adjustment.py:56-57 | the patch list is built exactly when every container has an adjustment; operation `i` then replaces container `i`'s resources with its adjustment's values |
| ApplyAdjustment.JsonPatchError | kra/tasks/apply_adjustment.py:56-57 | a failing patch list raises KeyError for the first container without an adjustment |
| ApplyAdjustment.ApplyOnce | kra/tasks/apply_adjustment.py:49-60 | the patch call is made exactly when the plan succeeds, and with that plan; the run fails exactly when the plan or the call fails |
| ApplyAdjustment.WithoutWorkload | kra/tasks/apply_adjustment.py:42 | deleting the workload's suggestions leaves exactly the other workloads' suggestions |
| ApplyAdjustment.UpdateSummariesEffect | kra/tasks/apply_adjustment.py:43-46 | afterwards each summary of the workload carries the values of the last adjustment for its container, the one the patch used; every other summary is unchanged |
| ApplyAdjustment.AdjustmentTask.WriteSummaries | kra/tasks/apply_adjustment.py:43-46 | the loop applies each container adjustment's update in turn |
| ApplyAdjustment.AdjustmentTask.Apply | kra/tasks/apply_adjustment.py:14-46 | an unlocked, finished or future adjustment changes nothing, except that a future one is re-queued for its time. Otherwise the patch is attempted, the result recorded, the workload's suggestions deleted and its summaries updated |
| ApplyAdjustment.AppliedOnce | kra/tasks/apply_adjustment.py:24-26 | a second run after a run that applied does nothing, so an adjustment is applied at most once |

## Left out

- I/O, threads and the network: the Kubernetes API, the watch stream, the database, queues,
  locks and `time.sleep`. Their results are parameters: listings, stream signals, read
  results, patch errors, lock outcomes, scrapes, and the clock times of a cycle.
- Randomness: the watch timeout is any value in `[300, 600]`, and the random choice itself is
  not modelled.
- Logging (`log.info`, `log.exception`) is left out. The failures the handler and the
  collectors log are kept as outcomes.
- The generators and `while True` loops of the watcher, the collectors and the handler are
  modelled over finite runs: a sequence of stream items, events or cycles.
- Pods.OwnerRecursive: the owner walk takes a `fuel` bound in place of Python's recursion
  limit. With too little fuel the walk reports a lookup failure.
- OomMessage: `\s` is taken as the ASCII whitespace characters and `\d` as the ASCII digits
  (`kra/collectors/oom.py:17-18`). The patterns are Python 3 `str` patterns, so `re` also
  matches Unicode whitespace and Unicode decimal digits there. A kernel message holds ASCII
  text, and a pid of non-ASCII digits is not modelled.
- Cgroup.ParseCgroup: `\w` is taken as ASCII letters, digits and `_`. Python's Unicode word
  characters are not modelled.
- UUID normalisation of pod uids, database collation and the ordering of rows the database
  leaves unspecified are not modelled. A tie in `order_by` keeps row order. Among OOM kills
  at the same time, `.last()` is taken to be the last one listed.
- `bulk_save` is modelled as writing a block's objects when the block completes, and nothing
  when it raises.
- The standard deviations of the statistics query (`sqrt`, `kra/analytics/container.py:45-59`)
  are carried through the summaries as inputs and are not computed.
- Floating point is modelled with reals. Rounding, `int()` truncation and `math.ceil` are exact.
  Representation error is not modelled.
- The statistics query is an input to the summary tasks. `make_summary` passes container ids
  to `get_containers_summary`, which takes no argument; the model takes the statistics of the
  workload's containers.
- Summaries.ContainerSummary: the statistics row is taken to carry `max_cpu_m`,
  `stddev_memory_mi`, `stddev_cpu_m` and a non-NULL CPU total, which `_fill_summary` reads
  (`kra/tasks/make_summary.py:49-52`, `55`, `58`, `61-62`). The query shown supplies none of
  them: it names its deviation `memory_mi_stddev` (`kra/analytics/container.py:47`). Its CPU
  total is `max(cpu_m_seconds)` (`kra/analytics/container.py:29`), and the usage collector
  never sets that nullable column (`kra/models.py:72`, `kra/collectors/metrics.py:96-100`). The
  AttributeError and the TypeError on the CPU total that would follow are not modelled.
- The pickle dump of `make_summaries` (`KRA_INTERMEDIATE_DUMP`) is a cache of the same
  grouping and is not modelled.
- The nested pod loop of `make_summaries` is modelled by gathering the containers pod by pod,
  and then grouping them by name.
- Summaries.SummaryStore.MakeSummaries: the workload ids are required to be distinct. They are
  the table's primary keys.
- Settings (`MEM_TARGET_REQUEST`, `MEM_BOUNDS`, `CPU_TARGET_REQUEST`, `CPU_BOUNDS`, `MEM_MIN`,
  `OOM_PRIORITY`, `BASE_MEMORY_RESERVE_FRACTION`, `MAX_SUMMARY_AGE`) are not in the settings
  file. They are a parameter, and the positivity lemmas assume sensible values.
- The reason strings of `_suggest_memory` and `_suggest_cpu` are datatypes holding the
  numbers the text shows. Datetimes are integers.
- The project also holds a `kra/models/` package with one file per model, and its definitions
  differ from `kra/models.py`. Where they differ, the model follows the package, because the
  tasks read its fields: `Container.started_at` (`kra/models/Container.py:8`), the
  `InstanceSummary` table (`kra/models/InstanceSummary.py`), `Suggestion.memory_reason` and
  `cpu_reason` (`kra/models/Suggestion.py:11-12`), and `Adjustment.scheduled_for` and `result`
  (`kra/models/Adjustment.py:6-7`). Against `kra/models.py` alone, `order_by('-started_at')` in
  `_fill_summary` would fail.
- Summaries.SummaryStore: its suggestion rows are the keys of the summaries they belong to. The
  store only deletes them through the cascade; SuggestionPolicy writes them.
- `make_suggestions.py` reads `models.Investigation`, which `kra/models.py` does not define,
  and saves Suggestion fields that the shown model lacks. The rule is modelled with its own
  Investigation and suggestion records.
- Models.SummaryGetAll: the regenerating branch calls `make_summary()` without the
  `workload_id` it requires (`kra/models.py:136`, `kra/tasks/make_summary.py:9`), so as written it
  raises TypeError. The model reports that branch as `Regenerate`, the choice to make summaries
  afresh, and does not model that TypeError.
- `make_suggestions(force_update_investigations)` is called with `force_update=` from
  `Suggestion.get_all`. Suggestion.get_all is modelled as recomputing when forced, without
  that call's TypeError.
- The check `if oom.container is None` (`kra/collectors/oom.py:93`) is dead, because `.get`
  raises first. The model reports `get`'s DoesNotExist and MultipleObjectsReturned.
- SuggestionPolicy.SuggestionTable.Refresh: a missing summary (DoesNotExist) is modelled as
  nothing changing, not as a raised exception.
- The celery scheduling of `apply_adjustment.apply_async` is modelled as appending the
  adjustment and its time to a re-queue list.
- The Kubernetes client's objects are modelled as nested attributes whose names are the JSON
  field names in snake_case (ApplyAdjustment.AttributeName). The client's other attributes
  and its deserialisation are not modelled.
- The Django models' field validators, string representations and the `UNUSED` Workload
  fields are not modelled.

## Findings

| source | as written | input that shows it | evidently intended | confidence | as-written member | corrected member |
|---|---|---|---|---|---|---|
| kra/kube_watch.py:103-106 | `self.db[uid]` raises KeyError for a uid the table does not hold, so the `is None` branch that yields ADDED is dead | a resync that lists an object created while the watch was down | `self.db.get(uid)`: a new object is stored and yields ADDED | not executed | KubeWatchAsWritten.NewObjectAborts | KubeWatch.KubeWatcher.StoreListed |
| kra/kube_watch.py:110-114 | deleting from `self.db` while iterating over `self.db.keys()` raises RuntimeError at the next step | a resync after two objects were deleted while the watch was down | iterate over a snapshot of the keys, so every stale object is removed and yields DELETED | not executed | KubeWatchAsWritten.TwoStaleOnlyOneDeleted | KubeWatch.KubeWatcher.DropStale |
| kra/tasks/make_suggestion.py:108 | the reason for a request above the upper bound prints `lower_bound` | average 100m, target factor 1, bounds (0.5, 2), request 300m: the reason says "> upper bound 50m" | print `upper_bound` | not executed | SuggestionPolicy.CpuReasonMislabelled | SuggestionPolicy.SuggestCpuMeaning |
| kra/analytics/container.py:19 | `total_memory_mi_seconds / total_seconds` has no `NULLIF`, unlike the CPU average on line 20 | two samples of one container measured at the same instant: a division by zero fails the whole query | `NULLIF(total_seconds, 0)`, giving a NULL average | not executed | ContainerAnalytics.SameInstantFails | ContainerAnalytics.StatsMeaning |
| kra/tasks/apply_adjustment.py:63-67 | `getattr(obj, part)` walks `kube.containers_paths`, whose CronJob entry (`kra/kube.py:28`) holds the JSON field name `jobTemplate` | any CronJob adjustment: the client's object names that attribute `job_template`, so `getattr` raises AttributeError | walk the snake_case attribute names and keep the JSON names for the patch path | medium, as it rests on the client library's naming; not executed | ApplyAdjustment.CronJobAttributeMissing | ApplyAdjustment.GetContainersReachesList |

=== FILE: apply_adjustment.dfy ===
/**
 * kra/tasks/apply_adjustment.py: applying an Adjustment to its workload.
 *
 * The task is gated (the lock must be taken, the adjustment must not have a result yet, and its
 * time must have come). It then reads the workload object, walks the kind's containers path to
 * the list of container specs, builds one JSON-Patch "replace" operation (section 4.3 of
 * RFC 6902) per container, and sends the patch. Whatever happened is recorded as the
 * adjustment's result. Then the workload's suggestions are deleted and the adjusted values are
 * written to its summaries.
 *
 * The Kubernetes read and patch calls are parameters: the object read (or the failure text),
 * and the failure text of the patch call, if any.
 */
module ApplyAdjustment {
  import opened Common
  import opened Models
  import Kube
  import Decimal

  /** A container spec in a workload object. */
  datatype ContainerSpec = ContainerSpec(name: string)

  /**
   * A workload object as the client returns it: attributes leading to the list of container
   * specs. The client names each attribute after its JSON field, in snake_case (`AttributeName`).
   */
  datatype KubeValue = Record(fields: map<string, KubeValue>) | ContainerList(items: seq<ContainerSpec>)

  datatype ContainerAdjustment = ContainerAdjustment(containerName: string, newMemoryLimitMi: Option<nat>, newCpuRequestM: Option<nat>)

  /** Why applying failed; the text of the exception is not modelled. */
  datatype ApplyError =
    | ReadFailed(reason: string)
    | MissingAttribute(name: string)
    | NotAList
    | NoAdjustment(containerName: string)
    | PatchFailed(reason: string)

  datatype OperationResult = OperationResult(finishedAt: int, error: Option<ApplyError>)

  datatype Adjustment = Adjustment(
    id: nat, workloadId: nat, kind: WorkloadKind, namespace: string, name: string,
    scheduledFor: int, result: Option<OperationResult>, containers: seq<ContainerAdjustment>)

  /** One JSON-Patch operation: its op, its path, and the memory limit and cpu request it sets. */
  datatype PatchOp = PatchOp(op: string, path: string, memoryLimit: string, cpuRequest: string)

  /** The Summary columns an adjustment writes. */
  datatype SummaryLimits = SummaryLimits(workloadId: nat, containerName: string, memoryLimitMi: Option<nat>, cpuRequestM: Option<nat>)

  /** A Suggestion, with the workload of its summary. */
  datatype SuggestionRef = SuggestionRef(id: nat, workloadId: nat)

  /** How a run of the task ended. */
  datatype Gate = AlreadyLocked | AlreadyFinished | Rescheduled | Applied

  // ---------------------------------------------------------------- _get_containers

  /** Following `path` attribute by attribute from `obj`. */
  function Walk(obj: KubeValue, path: seq<string>): Result<KubeValue, ApplyError>
  {
    if path == [] then Ok(obj)
    else if obj.Record? && path[0] in obj.fields then Walk(obj.fields[path[0]], path[1..])
    else Err(MissingAttribute(path[0]))
  }

  /** The smallest object with `leaf` at the end of `path`. */
  function Nest(path: seq<string>, leaf: KubeValue): KubeValue
  {
    if path == [] then leaf else Record(map[path[0] := Nest(path[1..], leaf)])
  }

  /** The walk reaches what stands at the end of the path. */
  lemma {:induction false} WalkNest(path: seq<string>, leaf: KubeValue)
    ensures Walk(Nest(path, leaf), path) == Ok(leaf)
  {
    if path != [] {
      WalkNest(path[1..], leaf);
    }
  }

  /** The Python attribute the client gives a JSON field: each capital `X` becomes `_x`. */
  function AttributeName(key: string): string
  {
    if key == [] then []
    else (if 'A' <= key[0] <= 'Z' then ['_', (key[0] as int + 32) as char] else [key[0]]) + AttributeName(key[1..])
  }

  /** A field name without capitals is its own attribute name. */
  lemma {:induction false} AttributeNameLower(key: string)
    requires forall i :: 0 <= i < |key| ==> !('A' <= key[i] <= 'Z')
    ensures AttributeName(key) == key
  {
    if key != [] {
      AttributeNameLower(key[1..]);
      assert key == [key[0]] + key[1..];
    }
  }

  /** The attribute names of a path of JSON field names. */
  function AttributePath(path: seq<string>): (r: seq<string>)
    ensures |r| == |path| && forall i :: 0 <= i < |path| ==> r[i] == AttributeName(path[i])
  {
    seq(|path|, i requires 0 <= i < |path| => AttributeName(path[i]))
  }

  /** The attribute path the client object has for a kind's containers path. */
  function ContainersAttributePath(kind: WorkloadKind): seq<string>
  {
    if kind == CronJob then ["spec", "job_template"] + Kube.PodTemplatePath else Kube.PodTemplatePath
  }

  /** The attribute names of the fields on the containers paths. */
  lemma PathFieldNames()
    ensures AttributeName("spec") == "spec" && AttributeName("template") == "template"
    ensures AttributeName("containers") == "containers" && AttributeName("jobTemplate") == "job_template"
  {
    SpecName();
    TemplateName();
    ContainersName();
    JobTemplateName();
  }

  lemma SpecName()
    ensures AttributeName("spec") == "spec"
  {
    var k := "spec";
    forall i | 0 <= i < |k| ensures !('A' <= k[i] <= 'Z') {
    }
    AttributeNameLower(k);
  }

  lemma TemplateName()
    ensures AttributeName("template") == "template"
  {
    var k := "template";
    forall i | 0 <= i < |k| ensures !('A' <= k[i] <= 'Z') {
    }
    AttributeNameLower(k);
  }

  lemma ContainersName()
    ensures AttributeName("containers") == "containers"
  {
    var k := "containers";
    forall i | 0 <= i < |k| ensures !('A' <= k[i] <= 'Z') {
    }
    AttributeNameLower(k);
  }

  /** `jobTemplate` becomes `job_template`. */
  lemma JobTemplateName()
    ensures AttributeName("jobTemplate") == "job_template"
  {
    var job, t, emplate := "job", "T", "emplate";
    LowerPieces();
    AttributeNameAppend(job, t + emplate);
    AttributeNameAppend(t, emplate);
    assert job + (t + emplate) == "jobTemplate";
    assert job + ("_t" + emplate) == "job_template";
  }

  /** The pieces of `jobTemplate` around its capital. */
  lemma LowerPieces()
    ensures AttributeName("job") == "job" && AttributeName("T") == "_t" && AttributeName("emplate") == "emplate"
  {
    var job, t, emplate := "job", "T", "emplate";
    forall i | 0 <= i < |job| ensures !('A' <= job[i] <= 'Z') {
    }
    forall i | 0 <= i < |emplate| ensures !('A' <= emplate[i] <= 'Z') {
    }
    AttributeNameLower(job);
    AttributeNameLower(emplate);
    assert t[1..] == [];
  }

  /** Field names are renamed character by character. */
  lemma {:induction false} AttributeNameAppend(a: string, b: string)
    ensures AttributeName(a + b) == AttributeName(a) + AttributeName(b)
  {
    if a != [] {
      assert (a + b)[0] == a[0] && (a + b)[1..] == a[1..] + b;
      AttributeNameAppend(a[1..], b);
    } else {
      assert a + b == b;
    }
  }

  /** It is the attribute names of the containers path. */
  lemma ContainersAttributePathNames(kind: WorkloadKind)
    ensures ContainersAttributePath(kind) == AttributePath(Kube.ContainersPath(kind))
  {
    PodTemplateAttributes();
    if kind == CronJob {
      var head := ["spec", "jobTemplate"];
      SpecName();
      JobTemplateName();
      assert AttributePath(head) == ["spec", "job_template"];
      AttributePathAppend(head, Kube.PodTemplatePath);
      assert Kube.ContainersPath(kind) == head + Kube.PodTemplatePath;
    } else {
      assert Kube.ContainersPath(kind) == Kube.PodTemplatePath;
    }
  }

  /** The pod template path has no capitals: its attribute names are its field names. */
  lemma PodTemplateAttributes()
    ensures AttributePath(Kube.PodTemplatePath) == Kube.PodTemplatePath
  {
    var p := Kube.PodTemplatePath;
    SpecName();
    TemplateName();
    ContainersName();
    forall i | 0 <= i < |p| ensures AttributePath(p)[i] == p[i] {
    }
  }

  lemma AttributePathAppend(p: seq<string>, q: seq<string>)
    ensures AttributePath(p + q) == AttributePath(p) + AttributePath(q)
  {
  }

  /** Only CronJob's attribute path differs from its field names. */
  lemma ContainersAttributePathDiffers(kind: WorkloadKind)
    ensures kind != CronJob <==> ContainersAttributePath(kind) == Kube.ContainersPath(kind)
  {
    if kind == CronJob {
      assert ContainersAttributePath(kind)[1][3] != Kube.ContainersPath(kind)[1][3];
    }
  }

  /** The smallest client object of kind `kind` whose containers are `cs`. */
  function ClientObject(kind: WorkloadKind, cs: seq<ContainerSpec>): KubeValue
  {
    Nest(ContainersAttributePath(kind), ContainerList(cs))
  }

  /**
   * `_get_containers` as written: `getattr` with the JSON field names of `containers_paths`.
   * On a CronJob, whose client object has the attribute `job_template` and no `jobTemplate`,
   * the `getattr` raises AttributeError.
   */
  lemma CronJobAttributeMissing(cs: seq<ContainerSpec>)
    ensures Walk(ClientObject(CronJob, cs), Kube.ContainersPath(CronJob)) == Err(MissingAttribute("jobTemplate"))
  {
    var path := ContainersAttributePath(CronJob);
    var spec := Nest(path[1..], ContainerList(cs));
    assert ClientObject(CronJob, cs) == Record(map["spec" := spec]);
    assert spec == Record(map["job_template" := Nest(path[1..][1..], ContainerList(cs))]);
    assert "jobTemplate" != "job_template" by {
      assert "jobTemplate"[3] != "job_template"[3];
    }
    var fields := Kube.ContainersPath(CronJob);
    assert Walk(ClientObject(CronJob, cs), fields) == Walk(spec, fields[1..]);
  }

  /** On every other kind the walk as written reaches the containers. */
  lemma OtherKindsReachList(kind: WorkloadKind, cs: seq<ContainerSpec>)
    requires kind != CronJob
    ensures Walk(ClientObject(kind, cs), Kube.ContainersPath(kind)) == Ok(ContainerList(cs))
  {
    WalkNest(Kube.PodTemplatePath, ContainerList(cs));
  }

  /** The corrected walk, by attribute names, reaches the containers of every kind. */
  lemma GetContainersReachesList(kind: WorkloadKind, cs: seq<ContainerSpec>)
    ensures Walk(ClientObject(kind, cs), ContainersAttributePath(kind)) == Ok(ContainerList(cs))
  {
    WalkNest(ContainersAttributePath(kind), ContainerList(cs));
  }

  /**
   * `_get_containers`, walking the attribute names of the kind's containers path: the object
   * at the end of it. (The code as written passes the JSON field names to `getattr`; see
   * `CronJobAttributeMissing`.)
   */
  method GetContainers(obj: KubeValue, kind: WorkloadKind) returns (r: Result<KubeValue, ApplyError>)
    ensures r == Walk(obj, ContainersAttributePath(kind))
  {
    var path := ContainersAttributePath(kind);
    var cur := obj;
    var i := 0;
    while i < |path|
      invariant 0 <= i <= |path|
      invariant Walk(obj, path) == Walk(cur, path[i..])
    {
      assert path[i..][0] == path[i] && path[i..][1..] == path[i + 1..];
      if !(cur.Record? && path[i] in cur.fields) {
        return Err(MissingAttribute(path[i]));
      }
      cur := cur.fields[path[i]];
      i := i + 1;
    }
    assert path[i..] == [];
    return Ok(cur);
  }

  // ---------------------------------------------------------------- _get_json_patch_op

  /** `sep.join(parts)`. */
  function Join(parts: seq<string>, sep: string): string
  {
    if parts == [] then ""
    else if |parts| == 1 then parts[0]
    else parts[0] + sep + Join(parts[1..], sep)
  }

  /** The patch path of container `idx`: `/<containers path joined by '/'>/<idx>/resources`. */
  function PatchPath(kind: WorkloadKind, idx: nat): string
  {
    "/" + Join(Kube.ContainersPath(kind), "/") + "/" + Decimal.NatToString(idx) + "/resources"
  }

  /** A quantity as Python formats it: the number, or "None" when the adjustment leaves it unset. */
  function Quantity(n: Option<nat>): string
  {
    match n
    case None => "None"
    case Some(v) => Decimal.NatToString(v)
  }

  /** `_get_json_patch_op`. */
  function PatchOpFor(idx: nat, kind: WorkloadKind, ca: ContainerAdjustment): PatchOp
  {
    PatchOp("replace", PatchPath(kind, idx), Quantity(ca.newMemoryLimitMi) + "Mi", Quantity(ca.newCpuRequestM) + "m")
  }

  lemma JoinFour(a: string, b: string, c: string, d: string, sep: string)
    ensures Join([a, b, c, d], sep) == a + sep + (b + sep + (c + sep + d))
  {
    assert [a, b, c, d][1..] == [b, c, d];
    assert [b, c, d][1..] == [c, d];
    assert [c, d][1..] == [d];
    assert Join([c, d], sep) == c + sep + d;
  }

  lemma JoinPodTemplatePath()
    ensures Join(Kube.PodTemplatePath, "/") == "spec/template/spec/containers"
  {
    JoinFour("spec", "template", "spec", "containers", "/");
  }

  /** The CronJob path is the pod template path under `spec/jobTemplate`. */
  lemma JoinCronJobPath()
    ensures Join(Kube.ContainersPath(CronJob), "/") == "spec/jobTemplate/" + Join(Kube.PodTemplatePath, "/")
  {
    var tail := Kube.PodTemplatePath;
    var path := Kube.ContainersPath(CronJob);
    assert path[1..] == ["jobTemplate"] + tail;
    assert path[1..][1..] == tail;
    assert "spec/jobTemplate/" == "spec" + "/" + ("jobTemplate" + "/");
  }

  /** The path of container `idx`: the kind's joined containers path between `/` and `/<idx>/resources`. */
  lemma PatchPathOf(kind: WorkloadKind, idx: nat)
    ensures kind == CronJob ==>
      PatchPath(kind, idx) == "/" + ("spec/jobTemplate/" + "spec/template/spec/containers") + "/" + Decimal.NatToString(idx) + "/resources"
    ensures kind != CronJob ==>
      PatchPath(kind, idx) == "/" + "spec/template/spec/containers" + "/" + Decimal.NatToString(idx) + "/resources"
  {
    JoinPodTemplatePath();
    if kind == CronJob {
      JoinCronJobPath();
    } else {
      assert Kube.ContainersPath(kind) == Kube.PodTemplatePath;
      JoinPodTemplatePath();
    }
  }

  /** Different containers get different paths: each operation replaces the resources of its own container. */
  lemma PatchPathInjective(kind: WorkloadKind, i: nat, j: nat)
    requires PatchPath(kind, i) == PatchPath(kind, j)
    ensures i == j
  {
    var a := "/" + Join(Kube.ContainersPath(kind), "/") + "/";
    var b := "/resources";
    var si := a + Decimal.NatToString(i) + b;
    var sj := a + Decimal.NatToString(j) + b;
    assert |Decimal.NatToString(i)| == |Decimal.NatToString(j)|;
    assert si[|a|..|si| - |b|] == Decimal.NatToString(i);
    assert sj[|a|..|sj| - |b|] == Decimal.NatToString(j);
    Decimal.NatToStringInjective(i, j);
  }

  // ---------------------------------------------------------------- _apply_adjustment

  /** `{ca.container_name: ca for ca in adj.containers}[name]`: the last adjustment for that name. */
  function AdjustmentFor(cas: seq<ContainerAdjustment>, name: string): (r: Option<ContainerAdjustment>)
    ensures r.Some? ==> r.value.containerName == name
    ensures r.Some? ==> exists k :: (0 <= k < |cas| && cas[k] == r.value
      && forall m :: k < m < |cas| ==> cas[m].containerName != name)
    ensures r.None? <==> forall k :: 0 <= k < |cas| ==> cas[k].containerName != name
  {
    if cas == [] then None
    else
      var n := |cas| - 1;
      if cas[n].containerName == name then Some(cas[n])
      else
        var prev := AdjustmentFor(cas[..n], name);
        assert forall k :: 0 <= k < n ==> cas[..n][k] == cas[k];
        prev
  }

  /** The first container without an adjustment, if any. */
  function FirstMissing(containers: seq<ContainerSpec>, cas: seq<ContainerAdjustment>): (r: Option<nat>)
    ensures r.None? <==> forall i :: 0 <= i < |containers| ==> AdjustmentFor(cas, containers[i].name).Some?
    ensures r.Some? ==> (r.value < |containers| && AdjustmentFor(cas, containers[r.value].name).None?
      && forall k :: 0 <= k < r.value ==> AdjustmentFor(cas, containers[k].name).Some?)
  {
    if containers == [] then None
    else if AdjustmentFor(cas, containers[0].name).None? then Some(0)
    else
      var rest := FirstMissing(containers[1..], cas);
      assert forall k :: 0 <= k < |containers| - 1 ==> containers[1..][k] == containers[k + 1];
      if rest.None? then None else Some(rest.value + 1)
  }

  /**
   * The list comprehension building the patch: operation `idx` for container `idx`, or the
   * KeyError of the first container without an adjustment.
   */
  function JsonPatch(containers: seq<ContainerSpec>, kind: WorkloadKind, cas: seq<ContainerAdjustment>): (r: Result<seq<PatchOp>, ApplyError>)
  {
    match FirstMissing(containers, cas)
    case Some(i) => Err(NoAdjustment(containers[i].name))
    case None =>
      Ok(seq(|containers|, i requires 0 <= i < |containers| => PatchOpFor(i, kind, AdjustmentFor(cas, containers[i].name).value)))
  }

  /**
   * The patch list succeeds exactly when every container has an adjustment; operation `i` then
   * replaces the resources of container `i` with its adjustment's values.
   */
  lemma JsonPatchOps(containers: seq<ContainerSpec>, kind: WorkloadKind, cas: seq<ContainerAdjustment>)
    ensures var r := JsonPatch(containers, kind, cas);
      && (r.Ok? <==> forall i :: 0 <= i < |containers| ==> AdjustmentFor(cas, containers[i].name).Some?)
      && (r.Ok? ==> |r.value| == |containers|)
      && (r.Ok? ==> forall i :: 0 <= i < |containers| ==> r.value[i] == PatchOpFor(i, kind, AdjustmentFor(cas, containers[i].name).value))
  {
  }

  /** A failing patch list names the first container without an adjustment. */
  lemma JsonPatchError(containers: seq<ContainerSpec>, kind: WorkloadKind, cas: seq<ContainerAdjustment>)
    requires JsonPatch(containers, kind, cas).Err?
    ensures exists i :: (0 <= i < |containers| && AdjustmentFor(cas, containers[i].name).None?
      && JsonPatch(containers, kind, cas).error == NoAdjustment(containers[i].name)
      && forall k :: 0 <= k < i ==> AdjustmentFor(cas, containers[k].name).Some?)
  {
    var i := FirstMissing(containers, cas).value;
    assert 0 <= i < |containers|;
  }

  /** What `_apply_adjustment` sends, up to the patch call: the patch list, or the first failure. */
  function Planned(adj: Adjustment, read: Result<KubeValue, string>): Result<seq<PatchOp>, ApplyError>
  {
    match read
    case Err(reason) => Err(ReadFailed(reason))
    case Ok(obj) =>
      match Walk(obj, ContainersAttributePath(adj.kind))
      case Err(e) => Err(e)
      case Ok(v) => if v.ContainerList? then JsonPatch(v.items, adj.kind, adj.containers) else Err(NotAList)
  }

  /**
   * `_apply_adjustment`: the patch sent, if the patch call is reached, and the error raised, if
   * any. The patch call is made exactly when the plan succeeds, and the run fails exactly when
   * the plan or the call does.
   */
  method ApplyOnce(adj: Adjustment, read: Result<KubeValue, string>, patchError: Option<string>)
    returns (sent: Option<seq<PatchOp>>, err: Option<ApplyError>)
    ensures sent.Some? <==> Planned(adj, read).Ok?
    ensures sent.Some? ==> sent.value == Planned(adj, read).value
    ensures err.None? <==> Planned(adj, read).Ok? && patchError.None?
    ensures Planned(adj, read).Err? ==> err == Some(Planned(adj, read).error)
    ensures Planned(adj, read).Ok? && patchError.Some? ==> err == Some(PatchFailed(patchError.value))
  {
    sent := None;
    if read.Err? {
      return None, Some(ReadFailed(read.error));
    }
    var containers := GetContainers(read.value, adj.kind);
    if containers.Err? {
      return None, Some(containers.error);
    }
    if !containers.value.ContainerList? {
      return None, Some(NotAList);
    }
    var patch := JsonPatch(containers.value.items, adj.kind, adj.containers);
    if patch.Err? {
      return None, Some(patch.error);
    }
    sent := Some(patch.value);
    err := if patchError.Some? then Some(PatchFailed(patchError.value)) else None;
  }

  // ---------------------------------------------------------------- after applying

  /** `Suggestion.objects.filter(summary__workload_id=wid).delete()`: the suggestions left. */
  function WithoutWorkload(suggestions: seq<SuggestionRef>, wid: nat): (r: seq<SuggestionRef>)
    ensures forall s :: s in r <==> s in suggestions && s.workloadId != wid
  {
    if suggestions == [] then []
    else
      var n := |suggestions| - 1;
      assert suggestions == suggestions[..n] + [suggestions[n]];
      WithoutWorkload(suggestions[..n], wid) + (if suggestions[n].workloadId == wid then [] else [suggestions[n]])
  }

  /** One `Summary...filter(...).update(...)`: the workload's summaries for `ca`'s container get its values. */
  function SetLimits(rows: seq<SummaryLimits>, wid: nat, ca: ContainerAdjustment): (r: seq<SummaryLimits>)
    ensures |r| == |rows|
  {
    seq(|rows|, j requires 0 <= j < |rows| =>
      if rows[j].workloadId == wid && rows[j].containerName == ca.containerName
      then rows[j].(memoryLimitMi := ca.newMemoryLimitMi, cpuRequestM := ca.newCpuRequestM)
      else rows[j])
  }

  /** The summaries after the updates for every container adjustment, in order. */
  function UpdateSummaries(rows: seq<SummaryLimits>, wid: nat, cas: seq<ContainerAdjustment>): (r: seq<SummaryLimits>)
    ensures |r| == |rows|
  {
    if cas == [] then rows
    else SetLimits(UpdateSummaries(rows, wid, cas[..|cas| - 1]), wid, cas[|cas| - 1])
  }

  /**
   * After the updates, a summary of the workload carries the values of the last adjustment for
   * its container, the same one the patch used; every other summary is unchanged.
   */
  lemma {:induction false} UpdateSummariesEffect(rows: seq<SummaryLimits>, wid: nat, cas: seq<ContainerAdjustment>, j: nat)
    requires j < |rows|
    ensures var ca := AdjustmentFor(cas, rows[j].containerName);
      UpdateSummaries(rows, wid, cas)[j] ==
        if rows[j].workloadId == wid && ca.Some?
        then rows[j].(memoryLimitMi := ca.value.newMemoryLimitMi, cpuRequestM := ca.value.newCpuRequestM)
        else rows[j]
  {
    if cas != [] {
      var n := |cas| - 1;
      UpdateSummariesEffect(rows, wid, cas[..n], j);
    }
  }

  /** The state `apply_adjustment` works on: the adjustment and the rows and calls it touches. */
  class AdjustmentTask {
    var adj: Adjustment
    var suggestions: seq<SuggestionRef>
    var summaries: seq<SummaryLimits>
    /** The re-queued runs: (adjustment id, eta). */
    var requeued: seq<(nat, int)>
    /** The patch lists sent to the cluster. */
    var patches: seq<seq<PatchOp>>

    constructor(adj: Adjustment, suggestions: seq<SuggestionRef>, summaries: seq<SummaryLimits>)
      ensures this.adj == adj && this.suggestions == suggestions && this.summaries == summaries
      ensures requeued == [] && patches == []
    {
      this.adj := adj;
      this.suggestions := suggestions;
      this.summaries := summaries;
      requeued := [];
      patches := [];
    }

    /**
     * `apply_adjustment` with the lock taken or not, at time `now`, with the outcome of the read
     * and of the patch call.
     */
    method Apply(locked: bool, now: int, read: Result<KubeValue, string>, patchError: Option<string>) returns (g: Gate)
      modifies this
      ensures !locked ==> g == AlreadyLocked
      ensures locked && old(adj.result).Some? ==> g == AlreadyFinished
      ensures locked && old(adj.result).None? && old(adj.scheduledFor) > now ==> g == Rescheduled
      ensures locked && old(adj.result).None? && old(adj.scheduledFor) <= now ==> g == Applied
      ensures g != Applied ==> (adj == old(adj) && suggestions == old(suggestions) && summaries == old(summaries)
        && patches == old(patches))
      ensures requeued == old(requeued) + (if g == Rescheduled then [(adj.id, adj.scheduledFor)] else [])
      ensures g == Applied ==>
        var plan := Planned(old(adj), read);
        && adj == old(adj).(result := Some(OperationResult(now,
             if plan.Err? then Some(plan.error) else if patchError.Some? then Some(PatchFailed(patchError.value)) else None)))
        && patches == old(patches) + (if plan.Ok? then [plan.value] else [])
        && suggestions == WithoutWorkload(old(suggestions), adj.workloadId)
        && summaries == UpdateSummaries(old(summaries), adj.workloadId, adj.containers)
    {
      if !locked {
        return AlreadyLocked;
      }
      if adj.result.Some? {
        return AlreadyFinished;
      }
      if adj.scheduledFor > now {
        requeued := requeued + [(adj.id, adj.scheduledFor)];
        return Rescheduled;
      }
      var sent, err := ApplyOnce(adj, read, patchError);
      if sent.Some? {
        patches := patches + [sent.value];
      }
      adj := adj.(result := Some(OperationResult(now, err)));
      suggestions := WithoutWorkload(suggestions, adj.workloadId);
      WriteSummaries(adj.workloadId, adj.containers);
      g := Applied;
    }

    /** The loop over the container adjustments, each updating the workload's summaries for its container. */
    method WriteSummaries(wid: nat, cas: seq<ContainerAdjustment>)
      modifies this`summaries
      ensures summaries == UpdateSummaries(old(summaries), wid, cas)
    {
      var i := 0;
      while i < |cas|
        invariant 0 <= i <= |cas|
        invariant summaries == UpdateSummaries(old(summaries), wid, cas[..i])
      {
        assert cas[..i + 1][..i] == cas[..i];
        summaries := SetLimits(summaries, wid, cas[i]);
        i := i + 1;
      }
      assert cas[..i] == cas;
    }
  }

  /** A second run after a run that applied does nothing: the adjustment is applied at most once. */
  method AppliedOnce(t: AdjustmentTask, now1: int, now2: int, read: Result<KubeValue, string>, patchError: Option<string>)
    returns (g1: Gate, g2: Gate)
    modifies t
    ensures g1 == Applied ==> g2 == AlreadyFinished && |t.patches| <= |old(t.patches)| + 1
  {
    g1 := t.Apply(true, now1, read, patchError);
    g2 := t.Apply(true, now2, read, patchError);
  }
}

=== FILE: cgroup.dfy ===
/**
 * `parse_cgroup` of kra/utils.py: the search of `/pod([\w\-]+)/(\w+)$` in a cgroup path, returning
 * the pod uid and the container runtime id, or `(None, None)`.
 *
 * `\w` is taken over ASCII (letters, digits, `_`); `$` matches at the end of the string or just
 * before a final newline, as in Python. Because neither group can contain `/`, the pattern can
 * only match where the path's last two components are `pod<uid>` and `<runtime id>`, so the
 * search is computed by scanning maximal suffixes from the end.
 */
module Cgroup {
  import opened Common

  predicate IsWordChar(c: char)
  {
    ('a' <= c <= 'z') || ('A' <= c <= 'Z') || ('0' <= c <= '9') || c == '_'
  }

  /** `[\w\-]`. */
  predicate IsUidChar(c: char)
  {
    IsWordChar(c) || c == '-'
  }

  predicate AllWordChars(s: string)
  {
    forall i :: 0 <= i < |s| ==> IsWordChar(s[i])
  }

  predicate AllUidChars(s: string)
  {
    forall i :: 0 <= i < |s| ==> IsUidChar(s[i])
  }

  /** The number of word characters at the end of `s`. */
  function WordRun(s: string): (n: nat)
    ensures n <= |s|
    ensures forall i :: |s| - n <= i < |s| ==> IsWordChar(s[i])
    ensures n < |s| ==> !IsWordChar(s[|s| - n - 1])
  {
    if s == [] || !IsWordChar(s[|s| - 1]) then 0 else WordRun(s[..|s| - 1]) + 1
  }

  /** The number of `[\w\-]` characters at the end of `s`. */
  function UidRun(s: string): (n: nat)
    ensures n <= |s|
    ensures forall i :: |s| - n <= i < |s| ==> IsUidChar(s[i])
    ensures n < |s| ==> !IsUidChar(s[|s| - n - 1])
  {
    if s == [] || !IsUidChar(s[|s| - 1]) then 0 else UidRun(s[..|s| - 1]) + 1
  }

  /**
   * The pattern matches `s` with groups `u` and `r`: `s` is some prefix, then `/pod`, `u`, `/`,
   * `r`, then nothing or one final newline.
   */
  ghost predicate Matches(s: string, u: string, r: string)
  {
    && |u| >= 1 && AllUidChars(u) && |r| >= 1 && AllWordChars(r)
    && exists pre: string, tail: string ::
      (tail == "" || tail == "\n") && s == pre + "/pod" + u + "/" + r + tail
  }

  /** The part of `s` before the `$` anchor: without a final newline. */
  function Body(s: string): string
  {
    if |s| > 0 && s[|s| - 1] == '\n' then s[..|s| - 1] else s
  }

  /** The last component of `body` when it is a non-empty run of word characters after a `/`: the text before that `/`, and the component. */
  function LastComponent(body: string): Option<(string, string)>
  {
    var k := |body| - WordRun(body);
    if k == |body| || k == 0 || body[k - 1] != '/' then None else Some((body[..k - 1], body[k..]))
  }

  /** The uid in the last component of `rest` when that component is `pod` and a non-empty `[\w\-]` run after a `/`. */
  function PodComponent(rest: string): Option<string>
  {
    var j := |rest| - UidRun(rest);
    if |rest| - j < 4 || j == 0 || rest[j - 1] != '/' || rest[j..j + 3] != "pod" then None else Some(rest[j + 3..])
  }

  /** `(pod_uid, container_runtime_id)` of `parse_cgroup`. */
  function ParseCgroup(s: string): (ids: (Option<string>, Option<string>))
    ensures ids.0.None? <==> ids.1.None?
  {
    match LastComponent(Body(s))
    case None => (None, None)
    case Some((rest, r)) =>
      match PodComponent(rest)
      case None => (None, None)
      case Some(u) => (Some(u), Some(r))
  }

  /** Whatever `parse_cgroup` returns is a match of the pattern. */
  lemma ParseCgroupSound(s: string)
    requires ParseCgroup(s).0.Some?
    ensures Matches(s, ParseCgroup(s).0.value, ParseCgroup(s).1.value)
  {
    var body := Body(s);
    var last := LastComponent(body).value;
    var rest, r := last.0, last.1;
    var u := PodComponent(rest).value;
    assert ParseCgroup(s) == (Some(u), Some(r));
    LastComponentShape(body);
    var pre := PodComponentShape(rest);
    BodyTail(s);
    MatchesIntro(s, pre, u, r, if body == s then "" else "\n");
  }

  /** A last component found is a non-empty word run after a `/`. */
  lemma LastComponentShape(body: string)
    requires LastComponent(body).Some?
    ensures var (rest, r) := LastComponent(body).value;
      body == rest + "/" + r && |r| >= 1 && AllWordChars(r)
  {
    var k := |body| - WordRun(body);
    var r := body[k..];
    assert AllWordChars(r) by {
      forall i | 0 <= i < |r| ensures IsWordChar(r[i]) {
        assert r[i] == body[k + i];
      }
    }
    SplitSlash(body, k);
  }

  /** A pod component found is `/pod` and a non-empty `[\w\-]` run after what precedes it. */
  lemma PodComponentShape(rest: string) returns (pre: string)
    requires PodComponent(rest).Some?
    ensures var u := PodComponent(rest).value;
      rest == pre + "/pod" + u && |u| >= 1 && AllUidChars(u)
  {
    var j := |rest| - UidRun(rest);
    var u := rest[j + 3..];
    assert AllUidChars(u) by {
      forall i | 0 <= i < |u| ensures IsUidChar(u[i]) {
        assert u[i] == rest[j + 3 + i];
      }
    }
    SplitPod(rest, j);
    pre := rest[..j - 1];
  }

  lemma SplitPod(rest: string, j: nat)
    requires 1 <= j && j + 3 <= |rest| && rest[j - 1] == '/' && rest[j..j + 3] == "pod"
    ensures rest == rest[..j - 1] + "/pod" + rest[j + 3..]
  {
    assert rest == rest[..j - 1] + [rest[j - 1]] + rest[j..j + 3] + rest[j + 3..];
  }

  lemma SplitSlash(body: string, k: nat)
    requires 1 <= k <= |body| && body[k - 1] == '/'
    ensures body == body[..k - 1] + "/" + body[k..]
  {
    assert body == body[..k - 1] + [body[k - 1]] + body[k..];
  }

  lemma BodyTail(s: string)
    ensures s == Body(s) + (if Body(s) == s then "" else "\n")
  {
  }

  lemma MatchesIntro(s: string, pre: string, u: string, r: string, tail: string)
    requires |u| >= 1 && AllUidChars(u) && |r| >= 1 && AllWordChars(r)
    requires tail == "" || tail == "\n"
    requires s == pre + "/pod" + u + "/" + r + tail
    ensures Matches(s, u, r)
  {
  }

  /** The run of word characters at the end of `a + b` is exactly `b` when `a` ends in a non-word character. */
  lemma WordRunOf(a: string, b: string)
    requires AllWordChars(b) && |a| >= 1 && !IsWordChar(a[|a| - 1])
    ensures WordRun(a + b) == |b|
  {
    var s := a + b;
    assert s[|a| - 1] == a[|a| - 1];
    assert forall i :: 0 <= i < |b| ==> s[|a| + i] == b[i];
  }

  lemma UidRunOf(a: string, b: string)
    requires AllUidChars(b) && |a| >= 1 && !IsUidChar(a[|a| - 1])
    ensures UidRun(a + b) == |b|
  {
    var s := a + b;
    assert s[|a| - 1] == a[|a| - 1];
    assert forall i :: 0 <= i < |b| ==> s[|a| + i] == b[i];
  }

  /** Whenever the pattern matches, `parse_cgroup` returns that match's groups: the match is unique. */
  lemma ParseCgroupComplete(s: string, u: string, r: string)
    requires Matches(s, u, r)
    ensures ParseCgroup(s) == (Some(u), Some(r))
  {
    var pre: string, tail: string :| (tail == "" || tail == "\n") && s == pre + "/pod" + u + "/" + r + tail;
    var rest := pre + "/pod" + u;
    var body := rest + "/" + r;
    assert s == body + tail;
    BodyOf(body, tail);
    RunsOfMatch(pre, u, r);
  }

  lemma BodyOf(body: string, tail: string)
    requires |body| >= 1 && body[|body| - 1] != '\n' && (tail == "" || tail == "\n")
    ensures Body(body + tail) == body
  {
    if tail == "" {
      assert body + tail == body;
    } else {
      assert (body + tail)[..|body|] == body;
    }
  }

  /** Where the scans of `parse_cgroup` stop on a string built from a match. */
  lemma RunsOfMatch(pre: string, u: string, r: string)
    requires |u| >= 1 && AllUidChars(u) && |r| >= 1 && AllWordChars(r)
    ensures var rest := pre + "/pod" + u; var body := rest + "/" + r;
      && body[|body| - 1] != '\n'
      && LastComponent(body) == Some((rest, r))
      && PodComponent(rest) == Some(u)
  {
    var rest := pre + "/pod" + u;
    var body := rest + "/" + r;
    assert body[|body| - 1] == r[|r| - 1];
    WordRunOf(rest + "/", r);
    assert body[..|body| - |r| - 1] == rest;
    assert body[|body| - |r|..] == r;
    assert AllUidChars("pod" + u) by {
      forall i | 0 <= i < |"pod" + u| ensures IsUidChar(("pod" + u)[i]) {
        if i >= 3 {
          assert ("pod" + u)[i] == u[i - 3];
        }
      }
    }
    assert (pre + "/") + ("pod" + u) == rest;
    UidRunOf(pre + "/", "pod" + u);
    assert rest[|pre| + 1..|pre| + 4] == "pod";
    assert rest[|pre| + 4..] == u;
  }

  /** `parse_cgroup` returns `(None, None)` exactly when the pattern matches nowhere. */
  lemma ParseCgroupNone(s: string)
    ensures ParseCgroup(s).0.None? <==> forall u, r :: !Matches(s, u, r)
  {
    if ParseCgroup(s).0.None? {
      forall u, r ensures !Matches(s, u, r) {
        if Matches(s, u, r) {
          ParseCgroupComplete(s, u, r);
        }
      }
    } else {
      ParseCgroupSound(s);
    }
  }

  /** Appending `/pod<uid>/<runtime id>` to any path is parsed back into the uid and the runtime id. */
  lemma ParseCgroupRoundTrip(p: string, u: string, r: string)
    requires |u| >= 1 && AllUidChars(u) && |r| >= 1 && AllWordChars(r)
    ensures ParseCgroup(p + "/pod" + u + "/" + r) == (Some(u), Some(r))
  {
    assert p + "/pod" + u + "/" + r == p + "/pod" + u + "/" + r + "";
    ParseCgroupComplete(p + "/pod" + u + "/" + r, u, r);
  }
}

=== FILE: common.dfy ===
/** Small value types shared by every module of the model. */
module Common {

  /** Python's `None` or a value. */
  datatype Option<+T> = None | Some(value: T)

  /** The outcome of an operation that either returns a value or raises. */
  datatype Result<+T, +E> = Ok(value: T) | Err(error: E)

  /** The set of elements of a sequence. */
  function Elems<T>(s: seq<T>): set<T>
  {
    set x | x in s
  }

  /** No element occurs twice. */
  predicate NoDups<T(==)>(s: seq<T>)
  {
    forall i, j :: 0 <= i < j < |s| ==> s[i] != s[j]
  }

  lemma NoDupsSnoc<T>(s: seq<T>, x: T)
    requires NoDups(s) && x !in s
    ensures NoDups(s + [x])
  {
    forall i, j | 0 <= i < j < |s + [x]|
      ensures (s + [x])[i] != (s + [x])[j]
    {
      if j == |s| {
        assert (s + [x])[i] == s[i];
      }
    }
  }

  /** The last element of a sequence without duplicates does not occur before it. */
  lemma NoDupsLast<T>(s: seq<T>)
    requires NoDups(s) && s != []
    ensures NoDups(s[..|s| - 1]) && s[|s| - 1] !in s[..|s| - 1]
  {
    var init := s[..|s| - 1];
    forall i | 0 <= i < |init|
      ensures init[i] != s[|s| - 1]
    {
      assert init[i] == s[i];
    }
  }

  /** In a sequence without duplicates every element occurs once. */
  lemma {:induction false} NoDupsCount<T>(s: seq<T>)
    requires NoDups(s)
    ensures forall x :: multiset(s)[x] <= 1
  {
    if s != [] {
      var n := |s| - 1;
      NoDupsLast(s);
      NoDupsCount(s[..n]);
      assert s == s[..n] + [s[n]];
    }
  }

  /** An element at two positions occurs at least twice. */
  lemma CountTwo<T>(s: seq<T>, i: nat, j: nat)
    requires i < j < |s|
    ensures s[i] == s[j] ==> multiset(s)[s[i]] >= 2
  {
    assert s == s[..j] + s[j..];
    assert s[i] in s[..j] && s[j] in s[j..];
  }

  /** A rearrangement of a sequence without duplicates has none. */
  lemma NoDupsPermutation<T>(a: seq<T>, b: seq<T>)
    requires NoDups(a) && multiset(a) == multiset(b)
    ensures NoDups(b)
  {
    NoDupsCount(a);
    forall i, j | 0 <= i < j < |b| ensures b[i] != b[j] {
      CountTwo(b, i, j);
    }
  }
}

=== FILE: container_analytics.dfy ===
/**
 * The per-container statistics query of kra/analytics/container.py, as functions over one
 * container's resource usage samples.
 *
 * The query orders a container's samples by `measured_at` (the window `w`), weighs each
 * sample's memory by the time since the previous sample (`lag`), and aggregates: the first
 * and last measurement times, the largest cumulative CPU counter, the largest memory, and the
 * sum of the weighted memory. SQL `sum` skips NULL terms and is NULL when every term is; the
 * first sample's lag is NULL, so it weighs nothing. A container without samples has a NULL
 * `total_seconds` and is left out of the result. The standard-deviation pass is not modelled.
 *
 * Times are epoch seconds as exact reals; floating point is not modelled.
 */
module ContainerAnalytics {
  import opened Common
  import opened Models
  import opened Rounding

  /** One ResourceUsage row of the container. */
  datatype Sample = Sample(measuredAt: real, memoryMi: nat, cpuMSeconds: int)

  /** `ORDER BY measured_at`. */
  predicate ByTime(x: Sample, y: Sample)
  {
    x.measuredAt <= y.measuredAt
  }

  lemma ByTimeTotalPreorder()
    ensures TotalPreorder(ByTime)
  {
  }

  /** The samples are in time order. */
  predicate TimeOrdered(w: seq<Sample>)
  {
    forall i, j :: 0 <= i < j < |w| ==> w[i].measuredAt <= w[j].measuredAt
  }

  /** The samples in window order; samples measured at the same instant keep their row order. */
  function Window(samples: seq<Sample>): (w: seq<Sample>)
    ensures multiset(w) == multiset(samples) && |w| == |samples|
    ensures TimeOrdered(w)
  {
    ByTimeTotalPreorder();
    SortBySorted(samples, ByTime);
    var w := SortBy(samples, ByTime);
    assert forall i, j :: 0 <= i < j < |w| ==> ByTime(w[i], w[j]);
    w
  }

  // ---------------------------------------------------------------- aggregates

  /** `min(measured_at)`. */
  function MinTime(samples: seq<Sample>): (t: real)
    requires samples != []
    ensures exists s :: s in samples && s.measuredAt == t
    ensures forall s :: s in samples ==> t <= s.measuredAt
  {
    var n := |samples| - 1;
    if n == 0 then samples[0].measuredAt
    else
      var prev := MinTime(samples[..n]);
      assert samples == samples[..n] + [samples[n]];
      if samples[n].measuredAt < prev then samples[n].measuredAt else prev
  }

  /** `max(measured_at)`. */
  function MaxTime(samples: seq<Sample>): (t: real)
    requires samples != []
    ensures exists s :: s in samples && s.measuredAt == t
    ensures forall s :: s in samples ==> s.measuredAt <= t
  {
    var n := |samples| - 1;
    if n == 0 then samples[0].measuredAt
    else
      var prev := MaxTime(samples[..n]);
      assert samples == samples[..n] + [samples[n]];
      if samples[n].measuredAt > prev then samples[n].measuredAt else prev
  }

  /** `max(memory_mi)`. */
  function MaxMemory(samples: seq<Sample>): (m: nat)
    requires samples != []
    ensures exists s :: s in samples && s.memoryMi == m
    ensures forall s :: s in samples ==> s.memoryMi <= m
  {
    var n := |samples| - 1;
    if n == 0 then samples[0].memoryMi
    else
      var prev := MaxMemory(samples[..n]);
      assert samples == samples[..n] + [samples[n]];
      if samples[n].memoryMi > prev then samples[n].memoryMi else prev
  }

  /** `max(cpu_m_seconds)`: the CPU counter is cumulative, so its largest value is the total. */
  function MaxCpu(samples: seq<Sample>): (c: int)
    requires samples != []
    ensures exists s :: s in samples && s.cpuMSeconds == c
    ensures forall s :: s in samples ==> s.cpuMSeconds <= c
  {
    var n := |samples| - 1;
    if n == 0 then samples[0].cpuMSeconds
    else
      var prev := MaxCpu(samples[..n]);
      assert samples == samples[..n] + [samples[n]];
      if samples[n].cpuMSeconds > prev then samples[n].cpuMSeconds else prev
  }

  /** `memory_mi * (measured_at - lag(measured_at) OVER w)`: NULL for the first sample of the window. */
  function Term(w: seq<Sample>, i: nat): Option<real>
    requires i < |w|
  {
    if i == 0 then None else Some(Scaled(w[i].memoryMi, w[i].measuredAt - w[i - 1].measuredAt))
  }

  /** SQL `sum` over the first `n` terms: NULL terms are skipped, and the sum is NULL when all are. */
  function SqlSum(w: seq<Sample>, n: nat): Option<real>
    requires n <= |w|
  {
    if n == 0 then None
    else
      var prev := SqlSum(w, n - 1);
      match Term(w, n - 1)
      case None => prev
      case Some(v) => Some((if prev.Some? then prev.value else 0.0) + v)
  }

  /**
   * Over a window in time order whose memory is at most `m`, the weighted sum is NULL exactly
   * when there is at most one sample, and otherwise lies between 0 and `m` times the span
   * from the first to the last sample.
   */
  lemma {:induction false} SqlSumBound(w: seq<Sample>, n: nat, m: nat)
    requires 1 <= n <= |w| && TimeOrdered(w)
    requires forall i :: 0 <= i < |w| ==> w[i].memoryMi <= m
    ensures SqlSum(w, n).Some? <==> n >= 2
    ensures SqlSum(w, n).Some? ==>
      0.0 <= SqlSum(w, n).value <= Scaled(m, w[n - 1].measuredAt - w[0].measuredAt)
  {
    if n >= 2 {
      SqlSumBound(w, n - 1, m);
      var prev := SqlSum(w, n - 1);
      var before := if prev.Some? then prev.value else 0.0;
      var a, b, c := w[0].measuredAt, w[n - 2].measuredAt, w[n - 1].measuredAt;
      assert a <= b <= c;
      assert 0.0 <= before <= Scaled(m, b - a);
      ScaledMonotone(0, w[n - 1].memoryMi, c - b);
      ScaledMonotone(w[n - 1].memoryMi, m, c - b);
      ScaledAdd(m, b - a, c - b);
      assert Term(w, n - 1) == Some(Scaled(w[n - 1].memoryMi, c - b));
    }
  }

  /** The first sample's memory is never weighed: changing it leaves every term as it was. */
  lemma {:induction false} FirstSampleIgnored(w: seq<Sample>, n: nat, k: nat)
    requires 1 <= n <= |w|
    ensures SqlSum(w[0 := w[0].(memoryMi := k)], n) == SqlSum(w, n)
  {
    if n > 1 {
      FirstSampleIgnored(w, n - 1, k);
      var v := w[0 := w[0].(memoryMi := k)];
      assert v[n - 1] == w[n - 1] && v[n - 2].measuredAt == w[n - 2].measuredAt;
      assert Term(v, n - 1) == Term(w, n - 1);
    }
  }

  // ---------------------------------------------------------------- the row of a container

  /** The statistics of one container, with NULL columns as `None`. */
  datatype ContainerStats = ContainerStats(
    since: real,
    till: real,
    totalSeconds: real,
    totalCpuMSeconds: int,
    maxMemoryMi: nat,
    totalMemoryMiSeconds: Option<real>,
    avgMemoryMi: Option<real>,
    avgCpuM: Option<real>)

  /** The query fails when a division by zero is evaluated. */
  datatype QueryError = DivisionByZero

  /**
   * The statistics columns of the query, as written: `avg_memory_mi` divides by
   * `total_seconds` without `NULLIF`. A NULL dividend gives NULL; a non-NULL one divided by a
   * zero `total_seconds` makes the query fail. `None` when the container has no samples.
   */
  function StatsAsWritten(samples: seq<Sample>): Result<Option<ContainerStats>, QueryError>
  {
    if samples == [] then Ok(None)
    else
      var w := Window(samples);
      var since, till := w[0].measuredAt, w[|w| - 1].measuredAt;
      var totalSeconds := till - since;
      var totalCpu := MaxCpu(samples);
      var totalMemory := SqlSum(w, |w|);
      if totalMemory.Some? && totalSeconds == 0.0 then Err(DivisionByZero)
      else
        var avgMemory := if totalMemory.Some? then Some(totalMemory.value / totalSeconds) else None;
        var avgCpu := if totalSeconds == 0.0 then None else Some(totalCpu as real / totalSeconds);
        Ok(Some(ContainerStats(since, till, totalSeconds, totalCpu, MaxMemory(samples), totalMemory, avgMemory, avgCpu)))
  }

  /** Two samples taken at the same instant make the query as written fail. */
  lemma SameInstantFails(t: real)
    ensures StatsAsWritten([Sample(t, 5, 0), Sample(t, 7, 0)]).Err?
  {
    var samples := [Sample(t, 5, 0), Sample(t, 7, 0)];
    var w := Window(samples);
    assert samples[0] in multiset(w) && samples[1] in multiset(w);
    assert SqlSum(w, 2).Some?;
    assert MinTime(samples) == MaxTime(samples) == t;
  }

  /**
   * The statistics columns with both averages guarded by `NULLIF(total_seconds, 0)`, as the
   * CPU average is: a zero span gives NULL averages. `None` when the container has no samples.
   */
  function Stats(samples: seq<Sample>): Option<ContainerStats>
  {
    if samples == [] then None
    else
      var w := Window(samples);
      var since, till := w[0].measuredAt, w[|w| - 1].measuredAt;
      var totalSeconds := till - since;
      var totalCpu := MaxCpu(samples);
      var totalMemory := SqlSum(w, |w|);
      var avgMemory := if totalMemory.Some? && totalSeconds != 0.0 then Some(totalMemory.value / totalSeconds) else None;
      var avgCpu := if totalSeconds == 0.0 then None else Some(totalCpu as real / totalSeconds);
      Some(ContainerStats(since, till, totalSeconds, totalCpu, MaxMemory(samples), totalMemory, avgMemory, avgCpu))
  }

  /** The two agree on every input the query as written does not fail on. */
  lemma StatsAgree(samples: seq<Sample>)
    ensures StatsAsWritten(samples).Ok? ==> StatsAsWritten(samples).value == Stats(samples)
    ensures StatsAsWritten(samples).Err? <==> (Stats(samples).Some? && Stats(samples).value.totalSeconds == 0.0
      && Stats(samples).value.totalMemoryMiSeconds.Some?)
  {
  }

  /** The first and last samples of the window are the earliest and latest ones. */
  lemma WindowEnds(samples: seq<Sample>)
    requires samples != []
    ensures Window(samples)[0].measuredAt == MinTime(samples)
    ensures Window(samples)[|samples| - 1].measuredAt == MaxTime(samples)
  {
    WindowMembers(samples);
    OrderedEnds(samples, Window(samples));
  }

  /** In any time-ordered arrangement of the samples, the first is the earliest and the last the latest. */
  lemma OrderedEnds(samples: seq<Sample>, w: seq<Sample>)
    requires samples != [] && |w| == |samples| && TimeOrdered(w)
    requires forall s :: s in w <==> s in samples
    ensures w[0].measuredAt == MinTime(samples)
    ensures w[|w| - 1].measuredAt == MaxTime(samples)
  {
    OrderedFirst(samples, w);
    OrderedLast(samples, w);
  }

  lemma OrderedFirst(samples: seq<Sample>, w: seq<Sample>)
    requires samples != [] && |w| == |samples| && TimeOrdered(w)
    requires forall s :: s in w <==> s in samples
    ensures w[0].measuredAt == MinTime(samples)
  {
    var t := MinTime(samples);
    var lo :| lo in samples && lo.measuredAt == t;
    assert lo in w;
    var a :| 0 <= a < |w| && w[a] == lo;
    assert w[0].measuredAt <= w[a].measuredAt;
    assert w[0] in samples;
  }

  lemma OrderedLast(samples: seq<Sample>, w: seq<Sample>)
    requires samples != [] && |w| == |samples| && TimeOrdered(w)
    requires forall s :: s in w <==> s in samples
    ensures w[|w| - 1].measuredAt == MaxTime(samples)
  {
    var t := MaxTime(samples);
    var hi :| hi in samples && hi.measuredAt == t;
    assert hi in w;
    var b :| 0 <= b < |w| && w[b] == hi;
    assert w[b].measuredAt <= w[|w| - 1].measuredAt;
    assert w[|w| - 1] in samples;
  }

  /** The window holds exactly the samples. */
  lemma WindowMembers(samples: seq<Sample>)
    ensures forall s :: s in Window(samples) <==> s in samples
  {
    forall s ensures s in Window(samples) <==> s in samples {
      InWindow(samples, s);
    }
  }

  /** A sample is in the window exactly when it is among the samples. */
  lemma InWindow(samples: seq<Sample>, s: Sample)
    ensures s in Window(samples) <==> s in samples
  {
    var w := Window(samples);
    assert s in w <==> s in multiset(w);
    assert s in samples <==> s in multiset(samples);
  }

  /**
   * A container's row: it exists exactly when the container has samples; its span is the
   * latest minus the earliest measurement; the maxima are attained bounds; the memory total
   * is NULL for a single sample and otherwise at most the largest memory times the span, so
   * the memory average is NULL exactly when the memory total is or the span is zero, and
   * otherwise never exceeds the largest memory; the CPU average is NULL exactly when the span
   * is zero.
   */
  lemma StatsMeaning(samples: seq<Sample>)
    ensures Stats(samples).None? <==> samples == []
    ensures Stats(samples).Some? ==>
      var r := Stats(samples).value;
      && r.totalSeconds == r.till - r.since >= 0.0
      && (forall s :: s in samples ==> r.since <= s.measuredAt <= r.till && s.memoryMi <= r.maxMemoryMi && s.cpuMSeconds <= r.totalCpuMSeconds)
      && (exists s :: s in samples && s.memoryMi == r.maxMemoryMi)
      && (exists s :: s in samples && s.cpuMSeconds == r.totalCpuMSeconds)
      && (r.totalMemoryMiSeconds.None? <==> |samples| == 1)
      && (r.totalMemoryMiSeconds.Some? ==> 0.0 <= r.totalMemoryMiSeconds.value <= Scaled(r.maxMemoryMi, r.totalSeconds))
      && (r.avgMemoryMi.None? <==> r.totalMemoryMiSeconds.None? || r.totalSeconds == 0.0)
      && (r.avgMemoryMi.Some? ==> 0.0 <= r.avgMemoryMi.value <= r.maxMemoryMi as real)
      && (r.avgCpuM.None? <==> r.totalSeconds == 0.0)
  {
    if samples != [] {
      StatsSpan(samples);
      StatsTotals(samples);
    }
  }

  lemma StatsSpan(samples: seq<Sample>)
    requires samples != []
    ensures var r := Stats(samples).value;
      && r.totalSeconds == r.till - r.since >= 0.0
      && (forall s :: s in samples ==> r.since <= s.measuredAt <= r.till && s.memoryMi <= r.maxMemoryMi && s.cpuMSeconds <= r.totalCpuMSeconds)
      && (exists s :: s in samples && s.memoryMi == r.maxMemoryMi)
      && (exists s :: s in samples && s.cpuMSeconds == r.totalCpuMSeconds)
  {
    WindowEnds(samples);
  }

  lemma StatsTotals(samples: seq<Sample>)
    requires samples != []
    ensures var r := Stats(samples).value;
      && (r.totalMemoryMiSeconds.None? <==> |samples| == 1)
      && (r.totalMemoryMiSeconds.Some? ==> 0.0 <= r.totalMemoryMiSeconds.value <= Scaled(r.maxMemoryMi, r.totalSeconds))
      && (r.avgMemoryMi.Some? ==> 0.0 <= r.avgMemoryMi.value <= r.maxMemoryMi as real)
      && (r.avgCpuM.None? <==> r.totalSeconds == 0.0)
  {
    WindowTotal(samples);
    var r := Stats(samples).value;
    if r.avgMemoryMi.Some? {
      AverageBound(r.totalMemoryMiSeconds.value, r.maxMemoryMi, r.totalSeconds);
    }
  }

  /** The weighted memory total of a container's window, bounded by its largest memory over its span. */
  lemma WindowTotal(samples: seq<Sample>)
    requires samples != []
    ensures var w := Window(samples);
      var t := SqlSum(w, |w|);
      && (t.None? <==> |samples| == 1)
      && (t.Some? ==> 0.0 <= t.value <= Scaled(MaxMemory(samples), w[|w| - 1].measuredAt - w[0].measuredAt))
  {
    WindowMembers(samples);
    OrderedTotal(samples, Window(samples));
  }

  /** The weighted memory total of any time-ordered arrangement of the samples. */
  lemma OrderedTotal(samples: seq<Sample>, w: seq<Sample>)
    requires samples != [] && |w| == |samples| && TimeOrdered(w)
    requires forall s :: s in w ==> s in samples
    ensures var t := SqlSum(w, |w|);
      && (t.None? <==> |samples| == 1)
      && (t.Some? ==> 0.0 <= t.value <= Scaled(MaxMemory(samples), w[|w| - 1].measuredAt - w[0].measuredAt))
  {
    var m := MaxMemory(samples);
    forall i | 0 <= i < |w| ensures w[i].memoryMi <= m {
      assert w[i] in samples;
    }
    SqlSumBound(w, |w|, m);
  }

  // ---------------------------------------------------------------- the whole query

  /** A Container row with its samples. */
  datatype ContainerSamples = ContainerSamples(id: nat, samples: seq<Sample>)

  /** `get_containers_summary()`: one row per container, `WHERE total_seconds IS NOT NULL`. */
  function ContainersSummary(containers: seq<ContainerSamples>): seq<(nat, ContainerStats)>
  {
    if containers == [] then []
    else
      var n := |containers| - 1;
      var c := containers[n];
      ContainersSummary(containers[..n]) + match Stats(c.samples) case None => [] case Some(r) => [(c.id, r)]
  }

  /** A container has a row exactly when it has samples, and the row holds its statistics. */
  lemma {:induction false} ContainersSummaryRows(containers: seq<ContainerSamples>)
    ensures forall row :: row in ContainersSummary(containers) ==>
      exists c :: c in containers && c.id == row.0 && c.samples != [] && Stats(c.samples) == Some(row.1)
    ensures forall c :: c in containers && c.samples != [] ==> (c.id, Stats(c.samples).value) in ContainersSummary(containers)
  {
    if containers != [] {
      var n := |containers| - 1;
      ContainersSummaryRows(containers[..n]);
      assert containers == containers[..n] + [containers[n]];
      forall c | c in containers && c.samples != []
        ensures (c.id, Stats(c.samples).value) in ContainersSummary(containers)
      {
        StatsMeaning(c.samples);
      }
    }
  }
}

=== FILE: db_routers.dfy ===
/**
 * The database router of kra/db_routers.py: PSRecord rows live in the external `ps` database,
 * every other model is left to Django's default routing (a router answering None).
 */
module DbRouters {
  import opened Common

  /** The model classes the router tells apart. */
  datatype Model = PSRecord | OtherModel(name: string)

  const PsDatabase: string := "ps"

  /** `db_for_read`: `ps` for PSRecord, no opinion otherwise. */
  function DbForRead(model: Model): (r: Option<string>)
    ensures r.Some? <==> model == PSRecord
    ensures r.Some? ==> r.value == PsDatabase
  {
    if model == PSRecord then Some(PsDatabase) else None
  }

  /** `db_for_write`: `ps` for PSRecord, no opinion otherwise. */
  function DbForWrite(model: Model): (r: Option<string>)
    ensures r.Some? <==> model == PSRecord
    ensures r.Some? ==> r.value == PsDatabase
  {
    if model == PSRecord then Some(PsDatabase) else None
  }

  /** `allow_relation`: allowed when either object is a PSRecord, no opinion otherwise. */
  function AllowRelation(a: Model, b: Model): (r: Option<bool>)
    ensures r.Some? <==> a == PSRecord || b == PSRecord
    ensures r.Some? ==> r.value
  {
    if a == PSRecord || b == PSRecord then Some(true) else None
  }

  /**
   * `allow_migrate`: the `kra.psrecord` model migrates only on `ps`; no opinion on other models
   * (`modelName` None is a call without a model name).
   */
  function AllowMigrate(db: string, appLabel: string, modelName: Option<string>): (r: Option<bool>)
    ensures r.Some? <==> appLabel == "kra" && modelName == Some("psrecord")
    ensures r.Some? ==> (r.value <==> db == PsDatabase)
  {
    if appLabel == "kra" && modelName == Some("psrecord") then Some(db == PsDatabase) else None
  }

  /** The router is consistent: PSRecord is read and written on the one database it migrates on, and only there. */
  lemma PsRecordStaysOnPs(db: string)
    ensures DbForRead(PSRecord) == DbForWrite(PSRecord) == Some(PsDatabase)
    ensures AllowMigrate(db, "kra", Some("psrecord")) == Some(db == PsDatabase)
    ensures forall m :: DbForRead(m) == DbForWrite(m)
  {
  }

  /** Relations are judged symmetrically. */
  lemma AllowRelationSymmetric(a: Model, b: Model)
    ensures AllowRelation(a, b) == AllowRelation(b, a)
  {
  }
}

=== FILE: decimal.dfy ===
/** Decimal rendering and parsing of natural numbers, as Python's `str(n)` and `int(digits)` do them. */
module Decimal {

  predicate IsDigit(c: char)
  {
    '0' <= c <= '9'
  }

  predicate AllDigits(s: string)
  {
    forall i :: 0 <= i < |s| ==> IsDigit(s[i])
  }

  function DigitChar(d: nat): (c: char)
    requires d < 10
    ensures IsDigit(c) && (c as int) - ('0' as int) == d
  {
    ('0' as int + d) as char
  }

  /** `str(n)` for a non-negative integer: no sign, no leading zero. */
  function NatToString(n: nat): (s: string)
    ensures |s| >= 1 && AllDigits(s)
    ensures |s| > 1 ==> s[0] != '0'
  {
    if n < 10 then [DigitChar(n)] else NatToString(n / 10) + [DigitChar(n % 10)]
  }

  /** `int(s)` for a non-empty run of decimal digits (leading zeros allowed). */
  function ParseDigits(s: string): nat
    requires AllDigits(s)
  {
    if s == [] then 0
    else ParseDigits(s[..|s| - 1]) * 10 + ((s[|s| - 1] as int) - ('0' as int))
  }

  /** Parsing what `str` printed gives the number back. */
  lemma {:induction false} ParseNatToString(n: nat)
    ensures ParseDigits(NatToString(n)) == n
  {
    var s := NatToString(n);
    if n >= 10 {
      ParseNatToString(n / 10);
      assert s[..|s| - 1] == NatToString(n / 10);
    }
  }

  /** A rendering never contains anything but digits, so it cannot contain a separator. */
  lemma NatToStringHasNo(n: nat, c: char)
    requires !IsDigit(c)
    ensures c !in NatToString(n)
  {
  }

  /** `str` is injective. */
  lemma NatToStringInjective(m: nat, n: nat)
    requires NatToString(m) == NatToString(n)
    ensures m == n
  {
    ParseNatToString(m);
    ParseNatToString(n);
  }
}

=== FILE: grouping.dfy ===
/**
 * `defaultdict(list)` filled by appending each item to the list of its key, as the summary
 * tasks group containers by name, by pod and by workload: the keys in order of first
 * appearance (a dict's insertion order), each with its items in input order.
 */
module Grouping {
  import opened Common

  /** The items with key `k`, in input order: the list `groups[k]` ends up holding. */
  function FilterBy<K(==), V>(xs: seq<V>, key: V -> K, k: K): (r: seq<V>)
    ensures |r| <= |xs|
    ensures forall v :: v in r ==> v in xs && key(v) == k
  {
    if xs == [] then []
    else
      var n := |xs| - 1;
      FilterBy(xs[..n], key, k) + if key(xs[n]) == k then [xs[n]] else []
  }

  /** The keys, each once, in order of first appearance: the order of `groups.items()`. */
  function KeysOf<K(==), V>(xs: seq<V>, key: V -> K): seq<K>
  {
    if xs == [] then []
    else
      var n := |xs| - 1;
      var prev := KeysOf(xs[..n], key);
      if key(xs[n]) in prev then prev else prev + [key(xs[n])]
  }

  /** The keys are distinct and are exactly the keys of the items. */
  lemma {:induction false} KeysOfSpec<K, V>(xs: seq<V>, key: V -> K)
    ensures NoDups(KeysOf(xs, key))
    ensures forall k :: k in KeysOf(xs, key) <==> exists i :: 0 <= i < |xs| && key(xs[i]) == k
  {
    if xs != [] {
      var n := |xs| - 1;
      KeysOfSpec(xs[..n], key);
      var prev := KeysOf(xs[..n], key);
      if key(xs[n]) !in prev {
        NoDupsSnoc(prev, key(xs[n]));
      }
      forall k ensures k in KeysOf(xs, key) <==> exists i :: 0 <= i < |xs| && key(xs[i]) == k {
        if k in prev {
          var i :| 0 <= i < n && key(xs[..n][i]) == k;
          assert xs[i] == xs[..n][i];
        }
        if exists i :: 0 <= i < |xs| && key(xs[i]) == k {
          var i :| 0 <= i < |xs| && key(xs[i]) == k;
          if i < n {
            assert xs[..n][i] == xs[i];
          }
        }
      }
    }
  }

  /** Every item is in its key's group, as often as it occurs in the input. */
  lemma {:induction false} FilterByCount<K, V>(xs: seq<V>, key: V -> K, v: V)
    ensures multiset(FilterBy(xs, key, key(v)))[v] == multiset(xs)[v]
  {
    if xs != [] {
      var n := |xs| - 1;
      FilterByCount(xs[..n], key, v);
      assert xs == xs[..n] + [xs[n]];
    }
  }

  /** The concatenation of the groups of `keys`, in that order. */
  function Concat<K(==), V>(xs: seq<V>, key: V -> K, keys: seq<K>): seq<V>
  {
    if keys == [] then []
    else
      var n := |keys| - 1;
      Concat(xs, key, keys[..n]) + FilterBy(xs, key, keys[n])
  }

  /** The groups partition the input: taken together they hold every item exactly as often as the input. */
  lemma {:induction false} GroupsPartition<K, V>(xs: seq<V>, key: V -> K)
    ensures multiset(Concat(xs, key, KeysOf(xs, key))) == multiset(xs)
  {
    var a, b := multiset(Concat(xs, key, KeysOf(xs, key))), multiset(xs);
    forall v ensures a[v] == b[v] {
      PartitionCount(xs, key, v);
    }
    MultisetExt(a, b);
  }

  lemma MultisetExt<V>(a: multiset<V>, b: multiset<V>)
    requires forall v :: a[v] == b[v]
    ensures a == b
  {
  }

  lemma PartitionCount<K, V>(xs: seq<V>, key: V -> K, v: V)
    ensures multiset(Concat(xs, key, KeysOf(xs, key)))[v] == multiset(xs)[v]
  {
    var keys := KeysOf(xs, key);
    KeysOfSpec(xs, key);
    ConcatCount(xs, key, keys, v);
    FilterByCount(xs, key, v);
    if v in xs {
      var i :| 0 <= i < |xs| && xs[i] == v;
      KeyListed(xs, key, i);
    }
  }

  /** The key of every item is listed. */
  lemma KeyListed<K, V>(xs: seq<V>, key: V -> K, i: nat)
    requires i < |xs|
    ensures key(xs[i]) in KeysOf(xs, key)
  {
    KeysOfSpec(xs, key);
  }

  /** Every listed key is the key of some item. */
  lemma KeyWitness<K, V>(xs: seq<V>, key: V -> K, k: K) returns (i: nat)
    requires k in KeysOf(xs, key)
    ensures i < |xs| && key(xs[i]) == k
  {
    KeysOfSpec(xs, key);
    i :| 0 <= i < |xs| && key(xs[i]) == k;
  }

  /** Over distinct keys, an item occurs in the concatenation as often as in its own key's group, if listed. */
  lemma {:induction false} ConcatCount<K, V>(xs: seq<V>, key: V -> K, keys: seq<K>, v: V)
    requires NoDups(keys)
    ensures multiset(Concat(xs, key, keys))[v] == if key(v) in keys then multiset(FilterBy(xs, key, key(v)))[v] else 0
  {
    if keys != [] {
      var n := |keys| - 1;
      NoDupsLast(keys);
      ConcatCount(xs, key, keys[..n], v);
      assert keys == keys[..n] + [keys[n]];
      if keys[n] != key(v) {
        assert v !in FilterBy(xs, key, keys[n]);
      }
    }
  }

  /** A `defaultdict(list)` lookup: the list of `k`, empty when `k` was never appended to. */
  function Lookup<K, V>(groups: map<K, seq<V>>, k: K): seq<V>
  {
    if k in groups then groups[k] else []
  }

  /**
   * Filling `groups = defaultdict(list)` by `groups[key(x)].append(x)` for each `x`: the keys
   * in insertion order, and the lists.
   */
  method GroupBy<K(==, !new), V>(xs: seq<V>, key: V -> K) returns (keys: seq<K>, groups: map<K, seq<V>>)
    ensures keys == KeysOf(xs, key)
    ensures forall k :: k in groups <==> k in keys
    ensures forall k :: Lookup(groups, k) == FilterBy(xs, key, k)
  {
    keys, groups := [], map[];
    var i := 0;
    while i < |xs|
      invariant 0 <= i <= |xs|
      invariant keys == KeysOf(xs[..i], key)
      invariant forall k :: k in groups <==> k in keys
      invariant forall k :: Lookup(groups, k) == FilterBy(xs[..i], key, k)
    {
      var x := xs[i];
      assert xs[..i + 1][..i] == xs[..i];
      if key(x) in groups {
        groups := groups[key(x) := groups[key(x)] + [x]];
      } else {
        keys := keys + [key(x)];
        groups := groups[key(x) := [x]];
      }
      i := i + 1;
    }
    assert xs[..i] == xs;
  }
}

=== FILE: kube.dfy ===
/**
 * The constant tables of kra/kube.py. The read and patch functions are Kubernetes client calls;
 * only the kinds they are registered for are modelled. The containers path of a kind is the
 * chain of field names of the workload's JSON document leading to its list of container specs.
 */
module Kube {
  import opened Common
  import opened Models

  /** The kinds `read_funcs` has an entry for. */
  const ReadFuncKinds: set<WorkloadKind> := {ReplicaSet, Deployment, DaemonSet, CronJob, StatefulSet, Job}

  /** The kinds `patch_funcs` has an entry for. */
  const PatchFuncKinds: set<WorkloadKind> := {ReplicaSet, Deployment, DaemonSet, CronJob, StatefulSet, Job}

  const PodTemplatePath: seq<string> := ["spec", "template", "spec", "containers"]

  /** `containers_paths`. */
  const ContainersPaths: map<WorkloadKind, seq<string>> := map[
    ReplicaSet := PodTemplatePath,
    Deployment := PodTemplatePath,
    DaemonSet := PodTemplatePath,
    CronJob := ["spec", "jobTemplate", "spec", "template", "spec", "containers"],
    StatefulSet := PodTemplatePath,
    Job := PodTemplatePath
  ]

  /** The containers path of a kind. */
  function ContainersPath(k: WorkloadKind): (p: seq<string>)
    ensures |p| >= 1 && p[0] == "spec" && p[|p| - 1] == "containers"
    ensures k == CronJob ==> p == ["spec", "jobTemplate"] + PodTemplatePath
    ensures k != CronJob ==> p == ["spec", "template", "spec", "containers"]
  {
    TablesCoverAllKinds();
    ContainersPaths[k]
  }

  /** The three tables have the same keys: all six kinds. */
  lemma TablesCoverAllKinds()
    ensures ReadFuncKinds == PatchFuncKinds == ContainersPaths.Keys
    ensures forall k: WorkloadKind :: k in ContainersPaths
  {
    forall k: WorkloadKind ensures k in ContainersPaths {
      match k
      case ReplicaSet =>
      case Deployment =>
      case DaemonSet =>
      case CronJob =>
      case StatefulSet =>
      case Job =>
    }
  }
}

=== FILE: kube_watch.dfy ===
/**
 * The `KubeWatcher` of kra/kube_watch.py as a class: the table `db`, the key order of that
 * Python dict, the collection resource version, and where the `run` generator stands (listing,
 * streaming, or dead after an exception). Each method is one step of the generator; its events
 * are what the generator yields during that step.
 *
 * The resync follows the `.get` reading of the stored-object lookup and deletes over a snapshot
 * of the keys; the code as written is modelled in KubeWatchAsWritten.
 */
module KubeWatch {
  import opened Common
  import opened KubeWatchSpec

  const MinWatchTimeout: int := 5 * 60

  /** Where the `run` generator stands. */
  datatype Phase = Listing | Streaming | Failed

  /** What the watch stream hands `_safe_stream` next. */
  datatype StreamSignal =
    | Delivered(typeName: string, obj: Obj)
    | Closed        // the server closed the stream (StopIteration)
    | ReadTimeout   // no data before the request timeout (ReadTimeoutError)
    | StaleVersion  // the client's ValueError for a resource version that is too old

  /** The keyword arguments of one watch request. */
  datatype WatchRequest = WatchRequest(timeoutSeconds: int, requestTimeout: int, resourceVersion: Option<string>)

  /** Python truthiness of the held resource version: neither None nor empty. */
  predicate Held(rv: Option<string>)
  {
    rv.Some? && rv.value != ""
  }

  /** `handle_event` stores or removes without raising. */
  predicate Accepted(t: EventType, uid: Uid, db: Table)
  {
    t == ADDED || t == MODIFIED || (t == DELETED && uid in db)
  }

  /** What `handle_event` raises for an event it does not accept. */
  function Rejection(t: EventType, obj: Obj): WatchError
  {
    match t
    case DELETED => KeyError(obj.uid)
    case ERROR => ErrorEvent(obj)
    case _ => UnsupportedEventType(t)
  }

  class KubeWatcher {
    var db: Table
    var keyOrder: seq<Uid>
    var resourceVersion: Option<string>
    var phase: Phase
    /** Everything the generator has yielded so far. */
    ghost var emitted: seq<Event>

    /** The dict: entries under their own uids, the key order listing each key once. */
    ghost predicate TableValid()
      reads this
    {
      KeysMatch(db) && NoDups(keyOrder) && Elems(keyOrder) == db.Keys
    }

    /** A consumer that applies every yielded event in order holds the watcher's table. */
    ghost predicate Valid()
      reads this
    {
      TableValid() && SameVersions(Replay(map[], emitted), db)
    }

    constructor ()
      ensures Valid()
      ensures db == map[] && keyOrder == [] && resourceVersion == None && phase == Listing && emitted == []
    {
      db := map[];
      keyOrder := [];
      resourceVersion := None;
      phase := Listing;
      emitted := [];
    }

    /** `self.db[obj.metadata.uid] = obj`. */
    method Store(obj: Obj)
      requires TableValid()
      modifies this`db, this`keyOrder
      ensures TableValid()
      ensures db == old(db)[obj.uid := obj] && keyOrder == PutKey(old(keyOrder), obj.uid)
    {
      if obj.uid !in keyOrder {
        NoDupsSnoc(keyOrder, obj.uid);
        assert Elems(keyOrder + [obj.uid]) == Elems(keyOrder) + {obj.uid};
      }
      db := db[obj.uid := obj];
      keyOrder := PutKey(keyOrder, obj.uid);
    }

    /** `del self.db[uid]` for a stored uid. */
    method Remove(uid: Uid)
      requires TableValid() && uid in db
      modifies this`db, this`keyOrder
      ensures TableValid()
      ensures db == old(db) - {uid} && keyOrder == Without(old(keyOrder), uid)
    {
      WithoutNoDups(keyOrder, uid);
      db := db - {uid};
      keyOrder := Without(keyOrder, uid);
    }

    /** `handle_event`: apply one native event to the table, or raise. */
    method HandleEvent(t: EventType, obj: Obj) returns (err: Option<WatchError>)
      requires TableValid()
      modifies this`db, this`keyOrder
      ensures TableValid()
      ensures err.None? <==> Accepted(t, obj.uid, old(db))
      ensures err.None? ==> db == Apply(old(db), Event(t, obj))
      ensures t == ADDED || t == MODIFIED ==>
        db == old(db)[obj.uid := obj] && keyOrder == PutKey(old(keyOrder), obj.uid)
      ensures t == DELETED && obj.uid in old(db) ==>
        db == old(db) - {obj.uid} && keyOrder == Without(old(keyOrder), obj.uid)
      ensures err.Some? ==> err.value == Rejection(t, obj) && db == old(db) && keyOrder == old(keyOrder)
    {
      if t == ADDED || t == MODIFIED {
        Store(obj);
        err := None;
      } else if t == DELETED {
        if obj.uid in db {
          Remove(obj.uid);
          err := None;
        } else {
          err := Some(KeyError(obj.uid));
        }
      } else if t == ERROR {
        err := Some(ErrorEvent(obj));
      } else {
        err := Some(UnsupportedEventType(t));
      }
    }

    /** `handle_initial`: store every listed object and yield one ADDED for each. */
    method HandleInitial(items: seq<Obj>) returns (events: seq<Event>)
      requires TableValid()
      modifies this`db, this`keyOrder
      ensures TableValid()
      ensures events == AddedEvents(items)
      ensures db == UpsertAll(old(db), items) && keyOrder == PutKeys(old(keyOrder), items)
    {
      events := [];
      var i := 0;
      while i < |items|
        invariant 0 <= i <= |items|
        invariant TableValid()
        invariant db == UpsertAll(old(db), items[..i]) && keyOrder == PutKeys(old(keyOrder), items[..i])
        invariant events == AddedEvents(items[..i])
      {
        var obj := items[i];
        assert items[..i + 1][..i] == items[..i];
        Store(obj);
        events := events + [Event(ADDED, obj)];
        i := i + 1;
      }
      assert items[..|items|] == items;
    }

    /**
     * `handle_restart`: store every listed object, yielding ADDED for a new uid and MODIFIED for a
     * changed resource version; then remove each stored uid that was not listed, yielding DELETED.
     */
    method HandleRestart(items: seq<Obj>) returns (events: seq<Event>)
      requires TableValid()
      modifies this`db, this`keyOrder
      ensures TableValid()
      ensures events == ResyncEvents(old(db), old(keyOrder), items)
      ensures db == ResyncTable(old(db), items)
      ensures keyOrder == ResyncOrder(old(keyOrder), items)
    {
      var listed, alive := StoreListed(items);
      ghost var upserted := db;
      var stale := DropStale(alive);
      events := listed + stale;
      assert upserted.Keys - alive == old(db).Keys - alive;
    }

    /** The first pass of `handle_restart`: store each listed object, yielding ADDED or MODIFIED. */
    method StoreListed(items: seq<Obj>) returns (events: seq<Event>, alive: set<Uid>)
      requires TableValid()
      modifies this`db, this`keyOrder
      ensures TableValid()
      ensures db == UpsertAll(old(db), items) && keyOrder == PutKeys(old(keyOrder), items)
      ensures alive == UidSet(items)
      ensures events == ListedEvents(old(db), items)
    {
      alive := {};
      events := [];
      var i := 0;
      while i < |items|
        invariant 0 <= i <= |items|
        invariant TableValid()
        invariant db == UpsertAll(old(db), items[..i]) && keyOrder == PutKeys(old(keyOrder), items[..i])
        invariant alive == UidSet(items[..i])
        invariant events == ListedEvents(old(db), items[..i])
      {
        var obj := items[i];
        ghost var before := db;
        assert items[..i + 1][..i] == items[..i];
        assert UidSet(items[..i + 1]) == alive + {obj.uid};
        assert ListedEvents(old(db), items[..i + 1]) == events + ListedEvent(before, obj);
        assert UpsertAll(old(db), items[..i + 1]) == before[obj.uid := obj];
        alive := alive + {obj.uid};
        var stored: Option<Obj> := if obj.uid in db then Some(db[obj.uid]) else None;
        Store(obj);
        if stored.None? {
          events := events + [Event(ADDED, obj)];
        } else if stored.value.resourceVersion != obj.resourceVersion {
          events := events + [Event(MODIFIED, obj)];
        }
        i := i + 1;
      }
      assert items[..|items|] == items;
    }

    /**
     * The second pass of `handle_restart`: remove every stored uid outside `alive`, walking a
     * snapshot of the keys and yielding DELETED with the removed object.
     */
    method DropStale(alive: set<Uid>) returns (events: seq<Event>)
      requires TableValid()
      modifies this`db, this`keyOrder
      ensures TableValid()
      ensures db == old(db) - (old(db).Keys - alive)
      ensures keyOrder == KeepKeys(old(keyOrder), alive)
      ensures events == StaleEvents(old(db), old(keyOrder), alive)
    {
      ghost var listed := db;
      var snapshot := keyOrder;
      events := [];
      var j := 0;
      while j < |snapshot|
        invariant 0 <= j <= |snapshot|
        invariant TableValid()
        invariant NoDups(snapshot) && Elems(snapshot) == listed.Keys
        invariant db == listed - (Elems(snapshot[..j]) - alive)
        invariant keyOrder == KeepKeys(snapshot[..j], alive) + snapshot[j..]
        invariant events == StaleEvents(listed, snapshot[..j], alive)
      {
        var uid := snapshot[j];
        StaleStep(listed, snapshot, j, alive);
        if uid !in alive {
          var obj := db[uid];
          Remove(uid);
          DeleteStep(snapshot, j, alive);
          events := events + [Event(DELETED, obj)];
        }
        j := j + 1;
      }
      assert snapshot[..|snapshot|] == snapshot;
    }

    /**
     * One list call of `run`: the initial listing when no resource version is held, the resync
     * otherwise; then the collection's resource version is held and streaming begins.
     */
    method Sync(list: ObjList) returns (events: seq<Event>)
      requires Valid() && phase == Listing
      modifies this
      ensures Valid() && phase == Streaming
      ensures resourceVersion == Some(list.resourceVersion)
      ensures emitted == old(emitted) + events
      ensures !Held(old(resourceVersion)) ==>
        && events == AddedEvents(list.items)
        && db == UpsertAll(old(db), list.items)
        && keyOrder == PutKeys(old(keyOrder), list.items)
      ensures Held(old(resourceVersion)) ==>
        && events == ResyncEvents(old(db), old(keyOrder), list.items)
        && db == ResyncTable(old(db), list.items)
        && keyOrder == ResyncOrder(old(keyOrder), list.items)
    {
      var items := list.items;
      if !Held(resourceVersion) {
        events := HandleInitial(items);
        AddedReplay(old(db), items);
      } else {
        events := HandleRestart(items);
        ResyncReplay(old(db), old(keyOrder), items);
      }
      ReplayAppend(map[], emitted, events);
      SameVersionsReplay(Replay(map[], emitted), old(db), events);
      emitted := emitted + events;
      resourceVersion := Some(list.resourceVersion);
      phase := Streaming;
    }

    /** The keyword arguments `_safe_stream` opens a watch with; the timeout is a random choice. */
    method OpenStream() returns (req: WatchRequest)
      ensures MinWatchTimeout <= req.timeoutSeconds <= 2 * MinWatchTimeout
      ensures req.requestTimeout == req.timeoutSeconds + 10
      ensures Held(resourceVersion) ==> req.resourceVersion == resourceVersion
      ensures !Held(resourceVersion) ==> req.resourceVersion == None
    {
      assert MinWatchTimeout <= MinWatchTimeout <= 2 * MinWatchTimeout;
      var timeout :| MinWatchTimeout <= timeout <= 2 * MinWatchTimeout;
      req := WatchRequest(timeout, timeout + 10, if Held(resourceVersion) then resourceVersion else None);
    }

    /**
     * One signal of the watch stream while streaming: a delivered event is applied, the resource
     * version advanced and the event yielded; a closed or timed-out stream is reopened from the
     * held version; a stale version sends the watcher back to listing. An unknown type string or
     * an event `handle_event` rejects ends the generator.
     */
    method OnStreamSignal(sig: StreamSignal) returns (events: seq<Event>, err: Option<WatchError>)
      requires Valid() && phase == Streaming
      modifies this
      ensures Valid()
      ensures emitted == old(emitted) + events
      ensures sig.Delivered? && ParseEventType(sig.typeName).None? ==>
        && err == Some(UnknownEventType(sig.typeName)) && events == [] && phase == Failed
        && db == old(db) && keyOrder == old(keyOrder) && resourceVersion == old(resourceVersion)
      ensures sig.Delivered? && ParseEventType(sig.typeName).Some? ==>
        var t := ParseEventType(sig.typeName).value;
        if Accepted(t, sig.obj.uid, old(db)) then
          && err == None && events == [Event(t, sig.obj)] && phase == Streaming
          && db == Apply(old(db), Event(t, sig.obj)) && keyOrder == ApplyOrder(old(keyOrder), Event(t, sig.obj))
          && resourceVersion == Some(sig.obj.resourceVersion)
        else
          && err == Some(Rejection(t, sig.obj)) && events == [] && phase == Failed
          && db == old(db) && keyOrder == old(keyOrder) && resourceVersion == old(resourceVersion)
      ensures sig.Closed? || sig.ReadTimeout? ==>
        && err == None && events == [] && phase == Streaming
        && db == old(db) && keyOrder == old(keyOrder) && resourceVersion == old(resourceVersion)
      ensures sig.StaleVersion? ==>
        && err == None && events == [] && phase == Listing
        && db == old(db) && keyOrder == old(keyOrder) && resourceVersion == old(resourceVersion)
    {
      events := [];
      err := None;
      match sig
      case Delivered(name, obj) =>
        var parsed := ParseEventType(name);
        if parsed.None? {
          err := Some(UnknownEventType(name));
          phase := Failed;
        } else {
          var t := parsed.value;
          err := HandleEvent(t, obj);
          if err.Some? {
            phase := Failed;
          } else {
            resourceVersion := Some(obj.resourceVersion);
            events := [Event(t, obj)];
            assert Replay(old(db), events) == db by {
              assert events[..0] == [];
            }
            ReplayAppend(map[], emitted, events);
            SameVersionsReplay(Replay(map[], emitted), old(db), events);
            emitted := emitted + events;
          }
        }
      case Closed =>
      case ReadTimeout =>
      case StaleVersion =>
        phase := Listing;
    }
  }
}

=== FILE: kube_watch_as_written.dfy ===
/**
 * `handle_restart` of kra/kube_watch.py exactly as written, next to the corrected resync of
 * KubeWatchSpec. Two things differ:
 *  - the stored object is read with `self.db[uid]`, which raises KeyError for a uid the table
 *    does not hold, so the ADDED branch can never run and a newly created object ends the
 *    generator;
 *  - the deletion pass deletes from the dict it is iterating over, so the iterator raises
 *    "dictionary changed size during iteration" as soon as it is advanced after the first
 *    deletion: at most one DELETED is yielded.
 */
module KubeWatchAsWritten {
  import opened Common
  import opened KubeWatchSpec

  /** What a run of the resync yields, the table and key order it leaves, and what it raises. */
  datatype Restart = Restart(events: seq<Event>, table: Table, order: seq<Uid>, error: Option<WatchError>)

  /** What the listing pass yields, the table it leaves, and what it raises. */
  datatype Pass = Pass(events: seq<Event>, table: Table, error: Option<WatchError>)

  /** The first loop as written: each listed uid is looked up with `self.db[uid]`. */
  function ListPass(db: Table, items: seq<Obj>): Pass
  {
    if items == [] then Pass([], db, None)
    else
      var prev := ListPass(db, items[..|items| - 1]);
      var o := items[|items| - 1];
      if prev.error.Some? then prev
      else if o.uid !in prev.table then Pass(prev.events, prev.table, Some(KeyError(o.uid)))
      else Pass(prev.events + ListedEvent(prev.table, o), prev.table[o.uid := o], None)
  }

  /** The first key of `order` outside `alive`, if any. */
  function FirstStale(order: seq<Uid>, alive: set<Uid>): (r: Option<Uid>)
    ensures r.Some? ==> r.value in order && r.value !in alive
    ensures r.None? <==> Elems(order) <= alive
  {
    if order == [] then None
    else if order[0] !in alive then Some(order[0])
    else
      assert Elems(order) == {order[0]} + Elems(order[1..]);
      FirstStale(order[1..], alive)
  }

  /**
   * `handle_restart` as written, run to the end of the generator: the listing pass, then the
   * deletion pass, which removes the first stale key, yields its DELETED and then raises when
   * the key iterator is advanced.
   */
  function RestartAsWritten(db: Table, order: seq<Uid>, items: seq<Obj>): Restart
    requires Elems(order) == db.Keys
  {
    var listed := ListPass(db, items);
    if listed.error.Some? then Restart(listed.events, listed.table, order, listed.error)
    else
      ListPassOutcome(db, items);
      match FirstStale(order, UidSet(items))
      case None => Restart(listed.events, listed.table, order, None)
      case Some(u) =>
        assert u in Elems(order);
        Restart(listed.events + [Event(DELETED, listed.table[u])], listed.table - {u},
                Without(order, u), Some(DictChangedSize))
  }

  /**
   * The listing pass as written succeeds exactly when every listed uid is already stored, and
   * then agrees with the corrected pass; otherwise it raises KeyError for the first listed uid
   * the table does not hold, having yielded the corrected pass's events for the items before it.
   */
  lemma ListPassOutcome(db: Table, items: seq<Obj>)
    ensures ListPass(db, items).error.None? <==> UidSet(items) <= db.Keys
    ensures ListPass(db, items).error.None? ==>
      ListPass(db, items).events == ListedEvents(db, items) && ListPass(db, items).table == UpsertAll(db, items)
    ensures ListPass(db, items).error.Some? ==>
      exists i :: 0 <= i < |items| && items[i].uid !in db && UidSet(items[..i]) <= db.Keys
        && ListPass(db, items).error == Some(KeyError(items[i].uid))
        && ListPass(db, items).events == ListedEvents(db, items[..i])
  {
    ListPassOk(db, items);
    if ListPass(db, items).error.Some? {
      var i := ListPassFailure(db, items);
    }
  }

  lemma {:induction false} ListPassOk(db: Table, items: seq<Obj>)
    ensures ListPass(db, items).error.None? <==> UidSet(items) <= db.Keys
    ensures ListPass(db, items).error.None? ==>
      ListPass(db, items).events == ListedEvents(db, items) && ListPass(db, items).table == UpsertAll(db, items)
  {
    if items != [] {
      var init := items[..|items| - 1];
      ListPassOk(db, init);
      assert UidSet(items) == UidSet(init) + {items[|items| - 1].uid};
    }
  }

  /** The first listed uid the table does not hold, which the pass raises KeyError for. */
  lemma {:induction false} ListPassFailure(db: Table, items: seq<Obj>) returns (i: nat)
    requires ListPass(db, items).error.Some?
    ensures i < |items| && items[i].uid !in db && UidSet(items[..i]) <= db.Keys
    ensures ListPass(db, items).error == Some(KeyError(items[i].uid))
    ensures ListPass(db, items).events == ListedEvents(db, items[..i])
  {
    var n := |items| - 1;
    var init := items[..n];
    if ListPass(db, init).error.Some? {
      i := ListPassFailure(db, init);
      assert init[..i] == items[..i] && init[i] == items[i];
    } else {
      ListPassOk(db, init);
      i := n;
    }
  }

  /** The ADDED branch of the listing pass is dead: the as-written resync never yields ADDED. */
  lemma NeverAdded(db: Table, order: seq<Uid>, items: seq<Obj>)
    requires Elems(order) == db.Keys
    ensures forall e :: e in RestartAsWritten(db, order, items).events ==> e.kind != ADDED
  {
    ListPassNoAdded(db, items);
  }

  lemma {:induction false} ListPassNoAdded(db: Table, items: seq<Obj>)
    ensures forall e :: e in ListPass(db, items).events ==> e.kind != ADDED
  {
    if items != [] {
      ListPassNoAdded(db, items[..|items| - 1]);
    }
  }

  /** The as-written resync yields at most one DELETED event. */
  lemma AtMostOneDeleted(db: Table, order: seq<Uid>, items: seq<Obj>)
    requires Elems(order) == db.Keys
    ensures |RestartAsWritten(db, order, items).events| <= |ListPass(db, items).events| + 1
    ensures forall e :: e in ListPass(db, items).events ==> e.kind != DELETED
  {
    ListPassNoDeleted(db, items);
  }

  lemma {:induction false} ListPassNoDeleted(db: Table, items: seq<Obj>)
    ensures forall e :: e in ListPass(db, items).events ==> e.kind != DELETED
  {
    if items != [] {
      ListPassNoDeleted(db, items[..|items| - 1]);
    }
  }

  /**
   * When the listing names exactly the stored uids, the code as written does what the corrected
   * resync does: same events, same table, same key order, nothing raised.
   */
  lemma AgreesWithoutNewOrStale(db: Table, order: seq<Uid>, items: seq<Obj>)
    requires Elems(order) == db.Keys && UidSet(items) == db.Keys
    ensures RestartAsWritten(db, order, items)
      == Restart(ResyncEvents(db, order, items), ResyncTable(db, items), ResyncOrder(order, items), None)
  {
    ListPassOutcome(db, items);
    PutKeysPresent(order, items);
    KeepKeysAll(order, UidSet(items));
    StaleNone(UpsertAll(db, items), order, UidSet(items));
    assert db.Keys - UidSet(items) == {};
    assert UpsertAll(db, items) - {} == UpsertAll(db, items);
  }

  /**
   * A resync that lists an object created while the watch was down: the code as written raises
   * KeyError and yields nothing, where the corrected resync yields ADDED and stores it.
   */
  lemma NewObjectAborts()
    ensures var o := Obj("c", "7", "");
      && RestartAsWritten(map[], [], [o]) == Restart([], map[], [], Some(KeyError("c")))
      && ResyncEvents(map[], [], [o]) == [Event(ADDED, o)]
      && ResyncTable(map[], [o]) == map["c" := o]
  {
    var o := Obj("c", "7", "");
    assert [o][..0] == [];
    assert UidSet([o]) == {"c"};
    assert PutKeys([], [o]) == ["c"];
    assert KeepKeys(["c"], {"c"}) == ["c"] by {
      assert ["c"][..0] == [];
    }
    assert StaleEvents(map["c" := o], ["c"], {"c"}) == [] by {
      assert ["c"][..0] == [];
    }
  }

  /**
   * A resync after two objects were deleted while the watch was down: the code as written
   * yields one DELETED and raises, leaving the other object in the table; the corrected resync
   * yields both and empties the table.
   */
  lemma TwoStaleOnlyOneDeleted()
    ensures var a := Obj("a", "1", ""); var b := Obj("b", "1", "");
      var db := map["a" := a, "b" := b];
      && RestartAsWritten(db, ["a", "b"], [])
        == Restart([Event(DELETED, a)], map["b" := b], ["b"], Some(DictChangedSize))
      && ResyncEvents(db, ["a", "b"], []) == [Event(DELETED, a), Event(DELETED, b)]
      && ResyncTable(db, []) == map[]
  {
    var a := Obj("a", "1", "");
    var b := Obj("b", "1", "");
    var db := map["a" := a, "b" := b];
    assert Elems(["a", "b"]) == {"a", "b"};
    assert Without(["a", "b"], "a") == ["b"] by {
      assert ["a", "b"][..1] == ["a"];
      assert ["a"][..0] == [];
    }
    assert db - {"a"} == map["b" := b];
    assert StaleEvents(db, ["a", "b"], {}) == [Event(DELETED, a), Event(DELETED, b)] by {
      assert ["a", "b"][..1] == ["a"];
      assert ["a"][..0] == [];
      assert StaleEvents(db, ["a"], {}) == [Event(DELETED, a)];
    }
  }
}

=== FILE: kube_watch_spec.dfy ===
/**
 * The reconciling watcher of kra/kube_watch.py, on values: watched objects, the events the
 * watcher emits, the local object table, and the table and events that an initial listing,
 * a resync listing and a native event produce. The class `KubeWatcher` (kube_watch.dfy) is
 * proved against these functions.
 */
module KubeWatchSpec {
  import opened Common

  type Uid = string

  /** The five watch event types; anything else is not an `EventType`. */
  datatype EventType = ADDED | MODIFIED | DELETED | BOOKMARK | ERROR

  function EventTypeName(t: EventType): string
  {
    match t
    case ADDED => "ADDED"
    case MODIFIED => "MODIFIED"
    case DELETED => "DELETED"
    case BOOKMARK => "BOOKMARK"
    case ERROR => "ERROR"
  }

  /** `EventType(s)`: the member whose value is `s`, or none (Python raises ValueError). */
  function ParseEventType(s: string): (r: Option<EventType>)
    ensures r.Some? ==> EventTypeName(r.value) == s
    ensures r.None? ==> forall t :: EventTypeName(t) != s
  {
    if s == "ADDED" then Some(ADDED)
    else if s == "MODIFIED" then Some(MODIFIED)
    else if s == "DELETED" then Some(DELETED)
    else if s == "BOOKMARK" then Some(BOOKMARK)
    else if s == "ERROR" then Some(ERROR)
    else None
  }

  /** A watched object: its `metadata.uid`, its `metadata.resource_version`, and the rest. */
  datatype Obj = Obj(uid: Uid, resourceVersion: string, body: string)

  /** The result of a list call: the items and the collection's resource version. */
  datatype ObjList = ObjList(items: seq<Obj>, resourceVersion: string)

  /** What the watcher yields: `(event_type, obj)`. */
  datatype Event = Event(kind: EventType, obj: Obj)

  /** The ways the watcher's generator raises. */
  datatype WatchError =
    | UnknownEventType(name: string)
    | ErrorEvent(obj: Obj)
    | UnsupportedEventType(kind: EventType)
    | KeyError(uid: Uid)
    | DictChangedSize

  /** The local object table `db`. */
  type Table = map<Uid, Obj>

  /** Every entry is stored under its own uid. */
  ghost predicate KeysMatch(db: Table)
  {
    forall u :: u in db ==> db[u].uid == u
  }

  /** The uids of a listing. */
  function UidSet(items: seq<Obj>): (r: set<Uid>)
    ensures forall i :: 0 <= i < |items| ==> items[i].uid in r
  {
    if items == [] then {} else UidSet(items[..|items| - 1]) + {items[|items| - 1].uid}
  }

  predicate DistinctUids(items: seq<Obj>)
  {
    forall i, j :: 0 <= i < j < |items| ==> items[i].uid != items[j].uid
  }

  /** The table change a consumer reads off one event: ADDED and MODIFIED store, DELETED removes. */
  function Apply(db: Table, e: Event): Table
  {
    match e.kind
    case ADDED => db[e.obj.uid := e.obj]
    case MODIFIED => db[e.obj.uid := e.obj]
    case DELETED => db - {e.obj.uid}
    case _ => db
  }

  /** The table a consumer rebuilds by applying a sequence of events in order. */
  function Replay(db: Table, es: seq<Event>): Table
  {
    if es == [] then db else Apply(Replay(db, es[..|es| - 1]), es[|es| - 1])
  }

  /** Two tables hold the same uids at the same resource versions. */
  ghost predicate SameVersions(a: Table, b: Table)
  {
    a.Keys == b.Keys && forall u :: u in a ==> a[u].resourceVersion == b[u].resourceVersion
  }

  /** `db[obj.metadata.uid] = obj` for each listed object, in list order. */
  function UpsertAll(db: Table, items: seq<Obj>): (r: Table)
    ensures r.Keys == db.Keys + UidSet(items)
    ensures KeysMatch(db) ==> KeysMatch(r)
  {
    if items == [] then db
    else
      var o := items[|items| - 1];
      UpsertAll(db, items[..|items| - 1])[o.uid := o]
  }

  /** One ADDED per listed object, in list order (the initial listing). */
  function AddedEvents(items: seq<Obj>): (es: seq<Event>)
    ensures |es| == |items|
    ensures forall i :: 0 <= i < |items| ==> es[i] == Event(ADDED, items[i])
  {
    if items == [] then [] else AddedEvents(items[..|items| - 1]) + [Event(ADDED, items[|items| - 1])]
  }

  /** The event the resync emits for a listed object against the table as it then is. */
  function ListedEvent(db: Table, o: Obj): seq<Event>
  {
    if o.uid !in db then [Event(ADDED, o)]
    else if db[o.uid].resourceVersion != o.resourceVersion then [Event(MODIFIED, o)]
    else []
  }

  /** The events of the resync's listing pass: each object is compared, then stored. */
  function ListedEvents(db: Table, items: seq<Obj>): seq<Event>
  {
    if items == [] then []
    else
      var init := items[..|items| - 1];
      ListedEvents(db, init) + ListedEvent(UpsertAll(db, init), items[|items| - 1])
  }

  /** The diff of a listing against a fixed table, item by item. */
  function Diff(db: Table, items: seq<Obj>): seq<Event>
  {
    if items == [] then [] else Diff(db, items[..|items| - 1]) + ListedEvent(db, items[|items| - 1])
  }

  /** The key order of a Python dict after `d[u] = ...`: a new key goes last, an old one stays. */
  function PutKey(order: seq<Uid>, u: Uid): seq<Uid>
  {
    if u in order then order else order + [u]
  }

  function PutKeys(order: seq<Uid>, items: seq<Obj>): (r: seq<Uid>)
    ensures Elems(r) == Elems(order) + UidSet(items)
    ensures NoDups(order) ==> NoDups(r)
  {
    if items == [] then order
    else
      var prev := PutKeys(order, items[..|items| - 1]);
      var u := items[|items| - 1].uid;
      assert Elems(prev + [u]) == Elems(prev) + {u};
      PutKey(prev, u)
  }

  /** The key order of a Python dict after `del d[u]`. */
  function Without(order: seq<Uid>, u: Uid): (r: seq<Uid>)
    ensures Elems(r) == Elems(order) - {u}
  {
    if order == [] then []
    else
      var x := order[|order| - 1];
      var prev := Without(order[..|order| - 1], u);
      assert Elems(order) == Elems(order[..|order| - 1]) + {x};
      if x == u then
        prev
      else
        assert Elems(prev + [x]) == Elems(prev) + {x};
        prev + [x]
  }

  /** The key order of the table after applying one event, as `Apply` changes the table. */
  function ApplyOrder(order: seq<Uid>, e: Event): seq<Uid>
  {
    match e.kind
    case ADDED => PutKey(order, e.obj.uid)
    case MODIFIED => PutKey(order, e.obj.uid)
    case DELETED => Without(order, e.obj.uid)
    case _ => order
  }

  /** The key order follows the table: it lists exactly the table's keys after the event too. */
  lemma ApplyOrderKeys(db: Table, order: seq<Uid>, e: Event)
    requires Elems(order) == db.Keys
    ensures Elems(ApplyOrder(order, e)) == Apply(db, e).Keys
  {
    if e.kind == ADDED || e.kind == MODIFIED {
      assert Elems(order + [e.obj.uid]) == Elems(order) + {e.obj.uid};
    }
  }

  /** The keys of `order` that are in `alive`, in order. */
  function KeepKeys(order: seq<Uid>, alive: set<Uid>): (r: seq<Uid>)
    ensures Elems(r) == Elems(order) * alive
  {
    if order == [] then []
    else
      var x := order[|order| - 1];
      var prev := KeepKeys(order[..|order| - 1], alive);
      assert Elems(order) == Elems(order[..|order| - 1]) + {x};
      if x in alive then
        assert Elems(prev + [x]) == Elems(prev) + {x};
        prev + [x]
      else
        assert prev + [] == prev;
        prev
  }

  /** One DELETED per stored uid that is not alive, in the order of `order`. */
  function StaleEvents(db: Table, order: seq<Uid>, alive: set<Uid>): seq<Event>
    requires Elems(order) <= db.Keys
  {
    if order == [] then []
    else
      var x := order[|order| - 1];
      assert x in Elems(order);
      assert Elems(order[..|order| - 1]) <= Elems(order);
      StaleEvents(db, order[..|order| - 1], alive) + (if x in alive then [] else [Event(DELETED, db[x])])
  }

  /** The table after a resync: the listed objects stored, every unlisted uid removed. */
  function ResyncTable(db: Table, items: seq<Obj>): Table
  {
    UpsertAll(db, items) - (db.Keys - UidSet(items))
  }

  /** The events of a resync: the listing pass, then one DELETED per stale uid in dict order. */
  function ResyncEvents(db: Table, order: seq<Uid>, items: seq<Obj>): seq<Event>
    requires Elems(order) == db.Keys
  {
    ListedEvents(db, items) + StaleEvents(UpsertAll(db, items), PutKeys(order, items), UidSet(items))
  }

  /** The dict's key order after a resync. */
  function ResyncOrder(order: seq<Uid>, items: seq<Obj>): seq<Uid>
  {
    KeepKeys(PutKeys(order, items), UidSet(items))
  }

  // ---------------------------------------------------------------------------------------
  // Lemmas about the listing functions

  lemma {:induction false} UidSetMember(items: seq<Obj>, u: Uid)
    ensures u in UidSet(items) <==> exists i :: 0 <= i < |items| && items[i].uid == u
  {
    if items != [] {
      var init := items[..|items| - 1];
      UidSetMember(init, u);
      if u in UidSet(init) {
        var i :| 0 <= i < |init| && init[i].uid == u;
        assert items[i].uid == u;
      }
      if exists i :: 0 <= i < |items| && items[i].uid == u {
        var i :| 0 <= i < |items| && items[i].uid == u;
        if i < |init| {
          assert init[i].uid == u;
        }
      }
    }
  }

  /** A uid that is not listed keeps its entry through the listing pass. */
  lemma {:induction false} UpsertAllOutside(db: Table, items: seq<Obj>, u: Uid)
    requires u !in UidSet(items)
    ensures u in UpsertAll(db, items) <==> u in db
    ensures u in db ==> UpsertAll(db, items)[u] == db[u]
  {
    if items != [] {
      UpsertAllOutside(db, items[..|items| - 1], u);
    }
  }

  /** With distinct uids, each listed object ends up stored under its uid. */
  lemma {:induction false} UpsertAllAt(db: Table, items: seq<Obj>, i: nat)
    requires DistinctUids(items) && i < |items|
    ensures UpsertAll(db, items)[items[i].uid] == items[i]
  {
    var n := |items| - 1;
    if i < n {
      var init := items[..n];
      assert init[i] == items[i];
      UpsertAllAt(db, init, i);
    }
  }

  /** With distinct uids the listing pass is a plain diff against the stored table. */
  lemma {:induction false} ListedIsDiff(db: Table, items: seq<Obj>)
    requires DistinctUids(items)
    ensures ListedEvents(db, items) == Diff(db, items)
  {
    if items != [] {
      var n := |items| - 1;
      var init := items[..n];
      ListedIsDiff(db, init);
      UidSetMember(init, items[n].uid);
      UpsertAllOutside(db, init, items[n].uid);
    }
  }

  /** A listing that matches the table version for version produces no diff. */
  lemma {:induction false} DiffEmpty(db: Table, items: seq<Obj>)
    requires forall i :: 0 <= i < |items| ==>
      items[i].uid in db && db[items[i].uid].resourceVersion == items[i].resourceVersion
    ensures Diff(db, items) == []
  {
    if items != [] {
      DiffEmpty(db, items[..|items| - 1]);
    }
  }

  /** After a resync the table holds exactly the listed uids, each with its listed object. */
  lemma ResyncContents(db: Table, items: seq<Obj>)
    requires DistinctUids(items)
    ensures ResyncTable(db, items).Keys == UidSet(items)
    ensures forall i :: 0 <= i < |items| ==> ResyncTable(db, items)[items[i].uid] == items[i]
  {
    forall i | 0 <= i < |items|
      ensures ResyncTable(db, items)[items[i].uid] == items[i]
    {
      UidSetMember(items, items[i].uid);
      UpsertAllAt(db, items, i);
    }
  }

  // ---------------------------------------------------------------------------------------
  // Lemmas about replaying events

  lemma {:induction false} ReplayAppend(db: Table, a: seq<Event>, b: seq<Event>)
    ensures Replay(db, a + b) == Replay(Replay(db, a), b)
  {
    if b != [] {
      var n := |b| - 1;
      assert (a + b)[..|a + b| - 1] == a + b[..n];
      assert (a + b)[|a + b| - 1] == b[n];
      ReplayAppend(db, a, b[..n]);
      calc {
        Replay(db, a + b);
        Apply(Replay(db, a + b[..n]), b[n]);
        Apply(Replay(Replay(db, a), b[..n]), b[n]);
        Replay(Replay(db, a), b);
      }
    } else {
      assert a + b == a;
    }
  }

  lemma {:induction false} SameVersionsReplay(a: Table, b: Table, es: seq<Event>)
    requires SameVersions(a, b)
    ensures SameVersions(Replay(a, es), Replay(b, es))
  {
    if es != [] {
      SameVersionsReplay(a, b, es[..|es| - 1]);
    }
  }

  /** Replaying the initial listing's events builds the table the listing built. */
  lemma {:induction false} AddedReplay(db: Table, items: seq<Obj>)
    ensures Replay(db, AddedEvents(items)) == UpsertAll(db, items)
  {
    if items != [] {
      var n := |items| - 1;
      var es := AddedEvents(items);
      assert es[..|es| - 1] == AddedEvents(items[..n]);
      AddedReplay(db, items[..n]);
    }
  }

  /** Replaying the listing pass's events gives the stored table up to bodies of unchanged versions. */
  lemma {:induction false} ListedReplay(db: Table, items: seq<Obj>)
    ensures SameVersions(Replay(db, ListedEvents(db, items)), UpsertAll(db, items))
  {
    if items != [] {
      var n := |items| - 1;
      var init := items[..n];
      var o := items[n];
      ListedReplay(db, init);
      var es := ListedEvents(db, init);
      var e := ListedEvent(UpsertAll(db, init), o);
      ReplayAppend(db, es, e);
      ListedStep(Replay(db, es), UpsertAll(db, init), o);
    }
  }

  /** Replaying the event for one listed object keeps a consumer's table in step with the stored one. */
  lemma ListedStep(r: Table, u: Table, o: Obj)
    requires SameVersions(r, u)
    ensures SameVersions(Replay(r, ListedEvent(u, o)), u[o.uid := o])
  {
    var e := ListedEvent(u, o);
    if e != [] {
      assert Replay(r, e) == Apply(r, e[0]) by {
        assert e[..0] == [];
      }
    }
  }

  /** Replaying the DELETED events removes exactly the stale uids. */
  lemma {:induction false} StaleReplay(db: Table, order: seq<Uid>, alive: set<Uid>)
    requires KeysMatch(db) && Elems(order) <= db.Keys
    ensures Replay(db, StaleEvents(db, order, alive)) == db - (Elems(order) - alive)
  {
    if order != [] {
      var n := |order| - 1;
      var p := order[..n];
      var x := order[n];
      assert Elems(order) == Elems(p) + {x};
      StaleReplay(db, p, alive);
      var es := StaleEvents(db, p, alive);
      var before := db - (Elems(p) - alive);
      if x !in alive {
        var e := Event(DELETED, db[x]);
        assert StaleEvents(db, order, alive) == es + [e];
        assert (es + [e])[..|es + [e]| - 1] == es;
        assert Replay(db, es + [e]) == Apply(before, e);
        assert db[x].uid == x;
        assert Apply(before, e) == before - {x};
        MapMinusStep(db, Elems(p) - alive, x);
        assert (Elems(p) - alive) + {x} == Elems(order) - alive;
      } else {
        assert StaleEvents(db, order, alive) == es + [];
        assert es + [] == es;
        assert Elems(order) - alive == Elems(p) - alive;
      }
    }
  }

  lemma MapMinusStep(db: Table, gone: set<Uid>, x: Uid)
    ensures (db - gone) - {x} == db - (gone + {x})
  {
  }

  /**
   * Resync equivalence: a consumer that applies the resync's events to the old table arrives at
   * the new table (bodies of unchanged versions aside, which the resync stores without an event).
   */
  lemma ResyncReplay(db: Table, order: seq<Uid>, items: seq<Obj>)
    requires KeysMatch(db) && Elems(order) == db.Keys
    ensures SameVersions(Replay(db, ResyncEvents(db, order, items)), ResyncTable(db, items))
  {
    var up := UpsertAll(db, items);
    var listed := ListedEvents(db, items);
    var order1 := PutKeys(order, items);
    var alive := UidSet(items);
    ReplayAppend(db, listed, StaleEvents(up, order1, alive));
    ListedReplay(db, items);
    SameVersionsReplay(Replay(db, listed), up, StaleEvents(up, order1, alive));
    StaleReplay(up, order1, alive);
    assert Elems(order1) - alive == db.Keys - alive;
  }

  lemma {:induction false} StaleNone(db: Table, order: seq<Uid>, alive: set<Uid>)
    requires Elems(order) <= db.Keys && Elems(order) <= alive
    ensures StaleEvents(db, order, alive) == []
  {
    if order != [] {
      var n := |order| - 1;
      assert Elems(order[..n]) <= Elems(order);
      assert order[n] in Elems(order);
      StaleNone(db, order[..n], alive);
    }
  }

  /** Storing objects that are already stored, each under its own uid, leaves the table as it is. */
  lemma UpsertAllIdem(t: Table, items: seq<Obj>)
    requires DistinctUids(items)
    requires forall i :: 0 <= i < |items| ==> items[i].uid in t && t[items[i].uid] == items[i]
    ensures UpsertAll(t, items) == t
  {
    var up := UpsertAll(t, items);
    forall u | u in UidSet(items)
      ensures u in t && up[u] == t[u]
    {
      UidSetMember(items, u);
      var i :| 0 <= i < |items| && items[i].uid == u;
      UpsertAllAt(t, items, i);
    }
    forall u | u in t && u !in UidSet(items)
      ensures up[u] == t[u]
    {
      UpsertAllOutside(t, items, u);
    }
    assert up.Keys == t.Keys;
  }

  /**
   * Idempotent resync: listing the same objects again right away emits nothing and changes
   * neither the table nor its key order.
   */
  lemma ResyncIdempotent(db: Table, order: seq<Uid>, items: seq<Obj>)
    requires Elems(order) == db.Keys && DistinctUids(items)
    ensures Elems(ResyncOrder(order, items)) == ResyncTable(db, items).Keys
    ensures ResyncEvents(ResyncTable(db, items), ResyncOrder(order, items), items) == []
    ensures ResyncTable(ResyncTable(db, items), items) == ResyncTable(db, items)
    ensures ResyncOrder(ResyncOrder(order, items), items) == ResyncOrder(order, items)
  {
    var t := ResyncTable(db, items);
    var o := ResyncOrder(order, items);
    ResyncContents(db, items);
    assert Elems(o) == UidSet(items);
    StableTable(t, items);
    StableEvents(t, o, items);
    StableOrder(o, items);
  }

  /** A key order that holds exactly the listed uids is what a resync of that listing leaves. */
  lemma StableOrder(o: seq<Uid>, items: seq<Obj>)
    requires Elems(o) == UidSet(items)
    ensures ResyncOrder(o, items) == o
  {
    PutKeysPresent(o, items);
    KeepKeysAll(o, UidSet(items));
  }

  /** Storing uids the dict already holds leaves its key order as it is. */
  lemma {:induction false} PutKeysPresent(order: seq<Uid>, items: seq<Obj>)
    requires UidSet(items) <= Elems(order)
    ensures PutKeys(order, items) == order
  {
    if items != [] {
      var n := |items| - 1;
      assert UidSet(items) == UidSet(items[..n]) + {items[n].uid};
      PutKeysPresent(order, items[..n]);
      assert items[n].uid in Elems(order);
    }
  }

  /** Keeping every key of an order that holds only alive keys leaves it as it is. */
  lemma {:induction false} KeepKeysAll(order: seq<Uid>, alive: set<Uid>)
    requires Elems(order) <= alive
    ensures KeepKeys(order, alive) == order
  {
    if order != [] {
      var n := |order| - 1;
      assert Elems(order) == Elems(order[..n]) + {order[n]};
      KeepKeysAll(order[..n], alive);
      assert order == order[..n] + [order[n]];
    }
  }

  /** A table that holds exactly the listed objects is what a resync of that listing leaves. */
  lemma StableTable(t: Table, items: seq<Obj>)
    requires DistinctUids(items) && t.Keys == UidSet(items)
    requires forall i :: 0 <= i < |items| ==> t[items[i].uid] == items[i]
    ensures ResyncTable(t, items) == t
  {
    UpsertAllIdem(t, items);
    assert t.Keys - UidSet(items) == {};
  }

  /** Against a table that holds exactly the listed objects, a resync of that listing emits nothing. */
  lemma StableEvents(t: Table, o: seq<Uid>, items: seq<Obj>)
    requires DistinctUids(items) && t.Keys == UidSet(items) && Elems(o) == t.Keys
    requires forall i :: 0 <= i < |items| ==> t[items[i].uid] == items[i]
    ensures ResyncEvents(t, o, items) == []
  {
    var alive := UidSet(items);
    ListedIsDiff(t, items);
    DiffEmpty(t, items);
    UpsertAllIdem(t, items);
    StaleNone(t, PutKeys(o, items), alive);
    assert ResyncEvents(t, o, items) == [] + [];
  }

  /** The key-order bookkeeping of a dict keeps its keys distinct. */
  lemma {:induction false} WithoutNoDups(order: seq<Uid>, u: Uid)
    requires NoDups(order)
    ensures NoDups(Without(order, u))
  {
    if order != [] {
      var n := |order| - 1;
      NoDupsLast(order);
      WithoutNoDups(order[..n], u);
      var prev := Without(order[..n], u);
      if order[n] != u {
        assert order[n] !in Elems(prev);
        NoDupsSnoc(prev, order[n]);
      }
    }
  }

  lemma {:induction false} KeepKeysNoDups(order: seq<Uid>, alive: set<Uid>)
    requires NoDups(order)
    ensures NoDups(KeepKeys(order, alive))
  {
    if order != [] {
      var n := |order| - 1;
      NoDupsLast(order);
      KeepKeysNoDups(order[..n], alive);
      var prev := KeepKeys(order[..n], alive);
      if order[n] in alive {
        assert order[n] !in Elems(prev);
        NoDupsSnoc(prev, order[n]);
      }
    }
  }

  lemma {:induction false} WithoutAbsent(order: seq<Uid>, u: Uid)
    requires u !in order
    ensures Without(order, u) == order
  {
    if order != [] {
      WithoutAbsent(order[..|order| - 1], u);
    }
  }

  lemma {:induction false} WithoutAppend(a: seq<Uid>, b: seq<Uid>, u: Uid)
    ensures Without(a + b, u) == Without(a, u) + Without(b, u)
  {
    if b != [] {
      var n := |b| - 1;
      assert (a + b)[..|a + b| - 1] == a + b[..n];
      assert (a + b)[|a + b| - 1] == b[n];
      WithoutAppend(a, b[..n], u);
    } else {
      assert a + b == a;
      assert Without(a, u) + Without(b, u) == Without(a, u);
    }
  }

  /** One step of the deletion pass over a snapshot of the keys, stated on the key order. */
  lemma DeleteStep(snap: seq<Uid>, j: nat, alive: set<Uid>)
    requires NoDups(snap) && j < |snap| && snap[j] !in alive
    ensures Without(KeepKeys(snap[..j], alive) + snap[j..], snap[j]) == KeepKeys(snap[..j + 1], alive) + snap[j + 1..]
  {
    var u := snap[j];
    var k := KeepKeys(snap[..j], alive);
    assert snap[..j + 1][..j] == snap[..j];
    NoDupsAround(snap, j);
    assert u !in Elems(k);
    assert snap[j..] == [u] + snap[j + 1..];
    WithoutMiddle(k, u, snap[j + 1..]);
  }

  /** The element at `j` of a sequence without duplicates occurs neither before nor after it. */
  lemma NoDupsAround<T>(s: seq<T>, j: nat)
    requires NoDups(s) && j < |s|
    ensures s[j] !in s[..j] && s[j] !in s[j + 1..]
  {
    forall i | 0 <= i < j ensures s[..j][i] != s[j] {
      assert s[..j][i] == s[i];
    }
    forall i | j < i < |s| ensures s[i] != s[j] {
    }
  }

  /** Deleting a key that occurs once, between two runs of other keys, joins the runs. */
  lemma WithoutMiddle(k: seq<Uid>, u: Uid, rest: seq<Uid>)
    requires u !in k && u !in rest
    ensures Without(k + ([u] + rest), u) == k + rest
  {
    WithoutAppend(k, [u] + rest, u);
    WithoutAppend([u], rest, u);
    WithoutAbsent(k, u);
    WithoutAbsent(rest, u);
    assert Without([u], u) == [] by {
      assert [u][..0] == [];
    }
  }

  /** One step of the deletion pass over a snapshot of the keys, stated on the table and events. */
  lemma StaleStep(listed: Table, snap: seq<Uid>, j: nat, alive: set<Uid>)
    requires NoDups(snap) && Elems(snap) <= listed.Keys && j < |snap|
    ensures snap[j] in listed - (Elems(snap[..j]) - alive)
    ensures (listed - (Elems(snap[..j]) - alive))[snap[j]] == listed[snap[j]]
    ensures snap[j] in alive ==>
      listed - (Elems(snap[..j + 1]) - alive) == listed - (Elems(snap[..j]) - alive)
    ensures snap[j] !in alive ==>
      listed - (Elems(snap[..j + 1]) - alive) == (listed - (Elems(snap[..j]) - alive)) - {snap[j]}
    ensures StaleEvents(listed, snap[..j + 1], alive)
      == StaleEvents(listed, snap[..j], alive) + (if snap[j] in alive then [] else [Event(DELETED, listed[snap[j]])])
    ensures snap[j] in alive ==>
      KeepKeys(snap[..j], alive) + snap[j..] == KeepKeys(snap[..j + 1], alive) + snap[j + 1..]
  {
    var u := snap[j];
    assert snap[..j + 1][..j] == snap[..j];
    assert snap[j..] == [u] + snap[j + 1..];
    assert Elems(snap[..j + 1]) == Elems(snap[..j]) + {u};
    assert u in Elems(snap);
    NoDupsLast(snap[..j + 1]);
    assert u !in Elems(snap[..j]);
    if u !in alive {
      MapMinusStep(listed, Elems(snap[..j]) - alive, u);
      assert (Elems(snap[..j]) - alive) + {u} == Elems(snap[..j + 1]) - alive;
    } else {
      assert Elems(snap[..j + 1]) - alive == Elems(snap[..j]) - alive;
    }
  }
}

=== FILE: metrics.dfy ===
/**
 * The metrics collector of kra/collectors/metrics.py.
 *
 * Every collect cycle scrapes each known node's statistics summary and saves one resource
 * usage sample per scraped container that matches a Container row of its pod. A node whose
 * scrape fails, or a pod whose statistics lack a field, is logged and skipped; the other nodes
 * and pods are still collected. After a cycle the thread sleeps for what remains of the
 * collect interval.
 *
 * The scrape is a Kubernetes API call: its answer is an input of the model, a node's
 * `NodeScrape`. Clock readings are inputs too, in microseconds (`timedelta` resolution).
 */
module Metrics {
  import opened Common
  import opened Rounding

  /** The pod uid the kubelet reports for every kube-proxy pod; it is never collected. */
  const KubeProxyUid: string := "61e7f480b84eb873be0eabec2e213ae6"

  /** One container's statistics; a field missing from the scraped object is `None`. */
  datatype ContainerMetrics = ContainerMetrics(name: string, workingSetBytes: Option<nat>, usageNanoCores: Option<nat>)

  /** One pod's statistics. */
  datatype PodMetrics = PodMetrics(uid: string, containers: seq<ContainerMetrics>)

  /** What scraping a node gives: its pods' statistics, or a failure (the call raised or the answer has no pods). */
  datatype NodeScrape = Scraped(pods: seq<PodMetrics>) | ScrapeFailed

  /** A Container row, as far as the collector looks at it. */
  datatype ContainerRow = ContainerRow(id: nat, podUid: string, name: string)

  /** A saved ResourceUsage. */
  datatype Usage = Usage(container: nat, memoryMi: int, cpuM: int)

  // ---------------------------------------------------------------- conversions

  /**
   * `memory_mi = workingSetBytes / 1024 / 1024 + 1`: a true division, stored in an integer
   * field, which truncates. It is the number of whole mebibytes plus one.
   */
  function MemoryMi(workingSetBytes: nat): (m: int)
    ensures m == workingSetBytes / 1048576 + 1
    ensures (m - 1) * 1048576 <= workingSetBytes < m * 1048576
  {
    var q := workingSetBytes / 1048576;
    var r := workingSetBytes % 1048576;
    assert workingSetBytes as real / 1024.0 / 1024.0 + 1.0 == (q + 1) as real + r as real / 1048576.0;
    Trunc(workingSetBytes as real / 1024.0 / 1024.0 + 1.0)
  }

  /** `cpu_m = usageNanoCores / 1000`, truncated when stored: whole millicores. */
  function CpuM(usageNanoCores: nat): (c: int)
    ensures c == usageNanoCores / 1000
    ensures c * 1000 <= usageNanoCores < (c + 1) * 1000
  {
    var q := usageNanoCores / 1000;
    var r := usageNanoCores % 1000;
    assert usageNanoCores as real / 1000.0 == q as real + r as real / 1000.0;
    Trunc(usageNanoCores as real / 1000.0)
  }

  /** More memory or CPU in use never gives a smaller sample. */
  lemma ConversionsMonotone(w1: nat, w2: nat, n1: nat, n2: nat)
    requires w1 <= w2 && n1 <= n2
    ensures 1 <= MemoryMi(w1) <= MemoryMi(w2)
    ensures 0 <= CpuM(n1) <= CpuM(n2)
  {
  }

  // ---------------------------------------------------------------- collect_pod

  /**
   * `{c.name: c for c in Container.objects.filter(pod__uid=uid)}`: a name maps to a row of the
   * pod with that name, the last one in query order when several share it.
   */
  function ByName(rows: seq<ContainerRow>, uid: string): map<string, nat>
  {
    if rows == [] then map[]
    else
      var n := |rows| - 1;
      var prev := ByName(rows[..n], uid);
      if rows[n].podUid == uid then prev[rows[n].name := rows[n].id] else prev
  }

  /** Row `i` is a container of pod `uid` named `name`. */
  predicate NamedRow(rows: seq<ContainerRow>, i: int, uid: string, name: string)
  {
    0 <= i < |rows| && rows[i].podUid == uid && rows[i].name == name
  }

  /**
   * A name is looked up exactly when the pod has a container row of that name, and it finds
   * the id of the last such row.
   */
  lemma ByNameLast(rows: seq<ContainerRow>, uid: string, name: string)
    ensures name in ByName(rows, uid) <==> exists i :: NamedRow(rows, i, uid, name)
    ensures name in ByName(rows, uid) ==> exists i :: (
      && NamedRow(rows, i, uid, name) && rows[i].id == ByName(rows, uid)[name]
      && forall j :: i < j < |rows| ==> !NamedRow(rows, j, uid, name))
  {
    ByNameHas(rows, uid, name);
    if name in ByName(rows, uid) {
      var i := ByNameWitness(rows, uid, name);
    }
  }

  lemma {:induction false} ByNameHas(rows: seq<ContainerRow>, uid: string, name: string)
    ensures name in ByName(rows, uid) <==> exists i :: NamedRow(rows, i, uid, name)
  {
    if rows != [] {
      var n := |rows| - 1;
      var init := rows[..n];
      ByNameHas(init, uid, name);
      if name in ByName(init, uid) {
        var i :| NamedRow(init, i, uid, name);
        assert NamedRow(rows, i, uid, name);
      }
      if !NamedRow(rows, n, uid, name) && exists i :: NamedRow(rows, i, uid, name) {
        var i :| NamedRow(rows, i, uid, name);
        assert NamedRow(init, i, uid, name);
      }
    }
  }

  /** The last row of the pod with that name, whose id the lookup finds. */
  lemma {:induction false} ByNameWitness(rows: seq<ContainerRow>, uid: string, name: string) returns (i: nat)
    requires name in ByName(rows, uid)
    ensures NamedRow(rows, i, uid, name) && rows[i].id == ByName(rows, uid)[name]
    ensures forall j :: i < j < |rows| ==> !NamedRow(rows, j, uid, name)
  {
    var n := |rows| - 1;
    var init := rows[..n];
    if NamedRow(rows, n, uid, name) {
      i := n;
    } else {
      i := ByNameWitness(init, uid, name);
      assert init[i] == rows[i];
      forall j | i < j < |rows| ensures !NamedRow(rows, j, uid, name) {
        if j < n {
          assert !NamedRow(init, j, uid, name) && init[j] == rows[j];
        }
      }
    }
  }

  /** A container whose statistics lack its memory or CPU field: reading it raises. */
  predicate Malformed(c: ContainerMetrics)
  {
    c.workingSetBytes.None? || c.usageNanoCores.None?
  }

  /** The sample for a container with both fields, attached to the Container row `id`. */
  function UsageOf(id: nat, c: ContainerMetrics): Usage
    requires !Malformed(c)
  {
    Usage(id, MemoryMi(c.workingSetBytes.value), CpuM(c.usageNanoCores.value))
  }

  /** What collecting a pod saved, and whether it raised part-way. */
  datatype PodOutcome = PodOutcome(usages: seq<Usage>, failed: bool)

  /**
   * The loop over a pod's scraped containers: an unmatched name is skipped, a matched
   * container is saved, and a malformed matched container raises, ending the loop with what
   * was already saved.
   */
  function Samples(cs: seq<ContainerMetrics>, byName: map<string, nat>): PodOutcome
  {
    if cs == [] then PodOutcome([], false)
    else
      var n := |cs| - 1;
      var prev := Samples(cs[..n], byName);
      var c := cs[n];
      if prev.failed || c.name !in byName then prev
      else if Malformed(c) then PodOutcome(prev.usages, true)
      else PodOutcome(prev.usages + [UsageOf(byName[c.name], c)], false)
  }

  /** `collect_pod`: the kube-proxy pseudo pod saves nothing. */
  function PodSamples(pod: PodMetrics, rows: seq<ContainerRow>): PodOutcome
  {
    if pod.uid == KubeProxyUid then PodOutcome([], false)
    else Samples(pod.containers, ByName(rows, pod.uid))
  }

  /** The number of scraped containers that match a row. */
  function MatchedCount(cs: seq<ContainerMetrics>, byName: map<string, nat>): nat
  {
    if cs == [] then 0
    else
      var n := |cs| - 1;
      MatchedCount(cs[..n], byName) + if cs[n].name in byName then 1 else 0
  }

  /** The kube-proxy pseudo pod yields no samples, whatever it reports. */
  lemma KubeProxyIgnored(pod: PodMetrics, rows: seq<ContainerRow>)
    requires pod.uid == KubeProxyUid
    ensures PodSamples(pod, rows) == PodOutcome([], false)
  {
  }

  /** Every sample saved belongs to a scraped container matching a row of its name, and is its conversion. */
  lemma {:induction false} SamplesSound(cs: seq<ContainerMetrics>, byName: map<string, nat>)
    ensures forall u :: u in Samples(cs, byName).usages ==>
      exists i :: 0 <= i < |cs| && cs[i].name in byName && !Malformed(cs[i]) && u == UsageOf(byName[cs[i].name], cs[i])
  {
    if cs != [] {
      var n := |cs| - 1;
      SamplesSound(cs[..n], byName);
      forall u | u in Samples(cs[..n], byName).usages
        ensures exists i :: 0 <= i < |cs| && cs[i].name in byName && !Malformed(cs[i]) && u == UsageOf(byName[cs[i].name], cs[i])
      {
        var i :| 0 <= i < n && cs[..n][i].name in byName && !Malformed(cs[..n][i]) && u == UsageOf(byName[cs[..n][i].name], cs[..n][i]);
        assert cs[..n][i] == cs[i];
      }
    }
  }

  /**
   * The loop raises exactly when some matched container is malformed. Unmatched names never
   * raise, whatever their statistics.
   */
  lemma {:induction false} SamplesFailure(cs: seq<ContainerMetrics>, byName: map<string, nat>)
    ensures Samples(cs, byName).failed <==> exists i :: 0 <= i < |cs| && cs[i].name in byName && Malformed(cs[i])
  {
    if cs != [] {
      var n := |cs| - 1;
      SamplesFailure(cs[..n], byName);
      if exists i :: 0 <= i < n && cs[i].name in byName && Malformed(cs[i]) {
        var i :| 0 <= i < n && cs[i].name in byName && Malformed(cs[i]);
        assert cs[..n][i] == cs[i];
      }
      if exists i :: 0 <= i < n && cs[..n][i].name in byName && Malformed(cs[..n][i]) {
        var i :| 0 <= i < n && cs[..n][i].name in byName && Malformed(cs[..n][i]);
        assert cs[..n][i] == cs[i];
      }
    }
  }

  /**
   * Without a failure, each matched container yields exactly one sample: as many samples as
   * matched containers, and each matched container's conversion is among them.
   */
  lemma {:induction false} SamplesComplete(cs: seq<ContainerMetrics>, byName: map<string, nat>)
    requires !Samples(cs, byName).failed
    ensures |Samples(cs, byName).usages| == MatchedCount(cs, byName)
    ensures forall i :: 0 <= i < |cs| && cs[i].name in byName ==>
      !Malformed(cs[i]) && UsageOf(byName[cs[i].name], cs[i]) in Samples(cs, byName).usages
  {
    if cs != [] {
      var n := |cs| - 1;
      SamplesComplete(cs[..n], byName);
      forall i | 0 <= i < n && cs[i].name in byName
        ensures !Malformed(cs[i]) && UsageOf(byName[cs[i].name], cs[i]) in Samples(cs, byName).usages
      {
        assert cs[..n][i] == cs[i];
      }
    }
  }

  /** All of a node's pods are collected, each saving its samples whether or not another pod failed. */
  function NodeSamples(pods: seq<PodMetrics>, rows: seq<ContainerRow>): seq<Usage>
  {
    if pods == [] then []
    else
      var n := |pods| - 1;
      NodeSamples(pods[..n], rows) + PodSamples(pods[n], rows).usages
  }

  /** `collect`: a node whose scrape fails saves nothing; the other nodes are collected. */
  function CollectSamples(nodes: seq<NodeScrape>, rows: seq<ContainerRow>): seq<Usage>
  {
    if nodes == [] then []
    else
      var n := |nodes| - 1;
      CollectSamples(nodes[..n], rows) + (if nodes[n].Scraped? then NodeSamples(nodes[n].pods, rows) else [])
  }

  /** Failures are contained: the samples of a run of pods are those of its parts, one after the other. */
  lemma {:induction false} NodeSamplesSplit(a: seq<PodMetrics>, b: seq<PodMetrics>, rows: seq<ContainerRow>)
    ensures NodeSamples(a + b, rows) == NodeSamples(a, rows) + NodeSamples(b, rows)
    decreases |b|
  {
    if b != [] {
      var n := |b| - 1;
      assert (a + b)[..|a + b| - 1] == a + b[..n];
      NodeSamplesSplit(a, b[..n], rows);
    } else {
      assert a + b == a;
    }
  }

  /** Failures are contained: the samples of a run of nodes are those of its parts, one after the other. */
  lemma {:induction false} CollectSamplesSplit(a: seq<NodeScrape>, b: seq<NodeScrape>, rows: seq<ContainerRow>)
    ensures CollectSamples(a + b, rows) == CollectSamples(a, rows) + CollectSamples(b, rows)
    decreases |b|
  {
    if b != [] {
      var n := |b| - 1;
      assert (a + b)[..|a + b| - 1] == a + b[..n];
      CollectSamplesSplit(a, b[..n], rows);
    } else {
      assert a + b == a;
    }
  }

  /** A node whose scrape fails contributes nothing, and the nodes around it contribute all they would alone. */
  lemma FailedNodeContained(a: seq<NodeScrape>, b: seq<NodeScrape>, rows: seq<ContainerRow>)
    ensures CollectSamples(a + [ScrapeFailed] + b, rows) == CollectSamples(a, rows) + CollectSamples(b, rows)
  {
    CollectSamplesSplit(a + [ScrapeFailed], b, rows);
    assert (a + [ScrapeFailed])[..|a|] == a;
  }

  // ---------------------------------------------------------------- run_supervised

  /**
   * The sleep after a cycle that started at `start` and ended at `end` (microseconds): the
   * rest of the interval in seconds, when some is left.
   */
  function SleepAfter(interval: int, start: int, end: int): Option<real>
  {
    var toWaitSeconds := (interval - (end - start)) as real / 1000000.0;
    if toWaitSeconds > 0.0 then Some(toWaitSeconds) else None
  }

  /**
   * The thread sleeps exactly when the cycle took less than the interval, for the interval
   * minus the elapsed time; a cycle that took no time sleeps the whole interval.
   */
  lemma SleepAfterCycle(interval: int, start: int, end: int)
    ensures SleepAfter(interval, start, end).Some? <==> end - start < interval
    ensures SleepAfter(interval, start, end).Some? ==>
      SleepAfter(interval, start, end).value * 1000000.0 + (end - start) as real == interval as real
    ensures start <= end && SleepAfter(interval, start, end).Some? ==>
      SleepAfter(interval, start, end).value * 1000000.0 <= interval as real
  {
  }

  /** One cycle of the thread: the nodes known at that time and the clock readings around `collect`. */
  datatype Cycle = Cycle(nodes: seq<NodeScrape>, rows: seq<ContainerRow>, start: int, end: int)

  /** The samples saved by a run of cycles. */
  function RunSamples(cycles: seq<Cycle>): seq<Usage>
  {
    if cycles == [] then []
    else
      var n := |cycles| - 1;
      RunSamples(cycles[..n]) + CollectSamples(cycles[n].nodes, cycles[n].rows)
  }

  /** `CollectorThread`: the ResourceUsage table it appends to, and its collect interval. */
  class CollectorThread {
    var usages: seq<Usage>
    const interval: int

    constructor(interval: int)
      ensures this.interval == interval && usages == []
    {
      this.interval := interval;
      usages := [];
    }

    /** `collect_pod`: saves the pod's samples; `failed` when it raised part-way. */
    method CollectPod(pod: PodMetrics, rows: seq<ContainerRow>) returns (failed: bool)
      modifies this`usages
      ensures usages == old(usages) + PodSamples(pod, rows).usages
      ensures failed == PodSamples(pod, rows).failed
    {
      if pod.uid == KubeProxyUid {
        return false;
      }
      var containers := ByName(rows, pod.uid);
      var cs := pod.containers;
      var i := 0;
      failed := false;
      ghost var base := usages;
      while i < |cs| && !failed
        invariant 0 <= i <= |cs|
        invariant usages == base + Samples(cs[..i], containers).usages
        invariant failed == Samples(cs[..i], containers).failed
        invariant failed ==> Samples(cs, containers) == Samples(cs[..i], containers)
      {
        var c := cs[i];
        assert cs[..i + 1][..i] == cs[..i];
        if c.name in containers {
          if Malformed(c) {
            failed := true;
            SamplesAfterFailure(cs, i + 1, containers);
          } else {
            usages := usages + [UsageOf(containers[c.name], c)];
          }
        }
        i := i + 1;
      }
      if !failed {
        assert cs[..i] == cs;
      }
    }

    /** `collect_node`: every pod is collected, a failing pod being logged; `ok` is false when the scrape failed. */
    method CollectNode(node: NodeScrape, rows: seq<ContainerRow>) returns (ok: bool)
      modifies this`usages
      ensures usages == old(usages) + (if node.Scraped? then NodeSamples(node.pods, rows) else [])
      ensures ok == node.Scraped?
    {
      if node.ScrapeFailed? {
        return false;
      }
      var pods := node.pods;
      var i := 0;
      while i < |pods|
        invariant 0 <= i <= |pods|
        invariant usages == old(usages) + NodeSamples(pods[..i], rows)
      {
        assert pods[..i + 1][..i] == pods[..i];
        assert NodeSamples(pods[..i + 1], rows) == NodeSamples(pods[..i], rows) + PodSamples(pods[i], rows).usages;
        var _ := CollectPod(pods[i], rows);
        i := i + 1;
      }
      assert pods[..i] == pods;
      ok := true;
    }

    /** `collect`: every node is collected, a failing node being logged. */
    method Collect(nodes: seq<NodeScrape>, rows: seq<ContainerRow>)
      modifies this`usages
      ensures usages == old(usages) + CollectSamples(nodes, rows)
    {
      var i := 0;
      while i < |nodes|
        invariant 0 <= i <= |nodes|
        invariant usages == old(usages) + CollectSamples(nodes[..i], rows)
      {
        assert nodes[..i + 1][..i] == nodes[..i];
        var _ := CollectNode(nodes[i], rows);
        i := i + 1;
      }
      assert nodes[..i] == nodes;
    }

    /**
     * `run_supervised` over a finite run of cycles: each cycle collects, then the thread
     * sleeps what is left of the interval, when anything is.
     */
    method RunSupervised(cycles: seq<Cycle>) returns (sleeps: seq<Option<real>>)
      modifies this`usages
      ensures usages == old(usages) + RunSamples(cycles)
      ensures |sleeps| == |cycles|
      ensures forall i :: 0 <= i < |cycles| ==> sleeps[i] == SleepAfter(interval, cycles[i].start, cycles[i].end)
    {
      sleeps := [];
      var i := 0;
      while i < |cycles|
        invariant 0 <= i <= |cycles| && |sleeps| == i
        invariant usages == old(usages) + RunSamples(cycles[..i])
        invariant forall k :: 0 <= k < i ==> sleeps[k] == SleepAfter(interval, cycles[k].start, cycles[k].end)
      {
        assert cycles[..i + 1][..i] == cycles[..i];
        var cycle := cycles[i];
        Collect(cycle.nodes, cycle.rows);
        var toWaitSeconds := (interval - (cycle.end - cycle.start)) as real / 1000000.0;
        if toWaitSeconds > 0.0 {
          sleeps := sleeps + [Some(toWaitSeconds)];
        } else {
          sleeps := sleeps + [None];
        }
        i := i + 1;
      }
      assert cycles[..i] == cycles;
    }
  }

  /** Once the loop over a pod's containers has raised, the containers after it change nothing. */
  lemma {:induction false} SamplesAfterFailure(cs: seq<ContainerMetrics>, i: nat, byName: map<string, nat>)
    requires i <= |cs| && Samples(cs[..i], byName).failed
    ensures Samples(cs, byName) == Samples(cs[..i], byName)
    decreases |cs| - i
  {
    if i < |cs| {
      assert cs[..i + 1][..i] == cs[..i];
      SamplesAfterFailure(cs, i + 1, byName);
    } else {
      assert cs[..i] == cs;
    }
  }
}

=== FILE: models.dfy ===
/**
 * The decision logic of kra/models.py: the `WorkloadKind` enumeration, when `Summary.get_all`
 * regenerates the summaries and how it orders the stored ones, and how `Suggestion.get_all`
 * orders suggestions. The database's `order_by` is modelled as a stable sort by a total
 * preorder on rows.
 */
module Models {
  import opened Common

  /** `WorkloadKind`, an IntEnum. */
  datatype WorkloadKind = ReplicaSet | Deployment | DaemonSet | CronJob | StatefulSet | Job

  const AllKinds: seq<WorkloadKind> := [ReplicaSet, Deployment, DaemonSet, CronJob, StatefulSet, Job]

  /** The integer value of a kind. */
  function KindValue(k: WorkloadKind): (v: int)
    ensures 1 <= v <= 6
  {
    match k
    case ReplicaSet => 1
    case Deployment => 2
    case DaemonSet => 3
    case CronJob => 4
    case StatefulSet => 5
    case Job => 6
  }

  /** The member name of a kind. */
  function KindName(k: WorkloadKind): string
  {
    match k
    case ReplicaSet => "ReplicaSet"
    case Deployment => "Deployment"
    case DaemonSet => "DaemonSet"
    case CronJob => "CronJob"
    case StatefulSet => "StatefulSet"
    case Job => "Job"
  }

  /** `WorkloadKind[name]`: the member with that name; any other name is a KeyError. */
  function KindFromName(name: string): (k: Option<WorkloadKind>)
    ensures k.Some? ==> KindName(k.value) == name
  {
    if name == "ReplicaSet" then Some(ReplicaSet)
    else if name == "Deployment" then Some(Deployment)
    else if name == "DaemonSet" then Some(DaemonSet)
    else if name == "CronJob" then Some(CronJob)
    else if name == "StatefulSet" then Some(StatefulSet)
    else if name == "Job" then Some(Job)
    else None
  }

  /** The kinds are six, with the distinct values 1 to 6, and each is found again by its name. */
  lemma KindValues()
    ensures |AllKinds| == 6
    ensures forall i :: 0 <= i < 6 ==> KindValue(AllKinds[i]) == i + 1
    ensures forall k: WorkloadKind :: k in AllKinds && KindFromName(KindName(k)) == Some(k)
    ensures forall k1: WorkloadKind, k2: WorkloadKind :: KindValue(k1) == KindValue(k2) ==> k1 == k2
  {
    forall k: WorkloadKind ensures k in AllKinds && KindFromName(KindName(k)) == Some(k) {
      match k
      case ReplicaSet =>
      case Deployment =>
      case DaemonSet =>
      case CronJob =>
      case StatefulSet =>
      case Job =>
    }
  }

  /** A name is a kind's name exactly when `WorkloadKind[name]` finds a member. */
  lemma KindFromNameComplete(name: string)
    ensures KindFromName(name).None? <==> forall k: WorkloadKind :: KindName(k) != name
  {
    if KindFromName(name).None? {
      forall k: WorkloadKind ensures KindName(k) != name {
        match k
        case ReplicaSet =>
        case Deployment =>
        case DaemonSet =>
        case CronJob =>
        case StatefulSet =>
        case Job =>
      }
    }
  }

  // ---------------------------------------------------------------- ordering

  /** `le` is a total preorder: the orders `order_by` sorts by. */
  ghost predicate TotalPreorder<T(!new)>(le: (T, T) -> bool)
  {
    && (forall a, b :: le(a, b) || le(b, a))
    && (forall a, b, c :: le(a, b) && le(b, c) ==> le(a, c))
  }

  predicate Sorted<T>(s: seq<T>, le: (T, T) -> bool)
  {
    forall i, j :: 0 <= i < j < |s| ==> le(s[i], s[j])
  }

  /** `x` inserted after every element of `s` that does not come after it. */
  function Insert<T>(x: T, s: seq<T>, le: (T, T) -> bool): (r: seq<T>)
    ensures multiset(r) == multiset(s) + multiset{x}
    ensures |r| == |s| + 1
  {
    if s == [] then [x]
    else if le(x, s[0]) && !le(s[0], x) then [x] + s
    else
      assert s == [s[0]] + s[1..];
      [s[0]] + Insert(x, s[1..], le)
  }

  /** A stable insertion sort: the rows in `order_by` order. */
  function SortBy<T>(s: seq<T>, le: (T, T) -> bool): (r: seq<T>)
    ensures multiset(r) == multiset(s)
    ensures |r| == |s|
  {
    if s == [] then []
    else
      var n := |s| - 1;
      assert s == s[..n] + [s[n]];
      Insert(s[n], SortBy(s[..n], le), le)
  }

  lemma {:induction false} InsertSorted<T(!new)>(x: T, s: seq<T>, le: (T, T) -> bool)
    requires TotalPreorder(le) && Sorted(s, le)
    ensures Sorted(Insert(x, s, le), le)
  {
    if s != [] && !(le(x, s[0]) && !le(s[0], x)) {
      var t := s[1..];
      assert Sorted(t, le) by {
        forall i, j | 0 <= i < j < |t| ensures le(t[i], t[j]) {
          assert t[i] == s[i + 1] && t[j] == s[j + 1];
        }
      }
      InsertSorted(x, t, le);
      var r := Insert(x, t, le);
      assert le(s[0], x);
      forall y | y in multiset(r) ensures le(s[0], y) {
        if y != x {
          assert y in multiset(t);
          var k :| 0 <= k < |t| && t[k] == y;
          assert s[k + 1] == y;
        }
      }
      forall j | 0 <= j < |r| ensures le(s[0], r[j]) {
        assert r[j] in multiset(r);
      }
    }
  }

  /** The sort yields its input ordered by `le`. */
  lemma {:induction false} SortBySorted<T(!new)>(s: seq<T>, le: (T, T) -> bool)
    requires TotalPreorder(le)
    ensures Sorted(SortBy(s, le), le)
  {
    if s != [] {
      var n := |s| - 1;
      SortBySorted(s[..n], le);
      InsertSorted(s[n], SortBy(s[..n], le), le);
    }
  }

  // ---------------------------------------------------------------- Summary.get_all

  /** A stored Summary as far as `get_all` looks at it. */
  datatype SummaryRow = SummaryRow(namespace: string, name: string, containerName: string, doneAt: int)

  /** Code-point order on strings, strict. */
  predicate StrLt(a: string, b: string)
  {
    b != [] && (a == [] || a[0] < b[0] || (a[0] == b[0] && StrLt(a[1..], b[1..])))
  }

  predicate StrLe(a: string, b: string)
  {
    a == b || StrLt(a, b)
  }

  lemma {:induction false} StrLtTotal(a: string, b: string)
    ensures a == b || StrLt(a, b) || StrLt(b, a)
  {
    if a != [] && b != [] && a[0] == b[0] {
      StrLtTotal(a[1..], b[1..]);
      assert a == [a[0]] + a[1..] && b == [b[0]] + b[1..];
    }
  }

  lemma {:induction false} StrLtTrans(a: string, b: string, c: string)
    requires StrLt(a, b) && StrLt(b, c)
    ensures StrLt(a, c)
  {
    if a != [] && a[0] == b[0] && b[0] == c[0] {
      StrLtTrans(a[1..], b[1..], c[1..]);
    }
  }

  lemma {:induction false} StrLtIrreflexive(a: string)
    ensures !StrLt(a, a)
  {
    if a != [] {
      StrLtIrreflexive(a[1..]);
    }
  }

  /** Ordering by namespace, then name. */
  predicate NamespacedLe(ns1: string, n1: string, ns2: string, n2: string)
  {
    StrLt(ns1, ns2) || (ns1 == ns2 && StrLe(n1, n2))
  }

  /** Ordering by namespace, then name, is total and transitive. */
  lemma NamespacedLeTotalPreorder()
    ensures forall ns1, n1, ns2, n2 :: NamespacedLe(ns1, n1, ns2, n2) || NamespacedLe(ns2, n2, ns1, n1)
    ensures forall ns1, n1, ns2, n2, ns3, n3 ::
      NamespacedLe(ns1, n1, ns2, n2) && NamespacedLe(ns2, n2, ns3, n3) ==> NamespacedLe(ns1, n1, ns3, n3)
  {
    forall ns1, n1, ns2, n2 ensures NamespacedLe(ns1, n1, ns2, n2) || NamespacedLe(ns2, n2, ns1, n1) {
      StrLtTotal(ns1, ns2);
      StrLtTotal(n1, n2);
    }
    forall ns1, n1, ns2, n2, ns3, n3 | NamespacedLe(ns1, n1, ns2, n2) && NamespacedLe(ns2, n2, ns3, n3)
      ensures NamespacedLe(ns1, n1, ns3, n3)
    {
      if ns1 == ns2 {
        StrLtIrreflexive(ns1);
        StrLtIrreflexive(ns3);
        if ns2 == ns3 && n1 != n2 && n2 != n3 {
          StrLtTrans(n1, n2, n3);
        }
      } else if ns2 != ns3 {
        StrLtTrans(ns1, ns2, ns3);
      }
    }
  }

  /** `order_by('workload__namespace', 'workload__name')`. */
  predicate NsNameLe(x: SummaryRow, y: SummaryRow)
  {
    NamespacedLe(x.namespace, x.name, y.namespace, y.name)
  }

  lemma NsNameTotalPreorder()
    ensures TotalPreorder(NsNameLe)
  {
    NamespacedLeTotalPreorder();
  }

  /** The newest `done_at` of the stored summaries: `order_by('done_at').last()`. */
  function LastDoneAt(rows: seq<SummaryRow>): (t: int)
    requires rows != []
    ensures exists r :: r in rows && r.doneAt == t
    ensures forall r :: r in rows ==> r.doneAt <= t
  {
    var n := |rows| - 1;
    if n == 0 then rows[0].doneAt
    else
      var prev := LastDoneAt(rows[..n]);
      assert rows == rows[..n] + [rows[n]];
      if rows[n].doneAt > prev then rows[n].doneAt else prev
  }

  /** What `Summary.get_all` yields: freshly made summaries, or the stored ones in order. */
  datatype SummaryListing = Regenerate | Stored(rows: seq<SummaryRow>)

  /** `Summary.get_all(force_update)` at time `now` with the stored rows and `MAX_SUMMARY_AGE`. */
  function SummaryGetAll(force: bool, stored: seq<SummaryRow>, now: int, maxAge: int): SummaryListing
  {
    var regenerate := force || stored == [] || now - LastDoneAt(stored) > maxAge;
    if regenerate then Regenerate else Stored(SortBy(stored, NsNameLe))
  }

  /**
   * `get_all` regenerates exactly when forced, when nothing is stored, or when the newest
   * summary is older than the maximum age; otherwise it yields every stored summary once,
   * ordered by namespace, then name.
   */
  lemma SummaryGetAllChoice(force: bool, stored: seq<SummaryRow>, now: int, maxAge: int)
    ensures SummaryGetAll(force, stored, now, maxAge).Regenerate? <==>
      force || stored == [] || exists r :: r in stored && now - r.doneAt > maxAge && forall q :: q in stored ==> q.doneAt <= r.doneAt
    ensures SummaryGetAll(force, stored, now, maxAge).Stored? ==>
      var rows := SummaryGetAll(force, stored, now, maxAge).rows;
      multiset(rows) == multiset(stored) && Sorted(rows, NsNameLe)
  {
    if stored != [] {
      var t := LastDoneAt(stored);
      if exists r :: r in stored && now - r.doneAt > maxAge && forall q :: q in stored ==> q.doneAt <= r.doneAt {
        var r :| r in stored && now - r.doneAt > maxAge && forall q :: q in stored ==> q.doneAt <= r.doneAt;
        assert r.doneAt == t;
      }
    }
    NsNameTotalPreorder();
    SortBySorted(stored, NsNameLe);
  }

  // ---------------------------------------------------------------- Suggestion.get_all

  /** A stored Suggestion as far as `get_all` looks at it. */
  datatype SuggestionRow = SuggestionRow(summary: nat, priority: int)

  /** `order_by('-priority')`. */
  predicate PriorityDesc(x: SuggestionRow, y: SuggestionRow)
  {
    x.priority >= y.priority
  }

  /** `Suggestion.get_all(force_update)`: whether suggestions are recomputed first, and the rows in order. */
  function SuggestionGetAll(force: bool, rows: seq<SuggestionRow>): (bool, seq<SuggestionRow>)
  {
    (force, SortBy(rows, PriorityDesc))
  }

  /** Suggestions are recomputed only when forced, and always come out by descending priority. */
  lemma SuggestionGetAllOrder(force: bool, rows: seq<SuggestionRow>)
    ensures SuggestionGetAll(force, rows).0 == force
    ensures var out := SuggestionGetAll(force, rows).1;
      multiset(out) == multiset(rows)
      && forall i, j :: 0 <= i < j < |out| ==> out[i].priority >= out[j].priority
  {
    SortBySorted(rows, PriorityDesc);
  }
}

=== FILE: oom.dfy ===
/**
 * The OOM collector of kra/collectors/oom.py: the watcher thread's event filter, the handler's
 * chain of checks that turns a node's OOMKilling event into an OOMEvent row, the process-record
 * lookup, and the handler loop that keeps going when one event fails.
 *
 * The Kubernetes event stream is a finite sequence of `(type, event)` pairs, the queue between the
 * two threads a sequence, and the PSRecord and Container tables sequences of rows.
 */
module Oom {
  import opened Common
  import OomMessage
  import Cgroup

  /** The event types of the watcher the collector uses, including its end-of-listing marker. */
  datatype WatchEventType = Added | Modified | Deleted | DoneInitial

  /** A Kubernetes Event: its reason, the kind and name of the involved object, its text and time. */
  datatype KubeEvent = KubeEvent(reason: string, involvedKind: string, involvedName: string, message: string, lastTimestamp: int)

  datatype StreamItem = StreamItem(kind: WatchEventType, event: KubeEvent)

  /** A row of the external process table. */
  datatype PSRecord = PSRecord(ts: int, hostname: string, pid: int, cgroup: string, nspid: int)

  /** A row of the Container table, with the uid of its pod. */
  datatype ContainerRow = ContainerRow(id: nat, podUid: string, name: string, runtimeId: string)

  /** The OOMEvent row the handler saves. */
  datatype OOMEvent = OOMEvent(container: nat, happenedAt: int, targetPid: nat, victimPid: nat, targetComm: string, victimComm: string)

  /** Why handling one event failed. */
  datatype HandleError =
    | NoVictimPid(message: string)
    | NoTargetPid(message: string)
    | NoPsRecord(node: string, pid: nat)
    | UnknownCgroupFormat(cgroup: string)
    | ContainerDoesNotExist(runtimeId: string, podUid: string)
    | MultipleContainersReturned(runtimeId: string, podUid: string)

  // ---------------------------------------------------------------- watcher filter

  /** The events the watcher forwards: newly added OOMKilling events about a node. */
  predicate Wanted(item: StreamItem)
  {
    item.kind == Added && item.event.reason == "OOMKilling" && item.event.involvedKind == "Node"
  }

  /** The index of the first DONE_INITIAL marker, if any. */
  function FirstMarker(stream: seq<StreamItem>): (k: Option<nat>)
    ensures k.Some? ==> k.value < |stream| && stream[k.value].kind == DoneInitial
    ensures k.Some? ==> forall j :: 0 <= j < k.value ==> stream[j].kind != DoneInitial
    ensures k.None? <==> forall j :: 0 <= j < |stream| ==> stream[j].kind != DoneInitial
  {
    if stream == [] then None
    else
      var prev := FirstMarker(stream[..|stream| - 1]);
      if prev.Some? then prev
      else if stream[|stream| - 1].kind == DoneInitial then Some(|stream| - 1)
      else None
  }

  /** The wanted events of `items`, in order. */
  function Selected(items: seq<StreamItem>): seq<KubeEvent>
  {
    if items == [] then []
    else
      var n := |items| - 1;
      Selected(items[..n]) + (if Wanted(items[n]) then [items[n].event] else [])
  }

  /** What the watcher thread puts on the queue for a stream: the wanted events after the first marker. */
  function Queued(stream: seq<StreamItem>): seq<KubeEvent>
  {
    match FirstMarker(stream)
    case None => []
    case Some(k) => Selected(stream[k + 1..])
  }

  /**
   * The watcher thread: the first loop skips the initial listing up to DONE_INITIAL; the second
   * continues on the same iterator and queues the wanted events.
   */
  method Watch(stream: seq<StreamItem>) returns (queue: seq<KubeEvent>)
    ensures queue == Queued(stream)
  {
    var start, found := SkipListing(stream);
    if !found {
      // the stream ended before DONE_INITIAL: the second loop has nothing left to read
      return [];
    }
    queue := QueueWanted(stream, start);
    QueuedFrom(stream, start - 1);
  }

  /** The first loop: reads up to and including the first DONE_INITIAL marker, if there is one. */
  method SkipListing(stream: seq<StreamItem>) returns (next: nat, found: bool)
    ensures found <==> FirstMarker(stream).Some?
    ensures found ==> next == FirstMarker(stream).value + 1
  {
    next, found := 0, false;
    while next < |stream| && !found
      invariant 0 <= next <= |stream|
      invariant !found ==> forall j :: 0 <= j < next ==> stream[j].kind != DoneInitial
      invariant found ==> 1 <= next && FirstMarker(stream) == Some(next - 1)
    {
      if stream[next].kind == DoneInitial {
        found := true;
        FirstMarkerAt(stream, next);
      }
      next := next + 1;
    }
  }

  /** The second loop: from `start` on, queues the wanted events in order. */
  method QueueWanted(stream: seq<StreamItem>, start: nat) returns (queue: seq<KubeEvent>)
    requires start <= |stream|
    ensures queue == Selected(stream[start..])
  {
    queue := [];
    var i := start;
    while i < |stream|
      invariant start <= i <= |stream|
      invariant queue == Selected(stream[start..i])
    {
      ghost var seen := stream[start..i];
      assert stream[start..i + 1] == seen + [stream[i]];
      SelectedSnoc(seen, stream[i]);
      if Wanted(stream[i]) {
        queue := queue + [stream[i].event];
      }
      i := i + 1;
    }
    assert stream[start..] == stream[start..i];
  }

  lemma FirstMarkerAt(stream: seq<StreamItem>, i: nat)
    requires i < |stream| && stream[i].kind == DoneInitial
    requires forall j :: 0 <= j < i ==> stream[j].kind != DoneInitial
    ensures FirstMarker(stream) == Some(i)
  {
  }

  lemma FirstMarkerSnoc(stream: seq<StreamItem>, x: StreamItem)
    ensures FirstMarker(stream + [x]) ==
      if FirstMarker(stream).Some? then FirstMarker(stream)
      else if x.kind == DoneInitial then Some(|stream|)
      else None
  {
    assert (stream + [x])[..|stream|] == stream;
  }

  lemma SelectedSnoc(items: seq<StreamItem>, x: StreamItem)
    ensures Selected(items + [x]) == Selected(items) + (if Wanted(x) then [x.event] else [])
  {
    assert (items + [x])[..|items|] == items;
  }

  /** Every selected event is wanted and comes from an item of the input. */
  lemma {:induction false} SelectedSound(items: seq<StreamItem>)
    ensures forall e :: e in Selected(items) ==> exists j :: 0 <= j < |items| && Wanted(items[j]) && items[j].event == e
  {
    if items != [] {
      var n := |items| - 1;
      SelectedSound(items[..n]);
      forall e | e in Selected(items)
        ensures exists j :: 0 <= j < |items| && Wanted(items[j]) && items[j].event == e
      {
        if e in Selected(items[..n]) {
          var j :| 0 <= j < n && Wanted(items[..n][j]) && items[..n][j].event == e;
          assert items[j] == items[..n][j];
        } else {
          assert Wanted(items[n]) && items[n].event == e;
        }
      }
    }
  }

  /** Every wanted item of the input is selected. */
  lemma {:induction false} SelectedComplete(items: seq<StreamItem>, j: nat)
    requires j < |items| && Wanted(items[j])
    ensures items[j].event in Selected(items)
  {
    var n := |items| - 1;
    if j < n {
      SelectedComplete(items[..n], j);
    }
  }

  /**
   * The queue grows in arrival order: a new stream item adds its event exactly when a marker
   * has already been seen and the item is wanted. Before the marker nothing is queued.
   */
  lemma {:induction false} QueuedArrival(stream: seq<StreamItem>, x: StreamItem)
    ensures Queued(stream + [x]) == Queued(stream) + (if FirstMarker(stream).Some? && Wanted(x) then [x.event] else [])
  {
    match FirstMarker(stream)
    case None => QueuedBeforeMarker(stream, x);
    case Some(k) => QueuedAfterMarker(stream, x, k);
  }

  lemma QueuedBeforeMarker(stream: seq<StreamItem>, x: StreamItem)
    requires FirstMarker(stream).None?
    ensures Queued(stream + [x]) == []
  {
    FirstMarkerSnoc(stream, x);
    if x.kind == DoneInitial {
      assert (stream + [x])[|stream| + 1..] == [];
    }
  }

  lemma QueuedAfterMarker(stream: seq<StreamItem>, x: StreamItem, k: nat)
    requires FirstMarker(stream) == Some(k)
    ensures Queued(stream + [x]) == Queued(stream) + (if Wanted(x) then [x.event] else [])
  {
    var s, after := stream + [x], stream[k + 1..];
    FirstMarkerSnoc(stream, x);
    QueuedFrom(s, k);
    QueuedFrom(stream, k);
    SliceSnoc(stream, x, k + 1);
    SelectedSnoc(after, x);
  }

  lemma QueuedFrom(stream: seq<StreamItem>, k: nat)
    requires FirstMarker(stream) == Some(k)
    ensures Queued(stream) == Selected(stream[k + 1..])
  {
  }

  lemma SliceSnoc<T>(s: seq<T>, x: T, a: nat)
    requires a <= |s|
    ensures (s + [x])[a..] == s[a..] + [x]
  {
  }

  /** The queue is made of the wanted events after the first marker, and of all of them. */
  lemma {:induction false} QueuedMembers(stream: seq<StreamItem>, e: KubeEvent)
    ensures e in Queued(stream) <==>
      FirstMarker(stream).Some? &&
      exists j :: FirstMarker(stream).value < j < |stream| && Wanted(stream[j]) && stream[j].event == e
  {
    match FirstMarker(stream)
    case None =>
    case Some(k) =>
      QueuedFrom(stream, k);
      SelectedFromMembers(stream, k + 1, e);
  }

  /** An event is selected from a suffix exactly when a wanted item of the suffix carries it. */
  lemma SelectedFromMembers(items: seq<StreamItem>, a: nat, e: KubeEvent)
    requires a <= |items|
    ensures e in Selected(items[a..]) <==> exists j :: a <= j < |items| && Wanted(items[j]) && items[j].event == e
  {
    var after := items[a..];
    if e in Selected(after) {
      SelectedSound(after);
      var j :| 0 <= j < |after| && Wanted(after[j]) && after[j].event == e;
      assert items[a + j] == after[j];
    }
    if exists j :: a <= j < |items| && Wanted(items[j]) && items[j].event == e {
      var j :| a <= j < |items| && Wanted(items[j]) && items[j].event == e;
      assert after[j - a] == items[j];
      SelectedComplete(after, j - a);
    }
  }

  // ---------------------------------------------------------------- process record lookup

  /** A process record for pid `pid` on node `node` taken no later than `t`. */
  predicate Eligible(r: PSRecord, node: string, pid: int, t: int)
  {
    r.hostname == node && r.pid == pid && r.ts <= t
  }

  /**
   * `get_ps_record`: the eligible record with the greatest `ts` (the first such one in table
   * order when several share it), or none.
   */
  function LatestPsRecord(records: seq<PSRecord>, node: string, pid: int, t: int): (r: Option<PSRecord>)
    ensures r.Some? ==> r.value in records && Eligible(r.value, node, pid, t)
    ensures r.Some? ==> forall q :: q in records && Eligible(q, node, pid, t) ==> q.ts <= r.value.ts
    ensures r.None? <==> forall q :: q in records ==> !Eligible(q, node, pid, t)
  {
    if records == [] then None
    else
      var n := |records| - 1;
      var prev := LatestPsRecord(records[..n], node, pid, t);
      var q := records[n];
      assert records == records[..n] + [q];
      if !Eligible(q, node, pid, t) then prev
      else if prev.None? || q.ts > prev.value.ts then Some(q)
      else prev
  }

  /**
   * `ts` is the table's primary key, so the lookup is determined: it is the one eligible record
   * that no other eligible record is newer than.
   */
  lemma LatestPsRecordUnique(records: seq<PSRecord>, node: string, pid: int, t: int, r: PSRecord)
    requires forall i, j :: 0 <= i < j < |records| ==> records[i].ts != records[j].ts
    requires r in records && Eligible(r, node, pid, t)
    requires forall q :: q in records && Eligible(q, node, pid, t) ==> q.ts <= r.ts
    ensures LatestPsRecord(records, node, pid, t) == Some(r)
  {
    var l := LatestPsRecord(records, node, pid, t).value;
    assert l.ts == r.ts;
    var i :| 0 <= i < |records| && records[i] == l;
    var j :| 0 <= j < |records| && records[j] == r;
    assert records[i].ts == records[j].ts;
    assert i == j;
  }

  // ---------------------------------------------------------------- container lookup

  /** The containers with runtime id `rid` in the pod with uid `u`. */
  function Matching(containers: seq<ContainerRow>, u: string, rid: string): (m: seq<ContainerRow>)
    ensures forall c :: c in m <==> c in containers && c.podUid == u && c.runtimeId == rid
  {
    if containers == [] then []
    else
      var n := |containers| - 1;
      var c := containers[n];
      assert containers == containers[..n] + [c];
      Matching(containers[..n], u, rid) + (if c.podUid == u && c.runtimeId == rid then [c] else [])
  }

  /** `Container.objects.get(runtime_id=rid, pod__uid=u)`: exactly one row, or the query's error. */
  function ContainerGet(containers: seq<ContainerRow>, u: string, rid: string): (r: Result<ContainerRow, HandleError>)
    ensures r.Ok? ==> r.value in containers && r.value.podUid == u && r.value.runtimeId == rid
    ensures r.Ok? <==> |Matching(containers, u, rid)| == 1
    ensures r == Err(ContainerDoesNotExist(rid, u)) <==> forall c :: c in containers ==> !(c.podUid == u && c.runtimeId == rid)
  {
    var m := Matching(containers, u, rid);
    if |m| == 0 then Err(ContainerDoesNotExist(rid, u))
    else
      assert m[0] in m;
      if |m| > 1 then Err(MultipleContainersReturned(rid, u)) else Ok(m[0])
  }

  // ---------------------------------------------------------------- the handler

  /** `HandlerThread.handle`: the OOMEvent row for one event, or the first check that failed. */
  function Handle(event: KubeEvent, records: seq<PSRecord>, containers: seq<ContainerRow>): Result<OOMEvent, HandleError>
  {
    match OomMessage.VictimOf(event.message)
    case None => Err(NoVictimPid(event.message))
    case Some(victim) =>
      match OomMessage.TargetOf(event.message)
      case None => Err(NoTargetPid(event.message))
      case Some(target) =>
        match LatestPsRecord(records, event.involvedName, target.pid, event.lastTimestamp)
        case None => Err(NoPsRecord(event.involvedName, target.pid))
        case Some(ps) =>
          var ids := Cgroup.ParseCgroup(ps.cgroup);
          if ids.0.None? || ids.1.None? then Err(UnknownCgroupFormat(ps.cgroup))
          else
            match ContainerGet(containers, ids.0.value, ids.1.value)
            case Err(e) => Err(e)
            case Ok(c) =>
              Ok(OOMEvent(c.id, event.lastTimestamp, target.pid, victim.pid, target.comm, victim.comm))
  }

  /**
   * A row is produced exactly when every check passes, in the order the handler makes them, and
   * it then carries the victim and target read from the message, the event's time, and the one
   * container named by the cgroup of the newest eligible process record.
   */
  lemma HandleOk(event: KubeEvent, records: seq<PSRecord>, containers: seq<ContainerRow>)
    ensures Handle(event, records, containers).Ok? <==>
      && OomMessage.VictimOf(event.message).Some?
      && OomMessage.TargetOf(event.message).Some?
      && LatestPsRecord(records, event.involvedName, OomMessage.TargetOf(event.message).value.pid, event.lastTimestamp).Some?
      && Cgroup.ParseCgroup(LatestPsRecord(records, event.involvedName, OomMessage.TargetOf(event.message).value.pid, event.lastTimestamp).value.cgroup).0.Some?
      && ContainerGet(containers,
           Cgroup.ParseCgroup(LatestPsRecord(records, event.involvedName, OomMessage.TargetOf(event.message).value.pid, event.lastTimestamp).value.cgroup).0.value,
           Cgroup.ParseCgroup(LatestPsRecord(records, event.involvedName, OomMessage.TargetOf(event.message).value.pid, event.lastTimestamp).value.cgroup).1.value).Ok?
    ensures Handle(event, records, containers).Ok? ==>
      var oom := Handle(event, records, containers).value;
      var victim := OomMessage.VictimOf(event.message).value;
      var target := OomMessage.TargetOf(event.message).value;
      && oom.happenedAt == event.lastTimestamp
      && oom.victimPid == victim.pid && oom.victimComm == victim.comm
      && oom.targetPid == target.pid && oom.targetComm == target.comm
  {
  }

  /**
   * For a kernel report with a target and a victim line, a newest eligible process record whose
   * cgroup ends in `/pod<u>/<rid>`, and one container with that uid and runtime id, the handler
   * saves the row for that container with both pids and comms.
   */
  lemma HandleKernelReport(pre: string, tpid: nat, tcomm: string, vpid: nat, vcomm: string, post: string,
                           node: string, t: int, ps: PSRecord, path: string, u: string, rid: string,
                           records: seq<PSRecord>, c: ContainerRow, containers: seq<ContainerRow>)
    requires 'K' !in pre && 'K' !in tcomm && '\n' !in tcomm && '\n' !in vcomm && ')' !in post
    requires |u| >= 1 && Cgroup.AllUidChars(u) && |rid| >= 1 && Cgroup.AllWordChars(rid)
    requires ps.cgroup == path + "/pod" + u + "/" + rid
    requires LatestPsRecord(records, node, tpid, t) == Some(ps)
    requires Matching(containers, u, rid) == [c]
    ensures var event := KubeEvent("OOMKilling", "Node", node, OomMessage.KernelMessage(pre, tpid, tcomm, vpid, vcomm, post), t);
      Handle(event, records, containers) == Ok(OOMEvent(c.id, t, tpid, vpid, tcomm, vcomm))
  {
    OomMessage.KernelMessageVictim(pre, tpid, tcomm, vpid, vcomm, post);
    OomMessage.KernelMessageTarget(pre, tpid, tcomm, vpid, vcomm, post);
    Cgroup.ParseCgroupRoundTrip(path, u, rid);
  }

  /** A report whose process record has no eligible row fails with "No ps record", whatever the containers. */
  lemma HandleWithoutRecord(event: KubeEvent, records: seq<PSRecord>, containers: seq<ContainerRow>)
    requires OomMessage.VictimOf(event.message).Some? && OomMessage.TargetOf(event.message).Some?
    requires forall q :: q in records ==> q.hostname != event.involvedName || q.ts > event.lastTimestamp
    ensures Handle(event, records, containers) == Err(NoPsRecord(event.involvedName, OomMessage.TargetOf(event.message).value.pid))
  {
    var pid := OomMessage.TargetOf(event.message).value.pid;
    assert forall q :: q in records ==> !Eligible(q, event.involvedName, pid, event.lastTimestamp);
  }

  // ---------------------------------------------------------------- the handler loop

  /** The handler as a function of the event, over fixed tables. */
  function Handler(records: seq<PSRecord>, containers: seq<ContainerRow>): KubeEvent -> Result<OOMEvent, HandleError>
  {
    event => Handle(event, records, containers)
  }

  /** The outcome of handling each queued event with `handle`, in queue order. */
  function Outcomes(queue: seq<KubeEvent>, handle: KubeEvent -> Result<OOMEvent, HandleError>): (rs: seq<Result<OOMEvent, HandleError>>)
    ensures |rs| == |queue|
  {
    seq(|queue|, i requires 0 <= i < |queue| => handle(queue[i]))
  }

  /** Handling a split queue is handling its halves. */
  lemma OutcomesAppend(q1: seq<KubeEvent>, q2: seq<KubeEvent>, handle: KubeEvent -> Result<OOMEvent, HandleError>)
    ensures Outcomes(q1 + q2, handle) == Outcomes(q1, handle) + Outcomes(q2, handle)
  {
    var r, r1, r2 := Outcomes(q1 + q2, handle), Outcomes(q1, handle), Outcomes(q2, handle);
    forall i | 0 <= i < |r| ensures r[i] == (r1 + r2)[i] {
      if i < |q1| {
        assert (q1 + q2)[i] == q1[i];
      } else {
        assert (q1 + q2)[i] == q2[i - |q1|];
      }
    }
  }

  /** The rows of the successful outcomes, in order. */
  function OkRows(rs: seq<Result<OOMEvent, HandleError>>): seq<OOMEvent>
  {
    if rs == [] then []
    else
      var n := |rs| - 1;
      OkRows(rs[..n]) + (if rs[n].Ok? then [rs[n].value] else [])
  }

  /** The failed outcomes, each with the node of its event. */
  function ErrRows(queue: seq<KubeEvent>, rs: seq<Result<OOMEvent, HandleError>>): seq<(string, HandleError)>
    requires |rs| == |queue|
  {
    if rs == [] then []
    else
      var n := |rs| - 1;
      ErrRows(queue[..n], rs[..n]) + (if rs[n].Err? then [(queue[n].involvedName, rs[n].error)] else [])
  }

  /** The rows the handler loop saves for a run of queued events. */
  function SavedRows(queue: seq<KubeEvent>, records: seq<PSRecord>, containers: seq<ContainerRow>): seq<OOMEvent>
  {
    OkRows(Outcomes(queue, Handler(records, containers)))
  }

  /** The failures the handler loop logs, each with the node of its event. */
  function Failures(queue: seq<KubeEvent>, records: seq<PSRecord>, containers: seq<ContainerRow>): seq<(string, HandleError)>
  {
    ErrRows(queue, Outcomes(queue, Handler(records, containers)))
  }

  /** The handler thread over the queued events: each one is handled; a failure is logged and the loop goes on. */
  method HandleQueue(queue: seq<KubeEvent>, records: seq<PSRecord>, containers: seq<ContainerRow>)
    returns (saved: seq<OOMEvent>, failures: seq<(string, HandleError)>)
    ensures saved == SavedRows(queue, records, containers)
    ensures failures == Failures(queue, records, containers)
  {
    ghost var rs := Outcomes(queue, Handler(records, containers));
    saved := [];
    failures := [];
    var i := 0;
    while i < |queue|
      invariant 0 <= i <= |queue|
      invariant saved == OkRows(rs[..i])
      invariant failures == ErrRows(queue[..i], rs[..i])
    {
      assert rs[..i + 1][..i] == rs[..i] && queue[..i + 1][..i] == queue[..i];
      var r := Handle(queue[i], records, containers);
      assert rs[..i + 1][i] == r;
      match r {
        case Ok(oom) => saved := saved + [oom];
        case Err(e) => failures := failures + [(queue[i].involvedName, e)];
      }
      i := i + 1;
    }
    assert rs[..|queue|] == rs && queue[..|queue|] == queue;
  }

  /** Every queued event ends either as a saved row or as a logged failure, never both. */
  lemma EveryEventAccounted(queue: seq<KubeEvent>, records: seq<PSRecord>, containers: seq<ContainerRow>)
    ensures |SavedRows(queue, records, containers)| + |Failures(queue, records, containers)| == |queue|
  {
    OutcomesAccounted(queue, Outcomes(queue, Handler(records, containers)));
  }

  lemma {:induction false} OutcomesAccounted(queue: seq<KubeEvent>, rs: seq<Result<OOMEvent, HandleError>>)
    requires |rs| == |queue|
    ensures |OkRows(rs)| + |ErrRows(queue, rs)| == |rs|
  {
    if rs != [] {
      OutcomesAccounted(queue[..|rs| - 1], rs[..|rs| - 1]);
    }
  }

  /** A failure on one event does not affect the others: the rows saved for a split queue are those of its halves. */
  lemma SavedRowsAppend(q1: seq<KubeEvent>, q2: seq<KubeEvent>, records: seq<PSRecord>, containers: seq<ContainerRow>)
    ensures SavedRows(q1 + q2, records, containers) == SavedRows(q1, records, containers) + SavedRows(q2, records, containers)
  {
    var h := Handler(records, containers);
    OutcomesAppend(q1, q2, h);
    OkRowsAppend(Outcomes(q1, h), Outcomes(q2, h));
  }

  lemma {:induction false} OkRowsAppend(r1: seq<Result<OOMEvent, HandleError>>, r2: seq<Result<OOMEvent, HandleError>>)
    ensures OkRows(r1 + r2) == OkRows(r1) + OkRows(r2)
  {
    if r2 != [] {
      var n := |r2| - 1;
      assert (r1 + r2)[..|r1 + r2| - 1] == r1 + r2[..n];
      OkRowsAppend(r1, r2[..n]);
    } else {
      assert r1 + r2 == r1;
    }
  }
}

=== FILE: oom_message.dfy ===
/**
 * The two kernel-message patterns of kra/collectors/oom.py,
 *   target: `Kill\s+process\s+(\d+)\s+\((.*)\)`   victim: `Killed\s+process\s+(\d+)\s+\((.*)\)`,
 * searched leftmost with `re.search`. Both differ only in the leading word, so one matcher takes
 * that word as a parameter.
 *
 * Every run in the pattern is followed by a character the run cannot contain, so backtracking
 * never shortens a run: each `\s+` and `\d+` takes the longest run, and the greedy `(.*)` ends at
 * the last `)` before the end of the line. `\s` and `\d` are taken over ASCII.
 */
module OomMessage {
  import opened Common
  import Decimal

  predicate IsSpace(c: char)
  {
    c == ' ' || c == '\t' || c == '\n' || c == '\r' || c == '\U{000B}' || c == '\U{000C}'
  }

  /** A `(pid, comm)` pair read from a message. */
  datatype Kill = Kill(pid: nat, comm: string)

  /** `w` occurs in `s` at index `i`. */
  predicate HasAt(s: string, i: nat, w: string)
  {
    i + |w| <= |s| && s[i..i + |w|] == w
  }

  /** The end of the longest run of characters satisfying `p` that starts at `i`. */
  function SkipWhile(p: char -> bool, s: string, i: nat): (j: nat)
    requires i <= |s|
    ensures i <= j <= |s|
    ensures forall k :: i <= k < j ==> p(s[k])
    ensures j < |s| ==> !p(s[j])
    decreases |s| - i
  {
    if i == |s| || !p(s[i]) then i else SkipWhile(p, s, i + 1)
  }

  /** The index of the first newline at or after `i`, or the length of `s`: where `.` stops. */
  function EndOfLine(s: string, i: nat): (e: nat)
    requires i <= |s|
    ensures i <= e <= |s|
    ensures forall k :: i <= k < e ==> s[k] != '\n'
    ensures e < |s| ==> s[e] == '\n'
    decreases |s| - i
  {
    if i == |s| || s[i] == '\n' then i else EndOfLine(s, i + 1)
  }

  /** The index of the last `)` in `s[i..e]`, if any. */
  function LastClose(s: string, i: nat, e: nat): (g: Option<nat>)
    requires i <= e <= |s|
    ensures g.Some? ==> i <= g.value < e && s[g.value] == ')'
    ensures g.Some? ==> forall k :: g.value < k < e ==> s[k] != ')'
    ensures g.None? ==> forall k :: i <= k < e ==> s[k] != ')'
    decreases e - i
  {
    if e == i then None else if s[e - 1] == ')' then Some(e - 1) else LastClose(s, i, e - 1)
  }

  /** `\s+process\s+` from index `a`: the index after it. */
  function ProcessWord(s: string, a: nat): Option<nat>
    requires a <= |s|
  {
    var b := SkipWhile(IsSpace, s, a);
    if b == a || !HasAt(s, b, "process") then None
    else
      var c := b + 7;
      var d := SkipWhile(IsSpace, s, c);
      if d == c then None else Some(d)
  }

  /** `\d+` from index `d`: the index after the digits. */
  function DigitRun(s: string, d: nat): (e: Option<nat>)
    requires d <= |s|
    ensures e.Some? ==> d < e.value <= |s| && Decimal.AllDigits(s[d..e.value])
  {
    var e := SkipWhile(Decimal.IsDigit, s, d);
    if e == d then None
    else
      assert Decimal.AllDigits(s[d..e]) by {
        forall i | 0 <= i < |s[d..e]| ensures Decimal.IsDigit(s[d..e][i]) {
          assert s[d..e][i] == s[d + i];
        }
      }
      Some(e)
  }

  /** `\s+\(` from index `e`: the index after the parenthesis. */
  function OpenParen(s: string, e: nat): (i: Option<nat>)
    requires e <= |s|
    ensures i.Some? ==> e < i.value <= |s|
  {
    var f := SkipWhile(IsSpace, s, e);
    if f == e || !HasAt(s, f, "(") then None else Some(f + 1)
  }

  /** `(\d+)\s+\((.*)\)` from index `d`. */
  function PidAndComm(s: string, d: nat): Option<Kill>
    requires d <= |s|
  {
    match DigitRun(s, d)
    case None => None
    case Some(e) =>
      match OpenParen(s, e)
      case None => None
      case Some(i) =>
        match LastClose(s, i, EndOfLine(s, i))
        case None => None
        case Some(g) => Some(Kill(Decimal.ParseDigits(s[d..e]), s[i..g]))
  }

  /** The pattern with leading word `head`, matched at index `k` of `s`. */
  function MatchAt(s: string, k: nat, head: string): Option<Kill>
    requires k <= |s|
  {
    if !HasAt(s, k, head) then None
    else
      match ProcessWord(s, k + |head|)
      case None => None
      case Some(d) => PidAndComm(s, d)
  }

  /** The least index at or after `k` where the pattern matches. */
  function FirstMatch(s: string, k: nat, head: string): (i: Option<nat>)
    requires k <= |s|
    ensures i.Some? ==> k <= i.value <= |s| && MatchAt(s, i.value, head).Some?
    ensures i.Some? ==> forall j :: k <= j < i.value ==> MatchAt(s, j, head).None?
    ensures i.None? ==> forall j :: k <= j <= |s| ==> MatchAt(s, j, head).None?
    decreases |s| - k
  {
    if MatchAt(s, k, head).Some? then Some(k)
    else if k == |s| then None
    else FirstMatch(s, k + 1, head)
  }

  /** `re.search`: the match at the least index where the pattern matches. */
  function Search(s: string, head: string): Option<Kill>
  {
    match FirstMatch(s, 0, head)
    case None => None
    case Some(i) => MatchAt(s, i, head)
  }

  /** `target_message_re.search(message)`. */
  function TargetOf(message: string): Option<Kill>
  {
    Search(message, "Kill")
  }

  /** `victim_message_re.search(message)`. */
  function VictimOf(message: string): Option<Kill>
  {
    Search(message, "Killed")
  }

  /** The search finds nothing exactly when the pattern matches at no index. */
  lemma SearchNone(s: string, head: string)
    ensures Search(s, head).None? <==> forall j :: 0 <= j <= |s| ==> MatchAt(s, j, head).None?
  {
  }

  /** Where "Killed" stands, the target pattern does not match: "Kill" must be followed by whitespace. */
  lemma KilledIsNotKill(s: string, k: nat)
    requires k <= |s| && HasAt(s, k, "Killed")
    ensures MatchAt(s, k, "Kill").None?
  {
    assert s[k + 4] == s[k..k + 6][4] == 'e';
  }

  /** No `)` stands in `post` before its first newline. */
  predicate NoCloseOnFirstLine(post: string)
  {
    forall g :: 0 <= g < |post| && post[g] == ')' ==> '\n' in post[..g]
  }

  lemma ProcessWordAt(s: string, a: nat)
    requires HasAt(s, a, " process ") && a + 9 < |s| && !IsSpace(s[a + 9])
    ensures ProcessWord(s, a) == Some(a + 9)
  {
    assert s[a..a + 9][0] == s[a];
    assert !IsSpace(s[a + 1]) by {
      assert s[a..a + 9][1] == s[a + 1];
    }
    SkipWhileStops(IsSpace, s, a, a + 1);
    assert s[a + 1..a + 8] == s[a..a + 9][1..8];
    assert s[a..a + 9][8] == s[a + 8];
    SkipWhileStops(IsSpace, s, a + 8, a + 9);
  }

  lemma PidAndCommAt(s: string, d: nat, pid: nat, comm: string, post: string)
    requires d <= |s| && s[d..] == Decimal.NatToString(pid) + " (" + comm + ")" + post
    requires '\n' !in comm && NoCloseOnFirstLine(post)
    ensures PidAndComm(s, d) == Some(Kill(pid, comm))
  {
    var digits := Decimal.NatToString(pid);
    Layout(s, d, digits, comm, post);
    PidAndCommFrom(s, d, d + |digits|, d + |digits| + 2 + |comm|, digits, comm, post);
    Decimal.ParseNatToString(pid);
  }

  /** Where the pieces of `<digits> (<comm>)<post>` stand when it is the rest of `s` from `d`. */
  lemma Layout(s: string, d: nat, digits: string, comm: string, post: string)
    requires d <= |s| && s[d..] == digits + " (" + comm + ")" + post
    ensures var e := d + |digits|;
      var g := e + 2 + |comm|;
      && g < |s| && s[d..e] == digits && s[e] == ' ' && s[e + 1] == '('
      && s[e + 2..g] == comm && s[g] == ')' && s[g + 1..] == post
  {
    var e := d + |digits|;
    var g := e + 2 + |comm|;
    var t := s[d..];
    assert t[..|digits|] == digits;
    assert s[d..e] == t[..|digits|];
    assert t[|digits|] == ' ' && t[|digits| + 1] == '(';
    assert t[|digits| + 2..|digits| + 2 + |comm|] == comm;
    assert s[e + 2..g] == t[|digits| + 2..|digits| + 2 + |comm|];
    assert t[|digits| + 2 + |comm|] == ')';
    assert t[|digits| + 3 + |comm|..] == post;
  }

  /** `(\d+)\s+\((.*)\)` over laid-out pieces: the digits' number and the comm. */
  lemma PidAndCommFrom(s: string, d: nat, e: nat, g: nat, digits: string, comm: string, post: string)
    requires d < e && e + 2 <= g < |s| && s[d..e] == digits && Decimal.AllDigits(digits)
    requires s[e] == ' ' && s[e + 1] == '(' && s[e + 2..g] == comm && s[g] == ')' && s[g + 1..] == post
    requires '\n' !in comm && NoCloseOnFirstLine(post)
    ensures PidAndComm(s, d) == Some(Kill(Decimal.ParseDigits(digits), comm))
  {
    DigitsStop(s, d, e);
    SkipWhileStops(IsSpace, s, e, e + 1);
    assert HasAt(s, e + 1, "(") by {
      assert s[e + 1..e + 2][0] == s[e + 1];
    }
    assert OpenParen(s, e) == Some(e + 2);
    forall k | e + 2 <= k < g
      ensures s[k] != '\n'
    {
      assert s[k] == comm[k - e - 2];
    }
    LastCloseOfMessage(s, e + 2, g, post);
    PidAndCommOf(s, d, e, e + 2, g);
  }

  /** The digits of `s[d..e]`, followed by a non-digit, are the run `\d+` takes. */
  lemma DigitsStop(s: string, d: nat, e: nat)
    requires d < e < |s| && Decimal.AllDigits(s[d..e]) && s[e] == ' '
    ensures DigitRun(s, d) == Some(e)
  {
    forall k | d <= k < e ensures Decimal.IsDigit(s[k]) {
      assert s[k] == s[d..e][k - d];
    }
    SkipWhileStops(Decimal.IsDigit, s, d, e);
  }

  lemma PidAndCommOf(s: string, d: nat, e: nat, i: nat, g: nat)
    requires d <= |s| && DigitRun(s, d) == Some(e) && OpenParen(s, e) == Some(i)
    requires LastClose(s, i, EndOfLine(s, i)) == Some(g)
    ensures PidAndComm(s, d) == Some(Kill(Decimal.ParseDigits(s[d..e]), s[i..g]))
  {
  }

  /** One line of a kernel OOM report: `<head> process <pid> (<comm>)`. */
  function KillLine(head: string, pid: nat, comm: string): string
  {
    head + " process " + Decimal.NatToString(pid) + " (" + comm + ")"
  }

  /**
   * A message holding a kill line with leading word `head` at index `|pre|` matches there with
   * that pid and comm, whatever `comm` contains besides a newline (a `)` included), provided
   * nothing after it closes a parenthesis on the same line.
   */
  lemma MatchAtMessage(pre: string, head: string, pid: nat, comm: string, post: string)
    requires '\n' !in comm && NoCloseOnFirstLine(post)
    ensures MatchAt(pre + KillLine(head, pid, comm) + post, |pre|, head) == Some(Kill(pid, comm))
  {
    KillLineLayout(pre, head, pid, comm, post);
    MatchAtParts(pre + KillLine(head, pid, comm) + post, |pre|, head, pid, comm, post);
  }

  /** The pattern matches at `k` when the leading word, ` process ` and the pid-and-comm part follow one another there. */
  lemma MatchAtParts(s: string, k: nat, head: string, pid: nat, comm: string, post: string)
    requires k + |head| + 9 < |s| && HasAt(s, k, head) && HasAt(s, k + |head|, " process ") && !IsSpace(s[k + |head| + 9])
    requires s[k + |head| + 9..] == Decimal.NatToString(pid) + " (" + comm + ")" + post
    requires '\n' !in comm && NoCloseOnFirstLine(post)
    ensures MatchAt(s, k, head) == Some(Kill(pid, comm))
  {
    var a := k + |head|;
    ProcessWordAt(s, a);
    PidAndCommAt(s, a + 9, pid, comm, post);
    MatchAtFrom(s, k, head, a + 9);
  }

  /** Where the pieces of a kill line stand in a message holding it. */
  lemma KillLineLayout(pre: string, head: string, pid: nat, comm: string, post: string)
    ensures var s := pre + KillLine(head, pid, comm) + post;
      var a := |pre| + |head|;
      var digits := Decimal.NatToString(pid);
      && a + 9 < |s| && HasAt(s, |pre|, head) && HasAt(s, a, " process ") && !IsSpace(s[a + 9])
      && s[a + 9..] == digits + " (" + comm + ")" + post
  {
    var s := pre + KillLine(head, pid, comm) + post;
    var digits := Decimal.NatToString(pid);
    var hp, t := head + " process ", digits + " (" + comm + ")";
    Assoc(hp, digits, " (");
    Assoc(hp, digits + " (", comm);
    Assoc(hp, digits + " (" + comm, ")");
    assert KillLine(head, pid, comm) == hp + t;
    Assoc(pre, hp, t);
    Assoc(pre + hp, t, post);
    Assoc(pre, head, " process ");
    LayoutFour(s, pre, head, " process ", t + post);
    assert s[|pre| + |head| + 9] == digits[0];
  }

  /** The pieces of a text laid out as four consecutive parts. */
  lemma LayoutFour(s: string, a: string, b: string, c: string, d: string)
    requires s == a + b + c + d
    ensures s[|a|..|a| + |b|] == b && s[|a| + |b|..|a| + |b| + |c|] == c && s[|a| + |b| + |c|..] == d
  {
  }

  /** The pattern matches at `k` as its pid-and-comm part does after the leading word and ` process `. */
  lemma MatchAtFrom(s: string, k: nat, head: string, d: nat)
    requires k <= |s| && HasAt(s, k, head) && ProcessWord(s, k + |head|) == Some(d) && d <= |s|
    ensures MatchAt(s, k, head) == PidAndComm(s, d)
  {
  }

  /** The longest run from `i` ends at `j` when every character before `j` satisfies `p` and `s[j]` does not. */
  lemma SkipWhileStops(p: char -> bool, s: string, i: nat, j: nat)
    requires i <= j < |s| && !p(s[j])
    requires forall k :: i <= k < j ==> p(s[k])
    ensures SkipWhile(p, s, i) == j
    decreases j - i
  {
    if i < j {
      SkipWhileStops(p, s, i + 1, j);
    }
  }

  /** The `)` closing `comm` is the last one on its line when `post` closes none before a newline. */
  lemma LastCloseOfMessage(s: string, i: nat, g: nat, post: string)
    requires i <= g < |s| && s[g] == ')' && s[g + 1..] == post
    requires forall k :: i <= k < g ==> s[k] != '\n'
    requires NoCloseOnFirstLine(post)
    ensures LastClose(s, i, EndOfLine(s, i)) == Some(g)
  {
    var eol := EndOfLine(s, i);
    assert g < eol by {
      assert s[g] != '\n';
    }
    forall h | g < h < eol
      ensures s[h] != ')'
    {
      var q := h - g - 1;
      assert post[q] == s[h];
      assert forall w :: 0 <= w < q ==> post[..q][w] == s[g + 1 + w];
    }
    LastCloseStops(s, i, eol, g);
  }

  lemma LastCloseStops(s: string, i: nat, e: nat, g: nat)
    requires i <= g < e <= |s| && s[g] == ')'
    requires forall k :: g < k < e ==> s[k] != ')'
    ensures LastClose(s, i, e) == Some(g)
    decreases e - g
  {
    if e - 1 != g {
      LastCloseStops(s, i, e - 1, g);
    }
  }

  /** When the pattern matches at no index before `n`, the search returns the match at `n`. */
  lemma SearchFinds(s: string, head: string, n: nat)
    requires n <= |s| && MatchAt(s, n, head).Some?
    requires forall i :: 0 <= i < n ==> MatchAt(s, i, head).None?
    ensures Search(s, head) == MatchAt(s, n, head)
  {
  }

  /** No match of a pattern whose leading word starts with `K` can start at a character other than `K`. */
  lemma NoMatchWithoutK(s: string, head: string, i: nat)
    requires |head| >= 1 && head[0] == 'K' && i < |s| && s[i] != 'K'
    ensures MatchAt(s, i, head).None?
  {
    if i + |head| <= |s| {
      assert s[i..i + |head|][0] == s[i];
    }
  }

  /** The message a kernel OOM kill produces: the target line, then the victim line. */
  function KernelMessage(pre: string, tpid: nat, tcomm: string, vpid: nat, vcomm: string, post: string): string
  {
    pre + KillLine("Kill", tpid, tcomm) + "\n" + KillLine("Killed", vpid, vcomm) + post
  }

  /** The target pattern finds the "Kill process" line of a kernel message. */
  lemma KernelMessageTarget(pre: string, tpid: nat, tcomm: string, vpid: nat, vcomm: string, post: string)
    requires 'K' !in pre && '\n' !in tcomm
    ensures TargetOf(KernelMessage(pre, tpid, tcomm, vpid, vcomm, post)) == Some(Kill(tpid, tcomm))
  {
    var message := KernelMessage(pre, tpid, tcomm, vpid, vcomm, post);
    var tline := KillLine("Kill", tpid, tcomm);
    var tpost := "\n" + KillLine("Killed", vpid, vcomm) + post;
    Assoc(pre + tline + "\n", KillLine("Killed", vpid, vcomm), post);
    Assoc(pre + tline, "\n", KillLine("Killed", vpid, vcomm));
    Assoc(pre + tline, "\n" + KillLine("Killed", vpid, vcomm), post);
    assert message == pre + tline + tpost;
    Assoc(pre, tline, tpost);
    NewlineFirst(tpost);
    MatchAtMessage(pre, "Kill", tpid, tcomm, tpost);
    NoTargetIn(message, pre, tline + tpost);
    SearchFinds(message, "Kill", |pre|);
  }

  lemma Assoc(a: string, b: string, c: string)
    ensures a + b + c == a + (b + c)
  {
  }

  /** A text starting with a newline closes no parenthesis on its first line. */
  lemma NewlineFirst(t: string)
    requires |t| > 0 && t[0] == '\n'
    ensures NoCloseOnFirstLine(t)
  {
    forall g | 0 <= g < |t| && t[g] == ')'
      ensures '\n' in t[..g]
    {
      assert t[..g][0] == '\n';
    }
  }

  /** The target pattern matches nowhere inside a prefix without `K`. */
  lemma NoTargetIn(message: string, pre: string, rest: string)
    requires message == pre + rest && 'K' !in pre
    ensures forall i :: 0 <= i < |pre| ==> MatchAt(message, i, "Kill").None?
  {
    forall i | 0 <= i < |pre|
      ensures MatchAt(message, i, "Kill").None?
    {
      assert message[i] == pre[i];
      NoMatchWithoutK(message, "Kill", i);
    }
  }

  /** The target line starts with "Kill " and holds no other `K` when its comm holds none. */
  lemma TargetLineShape(pid: nat, comm: string)
    requires 'K' !in comm
    ensures var line := KillLine("Kill", pid, comm);
      |line| >= 5 && line[..5] == "Kill " && 'K' !in line[1..]
  {
    var digits := Decimal.NatToString(pid);
    Decimal.NatToStringHasNo(pid, 'K');
    var line := KillLine("Kill", pid, comm);
    var n := 13 + |digits|;
    forall i | 1 <= i < |line|
      ensures line[i] != 'K'
    {
      if i < 4 {
        assert line[i] == "Kill"[i];
      } else if i < 13 {
        assert line[i] == " process "[i - 4];
      } else if i < n {
        assert line[i] == digits[i - 13];
      } else if i < n + 2 {
        assert line[i] == " ("[i - n];
      } else if i < n + 2 + |comm| {
        assert line[i] == comm[i - n - 2];
      } else {
        assert line[i] == ')';
      }
    }
    assert line[..5] == "Kill " by {
      assert line[4] == ' ';
    }
    assert forall j :: 0 <= j < |line[1..]| ==> line[1..][j] == line[j + 1];
  }

  /** Before the victim line, the victim pattern matches nowhere: the only `K` is the target's "Kill ". */
  lemma NoVictimBefore(message: string, pre: string, line: string, rest: string)
    requires message == pre + line + "\n" + rest
    requires 'K' !in pre && |line| >= 5 && line[..5] == "Kill " && 'K' !in line[1..]
    ensures forall i :: 0 <= i < |pre| + |line| + 1 ==> MatchAt(message, i, "Killed").None?
  {
    var p := |pre|;
    forall i | 0 <= i < p + |line| + 1
      ensures MatchAt(message, i, "Killed").None?
    {
      if i < p {
        assert message[i] == pre[i];
        NoMatchWithoutK(message, "Killed", i);
      } else if i == p {
        assert message[p..p + 5] == line[..5];
        KillIsNotKilled(message, p);
      } else if i < p + |line| {
        assert message[i] == line[1..][i - p - 1];
        NoMatchWithoutK(message, "Killed", i);
      } else {
        assert message[i] == '\n';
        NoMatchWithoutK(message, "Killed", i);
      }
    }
  }

  /**
   * The victim pattern skips the "Kill process" line (whose "Kill" is not "Killed") and finds the
   * "Killed process" line of a kernel message.
   */
  lemma KernelMessageVictim(pre: string, tpid: nat, tcomm: string, vpid: nat, vcomm: string, post: string)
    requires 'K' !in pre && 'K' !in tcomm && '\n' !in vcomm && ')' !in post
    ensures VictimOf(KernelMessage(pre, tpid, tcomm, vpid, vcomm, post)) == Some(Kill(vpid, vcomm))
  {
    TargetLineShape(tpid, tcomm);
    VictimAfter(pre, KillLine("Kill", tpid, tcomm), vpid, vcomm, post);
  }

  lemma VictimAfter(pre: string, line: string, vpid: nat, vcomm: string, post: string)
    requires 'K' !in pre && |line| >= 5 && line[..5] == "Kill " && 'K' !in line[1..]
    requires '\n' !in vcomm && ')' !in post
    ensures VictimOf(pre + line + "\n" + KillLine("Killed", vpid, vcomm) + post) == Some(Kill(vpid, vcomm))
  {
    var vpre := pre + line + "\n";
    var rest := KillLine("Killed", vpid, vcomm) + post;
    var message := vpre + KillLine("Killed", vpid, vcomm) + post;
    assert message == vpre + rest;
    assert NoCloseOnFirstLine(post);
    MatchAtMessage(vpre, "Killed", vpid, vcomm, post);
    NoVictimBefore(message, pre, line, rest);
    SearchFinds(message, "Killed", |vpre|);
  }

  /** Where "Kill " stands, the victim pattern does not match. */
  lemma KillIsNotKilled(s: string, k: nat)
    requires k + 5 <= |s| && s[k..k + 5] == "Kill "
    ensures MatchAt(s, k, "Killed").None?
  {
    assert s[k + 4] == s[k..k + 5][4];
    if k + 6 <= |s| {
      assert s[k..k + 6][4] == s[k + 4];
    }
  }
}

=== FILE: oom_suggestions.dfy ===
/**
 * The OOM-based rule of kra/tasks/make_suggestions.py: in one transaction every stored
 * suggestion is deleted, then for each investigated container whose latest OOM kill happened
 * under a limit L, a suggestion is made when the current limit is below
 * int(L * (1 + BASE_MEMORY_RESERVE_FRACTION)) + 1.
 *
 * The Investigation rows (workload, container name, current memory limit) are an input. The
 * transaction is atomic: when any step raises, nothing is deleted and nothing is saved.
 */
module OomSuggestions {
  import opened Common
  import opened Rounding
  import Decimal
  import opened SuggestionPolicy

  /** An Investigation row as the rule reads it. */
  datatype Investigation = Investigation(workload: nat, containerName: string, memoryLimitMi: Option<nat>)

  /** A suggestion as this rule saves it. */
  datatype OomSuggestion = OomSuggestion(
    workload: nat,
    containerName: string,
    newMemoryLimitMi: int,
    priority: int,
    reason: string)

  /**
   * Why the loop raised: the killed container had no limit (`None * float`), the investigated
   * container has no limit (`None < int`), or its limit is 0 (division by zero).
   */
  datatype Failure = OomWithoutLimit | StatWithoutLimit | ZeroLimit

  predicate Of(e: OomEvent, workload: nat, name: string)
  {
    e.workload == workload && e.containerName == name
  }

  /**
   * `OOMEvent.objects.filter(...).order_by('happened_at').last()`: a kill of that container
   * at the latest time; among kills at the same time the database picks, here the last listed.
   */
  function Latest(events: seq<OomEvent>, workload: nat, name: string): Option<OomEvent>
  {
    if events == [] then None
    else
      var n := |events| - 1;
      var p := Latest(events[..n], workload, name);
      var e := events[n];
      if Of(e, workload, name) && (p.None? || p.value.happenedAt <= e.happenedAt) then Some(e) else p
  }

  /** The latest kill is None exactly when the container was never killed; otherwise it is one of its kills, and none is later. */
  lemma {:induction false} LatestSpec(events: seq<OomEvent>, workload: nat, name: string)
    ensures var r := Latest(events, workload, name);
      && (r.None? <==> forall i :: 0 <= i < |events| ==> !Of(events[i], workload, name))
      && (r.Some? ==>
            && r.value in events && Of(r.value, workload, name)
            && forall i :: 0 <= i < |events| && Of(events[i], workload, name) ==> events[i].happenedAt <= r.value.happenedAt)
  {
    if events != [] {
      var n := |events| - 1;
      LatestSpec(events[..n], workload, name);
      var r := Latest(events, workload, name);
      forall i | 0 <= i < n
        ensures events[i] == events[..n][i]
      {
      }
    }
  }

  /** `int(L * memory_reserve_multiplier) + 1`. */
  function MinLimit(limit: nat, fraction: real): int
  {
    Trunc(Scaled(limit, 1.0 + fraction)) + 1
  }

  /**
   * The minimum limit is strictly above the killed limit with the reserve added, so with a
   * non-negative reserve it is above the killed limit itself.
   */
  lemma MinLimitAbove(limit: nat, fraction: real)
    ensures Scaled(limit, 1.0 + fraction) < MinLimit(limit, fraction) as real
    ensures 0.0 <= fraction ==> limit < MinLimit(limit, fraction)
  {
    if 0.0 <= fraction {
      ScaledAbove(limit, 1.0 + fraction);
    }
  }

  /** `1000 + ((min_memory_limit / stat.memory_limit_mi) - 1) * 100`, before it is stored. */
  function RawPriority(minLimit: int, current: nat): real
    requires current != 0
  {
    1000.0 + (minLimit as real / current as real - 1.0) * 100.0
  }

  /** The priority exceeds 1000 when the current limit is below the minimum, and is stored (truncated) as at least 1000. */
  lemma PriorityAbove(minLimit: int, current: nat)
    requires 0 < current < minLimit
    ensures 1000.0 < RawPriority(minLimit, current)
    ensures 1000 <= Trunc(RawPriority(minLimit, current))
  {
    var q := minLimit as real / current as real;
    assert q * current as real == minLimit as real;
    assert 1.0 < q;
  }

  /** `f'OOM @ {L} Mi limit'`. */
  function Reason(limit: nat): string
  {
    "OOM @ " + Decimal.NatToString(limit) + " Mi limit"
  }

  /** The reason names the killed limit: different limits give different reasons. */
  lemma ReasonNamesLimit(a: nat, b: nat)
    ensures Reason(a) == Reason(b) ==> a == b
  {
    if Reason(a) == Reason(b) {
      var ra, rb := Reason(a), Reason(b);
      assert ra[6..|ra| - 9] == Decimal.NatToString(a);
      assert rb[6..|rb| - 9] == Decimal.NatToString(b);
      Decimal.NatToStringInjective(a, b);
    }
  }

  /** One iteration of the loop: the suggestion made for `stat`, if any, or why it raised. */
  function SuggestionFor(stat: Investigation, events: seq<OomEvent>, fraction: real): Result<Option<OomSuggestion>, Failure>
  {
    match Latest(events, stat.workload, stat.containerName)
    case None => Ok(None)
    case Some(e) =>
      match e.containerLimitMi
      case None => Err(OomWithoutLimit)
      case Some(killed) =>
        var m := MinLimit(killed, fraction);
        match stat.memoryLimitMi
        case None => Err(StatWithoutLimit)
        case Some(current) =>
          if m <= current then Ok(None)
          else if current == 0 then Err(ZeroLimit)
          else Ok(Some(OomSuggestion(stat.workload, stat.containerName, m, Trunc(RawPriority(m, current)), Reason(killed))))
  }

  /**
   * A suggestion is made exactly when the container was killed under a limit L and its
   * current (non-zero) limit is below the minimum for L; it is then for that container, its
   * new limit is the minimum, which exceeds L with the reserve added, its priority is at
   * least 1000 and its reason names L. A container never killed gets none.
   */
  lemma SuggestionForMeaning(stat: Investigation, events: seq<OomEvent>, fraction: real)
    ensures var latest := Latest(events, stat.workload, stat.containerName);
      var r := SuggestionFor(stat, events, fraction);
      && (latest.None? ==> r == Ok(None))
      && (r.Ok? && r.value.Some? <==>
            latest.Some? && latest.value.containerLimitMi.Some? && stat.memoryLimitMi.Some?
            && 0 < stat.memoryLimitMi.value < MinLimit(latest.value.containerLimitMi.value, fraction))
      && (r.Ok? && r.value.Some? ==>
            var s, killed := r.value.value, latest.value.containerLimitMi.value;
            && s.workload == stat.workload && s.containerName == stat.containerName
            && s.newMemoryLimitMi == MinLimit(killed, fraction)
            && Scaled(killed, 1.0 + fraction) < s.newMemoryLimitMi as real
            && stat.memoryLimitMi.value < s.newMemoryLimitMi
            && 1000 <= s.priority
            && s.reason == Reason(killed))
  {
    var latest := Latest(events, stat.workload, stat.containerName);
    if latest.Some? && latest.value.containerLimitMi.Some? {
      var killed := latest.value.containerLimitMi.value;
      MinLimitAbove(killed, fraction);
      if stat.memoryLimitMi.Some? && 0 < stat.memoryLimitMi.value < MinLimit(killed, fraction) {
        PriorityAbove(MinLimit(killed, fraction), stat.memoryLimitMi.value);
      }
    }
  }

  /** The whole loop: the suggestions in the order of the investigations, or the first failure. */
  function Suggestions(stats: seq<Investigation>, events: seq<OomEvent>, fraction: real): Result<seq<OomSuggestion>, Failure>
  {
    if stats == [] then Ok([])
    else
      var n := |stats| - 1;
      match Suggestions(stats[..n], events, fraction)
      case Err(e) => Err(e)
      case Ok(rows) =>
        match SuggestionFor(stats[n], events, fraction)
        case Err(e) => Err(e)
        case Ok(None) => Ok(rows)
        case Ok(Some(s)) => Ok(rows + [s])
  }

  /**
   * The loop fails exactly when some investigation fails; otherwise its rows are exactly the
   * suggestions made for the investigations, one per investigation that gets one.
   */
  lemma {:induction false} SuggestionsMeaning(stats: seq<Investigation>, events: seq<OomEvent>, fraction: real)
    ensures var r := Suggestions(stats, events, fraction);
      && (r.Err? <==> exists i :: 0 <= i < |stats| && SuggestionFor(stats[i], events, fraction).Err?)
      && (r.Ok? ==> |r.value| <= |stats|)
      && (r.Ok? ==> forall s :: s in r.value <==> exists i :: 0 <= i < |stats| && SuggestionFor(stats[i], events, fraction) == Ok(Some(s)))
  {
    if stats != [] {
      var n := |stats| - 1;
      SuggestionsMeaning(stats[..n], events, fraction);
      forall i | 0 <= i < n
        ensures stats[..n][i] == stats[i]
      {
      }
      var r := Suggestions(stats, events, fraction);
      if r.Ok? {
        var prev := Suggestions(stats[..n], events, fraction);
        assert prev.Ok?;
        forall s | s in r.value
          ensures exists i :: 0 <= i < |stats| && SuggestionFor(stats[i], events, fraction) == Ok(Some(s))
        {
          if s !in prev.value {
            assert SuggestionFor(stats[n], events, fraction) == Ok(Some(s));
          }
        }
      }
    }
  }

  /** The stored suggestions. */
  class OomSuggestionTable {
    var rows: seq<OomSuggestion>

    constructor ()
      ensures rows == []
    {
      rows := [];
    }

    /**
     * `make_suggestions()`: every old row is deleted and the new suggestions are saved in
     * turn; when an iteration raises, the transaction is rolled back and the old rows stay.
     */
    method MakeSuggestions(stats: seq<Investigation>, events: seq<OomEvent>, fraction: real) returns (failure: Option<Failure>)
      modifies this
      ensures match Suggestions(stats, events, fraction)
        case Ok(rs) => failure.None? && rows == rs
        case Err(e) => failure == Some(e) && rows == old(rows)
    {
      var before := rows;
      rows := [];
      var i := 0;
      while i < |stats|
        invariant 0 <= i <= |stats|
        invariant Suggestions(stats[..i], events, fraction) == Ok(rows)
      {
        assert stats[..i + 1][..i] == stats[..i];
        var r := SuggestionFor(stats[i], events, fraction);
        match r {
          case Err(e) =>
            assert stats[..i + 1][i] == stats[i];
            MakeSuggestionsFailed(stats, events, fraction, i + 1);
            rows := before;
            return Some(e);
          case Ok(None) =>
          case Ok(Some(s)) =>
            rows := rows + [s];
        }
        i := i + 1;
      }
      assert stats[..i] == stats;
      failure := None;
    }
  }

  /** Once a prefix of the investigations fails, the whole loop fails the same way. */
  lemma {:induction false} MakeSuggestionsFailed(stats: seq<Investigation>, events: seq<OomEvent>, fraction: real, k: nat)
    requires k <= |stats| && Suggestions(stats[..k], events, fraction).Err?
    ensures Suggestions(stats, events, fraction) == Suggestions(stats[..k], events, fraction)
    decreases |stats| - k
  {
    if k < |stats| {
      assert stats[..k + 1][..k] == stats[..k];
      MakeSuggestionsFailed(stats, events, fraction, k + 1);
    } else {
      assert stats[..k] == stats;
    }
  }
}

=== FILE: pods.dfy ===
/**
 * The pod collector of kra/collectors/pods.py.
 *
 * For each watched pod event, the collector upserts a Pod row keyed by uid. To find the pod's
 * workload it walks the controller owner references up to the topmost owner, reading each
 * owner through the API function of its kind, and gets or creates the Workload row for it.
 * A failed lookup is logged and the pod is upserted without touching its workload.
 *
 * The Kubernetes API is a map from (kind, namespace, name) to what a read returns; a name
 * missing from it reads as a 404. Python's recursion limit on the owner walk is a fuel bound.
 */
module Pods {
  import opened Common
  import opened Models
  import KubeWatchSpec

  datatype OwnerRef = OwnerRef(kind: string, name: string, controller: bool)

  /** The metadata of a Kubernetes object, with its kind. */
  datatype Meta = Meta(kind: string, namespace: string, name: string, ownerRefs: seq<OwnerRef>)

  /** A pod: its uid, its metadata and its start time, which is unset while it is being created. */
  datatype PodObj = PodObj(uid: string, meta: Meta, startTime: Option<int>)

  /** What reading an object returns. */
  datatype ReadReply = Found(obj: Meta) | ApiError(status: int)

  type Api = map<(WorkloadKind, string, string), ReadReply>

  /** Why the workload of a pod could not be found. */
  datatype LookupError =
    | UnknownControllerKind(kind: string)
    | ApiFailure(status: int)
    | UnknownWorkloadKind(kind: string)
    | RecursionLimit

  /** `kind_to_read_func`: the read function, named by its kind, for a controller kind. */
  function KindToRead(kind: string): Option<WorkloadKind>
  {
    if kind == "ReplicaSet" then Some(ReplicaSet)
    else if kind == "Deployment" then Some(Deployment)
    else if kind == "DaemonSet" then Some(DaemonSet)
    else if kind == "CronJob" then Some(CronJob)
    else if kind == "StatefulSet" then Some(StatefulSet)
    else if kind == "Job" then Some(Job)
    else None
  }

  /** Exactly the six workload kinds have a read function, and each reads objects of the kind it names. */
  lemma KindToReadAccepts(kind: string)
    ensures KindToRead(kind).Some? <==> exists k: WorkloadKind :: KindName(k) == kind
    ensures KindToRead(kind).Some? ==> KindName(KindToRead(kind).value) == kind
  {
    if KindToRead(kind).Some? {
      var k := KindToRead(kind).value;
      assert KindName(k) == kind;
    } else {
      forall k: WorkloadKind ensures KindName(k) != kind {
        match k
        case ReplicaSet =>
        case Deployment =>
        case DaemonSet =>
        case CronJob =>
        case StatefulSet =>
        case Job =>
      }
    }
  }

  /** A read through the API of the given kind. */
  function Read(api: Api, k: WorkloadKind, namespace: string, name: string): Result<Meta, LookupError>
  {
    if (k, namespace, name) !in api then Err(ApiFailure(404))
    else
      match api[(k, namespace, name)]
      case Found(o) => Ok(o)
      case ApiError(s) => Err(ApiFailure(s))
  }

  /** The first owner reference that is a controller. */
  function FirstController(refs: seq<OwnerRef>): (r: Option<OwnerRef>)
    ensures r.Some? ==> r.value in refs && r.value.controller
    ensures r.None? <==> forall i :: 0 <= i < |refs| ==> !refs[i].controller
  {
    if refs == [] then None
    else if refs[0].controller then Some(refs[0])
    else
      var rest := FirstController(refs[1..]);
      assert forall i :: 1 <= i < |refs| ==> refs[i] == refs[1..][i - 1];
      rest
  }

  /** `get_owner_recursive`: the topmost controller owner of `obj`, if it has one. */
  function OwnerRecursive(api: Api, obj: Meta, fuel: nat): Result<Option<Meta>, LookupError>
    decreases fuel
  {
    if |obj.ownerRefs| == 0 then Ok(None)
    else
      match FirstController(obj.ownerRefs)
      case None => Ok(None)
      case Some(ref) =>
        match KindToRead(ref.kind)
        case None => Err(UnknownControllerKind(ref.kind))
        case Some(k) =>
          match Read(api, k, obj.namespace, ref.name)
          case Err(e) => Err(e)
          case Ok(owner) =>
            if fuel == 0 then Err(RecursionLimit)
            else
              match OwnerRecursive(api, owner, fuel - 1)
              case Err(e) => Err(e)
              case Ok(None) => Ok(Some(owner))
              case Ok(Some(s)) => Ok(Some(s))
  }

  /** The controller owner `obj` points to, read through the API, when the read succeeds. */
  function ControllerOwner(api: Api, obj: Meta): Option<Meta>
  {
    match FirstController(obj.ownerRefs)
    case None => None
    case Some(ref) =>
      match KindToRead(ref.kind)
      case None => None
      case Some(k) =>
        match Read(api, k, obj.namespace, ref.name)
        case Err(_) => None
        case Ok(owner) => Some(owner)
  }

  /** `path` climbs from its first object to its last through controller owners. */
  ghost predicate OwnerChain(api: Api, path: seq<Meta>)
  {
    |path| >= 1 && forall i :: 0 <= i < |path| - 1 ==> ControllerOwner(api, path[i]) == Some(path[i + 1])
  }

  /** Objects without a controller reference have no owner; non-controller references are skipped. */
  lemma OwnerRecursiveNone(api: Api, obj: Meta, fuel: nat)
    requires forall i :: 0 <= i < |obj.ownerRefs| ==> !obj.ownerRefs[i].controller
    ensures OwnerRecursive(api, obj, fuel) == Ok(None)
  {
  }

  /** An object the walk finds no owner for has no controller reference it could follow. */
  lemma OwnerRecursiveEmpty(api: Api, obj: Meta, fuel: nat)
    requires OwnerRecursive(api, obj, fuel) == Ok(None)
    ensures FirstController(obj.ownerRefs).None?
  {
  }

  /** A walk that finds `top` went up to the controller owner and found `top` above it, or stopped there. */
  lemma OwnerRecursiveStep(api: Api, obj: Meta, fuel: nat, top: Meta)
    requires OwnerRecursive(api, obj, fuel) == Ok(Some(top))
    ensures fuel > 0 && ControllerOwner(api, obj).Some?
    ensures var owner := ControllerOwner(api, obj).value;
      || (OwnerRecursive(api, owner, fuel - 1) == Ok(None) && top == owner)
      || OwnerRecursive(api, owner, fuel - 1) == Ok(Some(top))
  {
    assert |obj.ownerRefs| > 0;
  }

  /**
   * The owner found is the top of a chain of controller owners starting at `obj`: it has no
   * controller reference of its own.
   */
  lemma OwnerRecursiveTop(api: Api, obj: Meta, fuel: nat, top: Meta)
    requires OwnerRecursive(api, obj, fuel) == Ok(Some(top))
    ensures FirstController(top.ownerRefs).None?
    ensures exists path :: OwnerChain(api, path) && |path| >= 2 && path[0] == obj && path[|path| - 1] == top
  {
    var path := TopPath(api, obj, fuel, top);
  }

  /** The chain of controller owners the walk climbed, from `obj` up to `top`. */
  lemma {:induction false} TopPath(api: Api, obj: Meta, fuel: nat, top: Meta) returns (path: seq<Meta>)
    requires OwnerRecursive(api, obj, fuel) == Ok(Some(top))
    ensures FirstController(top.ownerRefs).None?
    ensures OwnerChain(api, path) && |path| >= 2 && path[0] == obj && path[|path| - 1] == top
    decreases fuel
  {
    OwnerRecursiveStep(api, obj, fuel, top);
    var owner := ControllerOwner(api, obj).value;
    if OwnerRecursive(api, owner, fuel - 1) == Ok(None) {
      OwnerRecursiveEmpty(api, owner, fuel - 1);
      path := [obj, owner];
      assert OwnerChain(api, path);
    } else {
      var rest := TopPath(api, owner, fuel - 1, top);
      ChainCons(api, obj, rest);
      path := [obj] + rest;
      assert path[|path| - 1] == rest[|rest| - 1];
    }
  }

  /** A chain extends downwards by an object whose controller owner is the chain's first. */
  lemma ChainCons(api: Api, obj: Meta, path: seq<Meta>)
    requires OwnerChain(api, path) && ControllerOwner(api, obj) == Some(path[0])
    ensures OwnerChain(api, [obj] + path)
  {
    var full := [obj] + path;
    forall i | 0 <= i < |full| - 1 ensures ControllerOwner(api, full[i]) == Some(full[i + 1]) {
      if i > 0 {
        assert full[i] == path[i - 1] && full[i + 1] == path[i];
      }
    }
  }

  /** The topmost owner of an object is the topmost owner of its controller owner, when that has one. */
  lemma OwnerRecursiveClimbs(api: Api, obj: Meta, owner: Meta, fuel: nat)
    requires ControllerOwner(api, obj) == Some(owner)
    requires OwnerRecursive(api, owner, fuel).Ok?
    ensures OwnerRecursive(api, obj, fuel + 1) ==
      Ok(if OwnerRecursive(api, owner, fuel).value.Some? then OwnerRecursive(api, owner, fuel).value else Some(owner))
  {
    assert |obj.ownerRefs| > 0;
  }

  // ---------------------------------------------------------------- get_workload_from_pod

  datatype WorkloadKey = WorkloadKey(kind: WorkloadKind, namespace: string, name: string)

  /**
   * `get_workload_from_pod` up to the database: the key of the workload row to get or create,
   * none when the pod has no owner, or why the lookup failed.
   */
  function WorkloadOf(api: Api, pod: PodObj, fuel: nat): Result<Option<WorkloadKey>, LookupError>
  {
    match OwnerRecursive(api, pod.meta, fuel)
    case Err(e) => Err(e)
    case Ok(None) => Ok(None)
    case Ok(Some(owner)) =>
      match KindFromName(owner.kind)
      case None => Err(UnknownWorkloadKind(owner.kind))
      case Some(k) => Ok(Some(WorkloadKey(k, pod.meta.namespace, owner.name)))
  }

  /** The index of `key` in the Workload table. */
  function IndexOf(workloads: seq<WorkloadKey>, key: WorkloadKey): (r: Option<nat>)
    ensures r.Some? ==> r.value < |workloads| && workloads[r.value] == key
    ensures r.None? <==> key !in workloads
  {
    if workloads == [] then None
    else
      var n := |workloads| - 1;
      assert workloads == workloads[..n] + [workloads[n]];
      if workloads[n] == key then Some(n) else IndexOf(workloads[..n], key)
  }

  /** In a table of unique keys, the index of a row's key is that row. */
  lemma IndexOfUnique(workloads: seq<WorkloadKey>, id: nat)
    requires NoDups(workloads) && id < |workloads|
    ensures IndexOf(workloads, workloads[id]) == Some(id)
  {
    var r := IndexOf(workloads, workloads[id]);
    assert r.Some? && workloads[r.value] == workloads[id];
  }

  // ---------------------------------------------------------------- the Pod table

  /** A Pod row. */
  datatype PodRow = PodRow(namespace: string, name: string, specHash: string, startedAt: int, workload: Option<nat>, goneAt: Option<int>)

  /** What `handle_update` puts in the defaults for the workload: nothing, or a workload (possibly none). */
  datatype WorkloadChoice = Keep | SetTo(workload: Option<nat>)

  /**
   * `Pod.objects.update_or_create(uid=..., defaults=data)`: the defaults overwrite the row's
   * fields they name and leave the others; a new row gets no workload unless one is given and
   * is not gone.
   */
  function Upsert(pods: map<string, PodRow>, pod: PodObj, start: int, choice: WorkloadChoice): (r: map<string, PodRow>)
    ensures r.Keys == pods.Keys + {pod.uid}
    ensures forall u :: u in pods && u != pod.uid ==> r[u] == pods[u]
    ensures r[pod.uid].namespace == pod.meta.namespace && r[pod.uid].name == pod.meta.name
    ensures r[pod.uid].startedAt == start
    ensures r[pod.uid].workload ==
      if choice.SetTo? then choice.workload else if pod.uid in pods then pods[pod.uid].workload else None
    ensures r[pod.uid].goneAt == if pod.uid in pods then pods[pod.uid].goneAt else None
  {
    var old_ := if pod.uid in pods then pods[pod.uid] else PodRow("", "", "", start, None, None);
    var workload := if choice.SetTo? then choice.workload else old_.workload;
    pods[pod.uid := PodRow(pod.meta.namespace, pod.meta.name, "?", start, workload, old_.goneAt)]
  }

  /** The Workload table after the lookup: the found workload's row is created when missing. */
  function WithWorkload(workloads: seq<WorkloadKey>, lookup: Result<Option<WorkloadKey>, LookupError>): seq<WorkloadKey>
  {
    if lookup.Ok? && lookup.value.Some? && lookup.value.value !in workloads then workloads + [lookup.value.value]
    else workloads
  }

  /** The workload `handle_update` puts in the defaults: the found row, none, or nothing when the lookup failed. */
  function ChoiceFor(lookup: Result<Option<WorkloadKey>, LookupError>, workloads: seq<WorkloadKey>): WorkloadChoice
  {
    if lookup.Err? then Keep
    else if lookup.value.None? then SetTo(None)
    else SetTo(IndexOf(workloads, lookup.value.value))
  }

  /**
   * After `handle_update` of a started pod, its row carries the workload found for it, or none
   * when it has no owner; when the lookup failed the row keeps the workload it had (none for a
   * new row). Every other pod row is unchanged.
   */
  lemma HandleUpdateWorkload(pods: map<string, PodRow>, workloads: seq<WorkloadKey>, api: Api, pod: PodObj, start: int, fuel: nat)
    ensures var lookup := WorkloadOf(api, pod, fuel);
      var ws := WithWorkload(workloads, lookup);
      var r := Upsert(pods, pod, start, ChoiceFor(lookup, ws));
      && (forall u :: u in pods && u != pod.uid ==> r[u] == pods[u])
      && (lookup.Ok? && lookup.value.Some? ==>
            r[pod.uid].workload.Some? && ws[r[pod.uid].workload.value] == lookup.value.value)
      && (lookup.Ok? && lookup.value.None? ==> r[pod.uid].workload.None?)
      && (lookup.Err? ==> r[pod.uid].workload == if pod.uid in pods then pods[pod.uid].workload else None)
  {
    var lookup := WorkloadOf(api, pod, fuel);
    if lookup.Ok? && lookup.value.Some? {
      assert lookup.value.value in WithWorkload(workloads, lookup);
    }
  }

  /** The Workload and Pod tables, as values. */
  datatype Tables = Tables(workloads: seq<WorkloadKey>, pods: map<string, PodRow>)

  /**
   * The tables after `handle_update(pod)`: nothing for a pod that has not started; otherwise
   * the owner's Workload row is created when missing and the pod's row is upserted with the
   * workload choice of the lookup.
   */
  function UpdateTables(tb: Tables, api: Api, pod: PodObj, fuel: nat): Tables
  {
    if pod.startTime.None? then tb
    else
      var lookup := WorkloadOf(api, pod, fuel);
      var ws := WithWorkload(tb.workloads, lookup);
      Tables(ws, Upsert(tb.pods, pod, pod.startTime.value, ChoiceFor(lookup, ws)))
  }

  /** The tables after `handle_delete(pod)`: a stored pod is marked gone at `now`. */
  function DeleteTables(tb: Tables, uid: string, now: int): Tables
  {
    Tables(tb.workloads, if uid in tb.pods then tb.pods[uid := tb.pods[uid].(goneAt := Some(now))] else tb.pods)
  }

  /** The tables after one event of `main`. */
  function DispatchTables(tb: Tables, api: Api, t: KubeWatchSpec.EventType, pod: PodObj, now: int, fuel: nat): Tables
  {
    if t == KubeWatchSpec.ADDED || t == KubeWatchSpec.MODIFIED then UpdateTables(tb, api, pod, fuel)
    else if t == KubeWatchSpec.DELETED then DeleteTables(tb, pod.uid, now)
    else tb
  }

  /** The tables after `main` handled `events` in order, each with the time it is handled. */
  function RunTables(tb: Tables, api: Api, events: seq<(KubeWatchSpec.EventType, PodObj, int)>, fuel: nat): Tables
  {
    if events == [] then tb
    else
      var n := |events| - 1;
      DispatchTables(RunTables(tb, api, events[..n], fuel), api, events[n].0, events[n].1, events[n].2, fuel)
  }

  /** Handling one more event after a prefix of the run. */
  lemma RunTablesNext(tb: Tables, api: Api, events: seq<(KubeWatchSpec.EventType, PodObj, int)>, i: nat, fuel: nat)
    requires i < |events|
    ensures RunTables(tb, api, events[..i + 1], fuel) ==
      DispatchTables(RunTables(tb, api, events[..i], fuel), api, events[i].0, events[i].1, events[i].2, fuel)
    ensures StartedUids(events[..i + 1]) ==
      StartedUids(events[..i]) + (if Started(events[i].0, events[i].1) then {events[i].1.uid} else {})
  {
    assert events[..i + 1][..i] == events[..i];
  }

  /**
   * Over a run of events, pod rows are never removed: the pods stored afterwards are those
   * stored before and the started pods that were added or modified. Workload rows are only
   * ever appended.
   */
  lemma {:induction false} RunTablesGrow(tb: Tables, api: Api, events: seq<(KubeWatchSpec.EventType, PodObj, int)>, fuel: nat)
    ensures RunTables(tb, api, events, fuel).pods.Keys == tb.pods.Keys + StartedUids(events)
    ensures tb.workloads <= RunTables(tb, api, events, fuel).workloads
  {
    if events != [] {
      var n := |events| - 1;
      RunTablesGrow(tb, api, events[..n], fuel);
    }
  }

  /** The pod collector's view of the database: the Workload and Pod tables. */
  class PodCollector {
    var workloads: seq<WorkloadKey>
    var pods: map<string, PodRow>

    /** Workload rows are unique by key, and every pod's workload is a row of the table. */
    ghost predicate Valid()
      reads this
    {
      && NoDups(workloads)
      && forall u :: u in pods && pods[u].workload.Some? ==> pods[u].workload.value < |workloads|
    }

    constructor()
      ensures Valid() && workloads == [] && pods == map[]
    {
      workloads := [];
      pods := map[];
    }

    /** `Workload.objects.get_or_create`: the row with that key, created when there is none. */
    method GetOrCreate(key: WorkloadKey) returns (id: nat)
      requires NoDups(workloads)
      modifies this`workloads
      ensures NoDups(workloads)
      ensures id < |workloads| && workloads[id] == key
      ensures workloads == old(workloads) + (if key in old(workloads) then [] else [key])
    {
      var found := IndexOf(workloads, key);
      if found.Some? {
        id := found.value;
      } else {
        NoDupsSnoc(workloads, key);
        workloads := workloads + [key];
        id := |workloads| - 1;
      }
    }

    /** `handle_update`. */
    method HandleUpdate(api: Api, pod: PodObj, fuel: nat)
      requires Valid()
      modifies this
      ensures Valid()
      ensures pod.startTime.None? ==> workloads == old(workloads) && pods == old(pods)
      ensures pod.startTime.Some? ==>
        && workloads == WithWorkload(old(workloads), WorkloadOf(api, pod, fuel))
        && pods == Upsert(old(pods), pod, pod.startTime.value, ChoiceFor(WorkloadOf(api, pod, fuel), workloads))
    {
      if pod.startTime.None? {
        return;
      }
      var choice := Keep;
      var lookup := WorkloadOf(api, pod, fuel);
      if lookup.Ok? {
        if lookup.value.Some? {
          var id := GetOrCreate(lookup.value.value);
          IndexOfUnique(workloads, id);
          choice := SetTo(Some(id));
        } else {
          choice := SetTo(None);
        }
      }
      pods := Upsert(pods, pod, pod.startTime.value, choice);
    }

    /** `handle_delete`: the pod with that uid, if stored, is marked gone at `now`. */
    method HandleDelete(uid: string, now: int)
      requires Valid()
      modifies this`pods
      ensures Valid()
      ensures pods == if uid in old(pods) then old(pods)[uid := old(pods)[uid].(goneAt := Some(now))] else old(pods)
    {
      if uid in pods {
        pods := pods[uid := pods[uid].(goneAt := Some(now))];
      }
    }

    /** One step of `main`: ADDED and MODIFIED update, DELETED deletes, anything else is ignored. */
    method Dispatch(api: Api, t: KubeWatchSpec.EventType, pod: PodObj, now: int, fuel: nat)
      requires Valid()
      modifies this
      ensures Valid()
      ensures t == KubeWatchSpec.ADDED || t == KubeWatchSpec.MODIFIED ==>
        Tables(workloads, pods) == UpdateTables(Tables(old(workloads), old(pods)), api, pod, fuel)
      ensures t == KubeWatchSpec.DELETED ==>
        && workloads == old(workloads)
        && pods == if pod.uid in old(pods) then old(pods)[pod.uid := old(pods)[pod.uid].(goneAt := Some(now))] else old(pods)
      ensures t != KubeWatchSpec.ADDED && t != KubeWatchSpec.MODIFIED && t != KubeWatchSpec.DELETED ==>
        workloads == old(workloads) && pods == old(pods)
      ensures Tables(workloads, pods) == DispatchTables(Tables(old(workloads), old(pods)), api, t, pod, now, fuel)
      ensures pods.Keys == old(pods.Keys) + (if Started(t, pod) then {pod.uid} else {})
      ensures old(workloads) <= workloads
    {
      if t == KubeWatchSpec.ADDED || t == KubeWatchSpec.MODIFIED {
        HandleUpdate(api, pod, fuel);
      } else if t == KubeWatchSpec.DELETED {
        HandleDelete(pod.uid, now);
      }
    }

    /**
     * `main` over a finite run of events, each with the time it is handled: the tables are
     * those of handling the events one after the other; pods are never removed, a pod row
     * exists afterwards exactly for the stored pods and the started pods that were added or
     * modified, and the Workload table only grows.
     */
    method Run(api: Api, events: seq<(KubeWatchSpec.EventType, PodObj, int)>, fuel: nat)
      requires Valid()
      modifies this
      ensures Valid()
      ensures Tables(workloads, pods) == RunTables(Tables(old(workloads), old(pods)), api, events, fuel)
      ensures pods.Keys == old(pods.Keys) + StartedUids(events)
      ensures old(workloads) <= workloads
    {
      var i := 0;
      ghost var start := Tables(workloads, pods);
      while i < |events|
        invariant 0 <= i <= |events| && Valid()
        invariant Tables(workloads, pods) == RunTables(start, api, events[..i], fuel)
        invariant pods.Keys == old(pods.Keys) + StartedUids(events[..i])
        invariant old(workloads) <= workloads
      {
        var (t, pod, now) := events[i];
        Dispatch(api, t, pod, now, fuel);
        RunTablesNext(start, api, events, i, fuel);
        i := i + 1;
      }
      assert events[..i] == events;
    }
  }

  /** An event that makes `handle_update` store its pod. */
  predicate Started(t: KubeWatchSpec.EventType, pod: PodObj)
  {
    (t == KubeWatchSpec.ADDED || t == KubeWatchSpec.MODIFIED) && pod.startTime.Some?
  }

  /** The uids of the started pods that were added or modified. */
  function StartedUids(events: seq<(KubeWatchSpec.EventType, PodObj, int)>): set<string>
  {
    if events == [] then {}
    else
      var n := |events| - 1;
      StartedUids(events[..n]) + (if Started(events[n].0, events[n].1) then {events[n].1.uid} else {})
  }
}

=== FILE: rounding.dfy ===
/**
 * Python's rounding operations on exact reals: `math.floor`, `math.ceil`, `int()` (truncation
 * toward zero) and `round()` (half to even). Floating-point representation is not modelled.
 */
module Rounding {

  function Floor(x: real): (r: int)
    ensures r as real <= x < r as real + 1.0
  {
    x.Floor
  }

  /** `math.ceil(x)`. */
  function Ceil(x: real): (r: int)
    ensures x <= r as real < x + 1.0
  {
    if x.Floor as real == x then x.Floor else x.Floor + 1
  }

  /** `int(x)`: truncation toward zero. */
  function Trunc(x: real): (r: int)
    ensures 0.0 <= x ==> r == Floor(x)
    ensures x < 0.0 ==> r == -Floor(-x)
    ensures (if x < 0.0 then -x else x) - 1.0 < (if r < 0 then -r else r) as real <= (if x < 0.0 then -x else x)
  {
    if x >= 0.0 then x.Floor else -((-x).Floor)
  }

  /** `round(x)`: the nearest integer, a tie going to the even neighbour. */
  function RoundHalfEven(x: real): (r: int)
    ensures x - 0.5 <= r as real <= x + 0.5
    ensures r as real - x == 0.5 || x - r as real == 0.5 ==> r % 2 == 0
  {
    var f := x.Floor;
    var d := x - f as real;
    if d < 0.5 then f
    else if d > 0.5 then f + 1
    else if f % 2 == 0 then f
    else f + 1
  }

  /** Rounding is monotone, so rounding keeps an order between bounds. */
  lemma {:induction false} RoundMonotone(x: real, y: real)
    requires x <= y
    ensures RoundHalfEven(x) <= RoundHalfEven(y)
  {
  }

  /** An integer rounds to itself, and so do the ceiling and the floor. */
  lemma RoundIntegral(n: int)
    ensures RoundHalfEven(n as real) == n && Ceil(n as real) == n && Floor(n as real) == n
  {
  }

  /** A value between two integers rounds to a value between them. */
  lemma RoundWithin(x: real, lo: int, hi: int)
    requires lo as real <= x <= hi as real
    ensures lo <= RoundHalfEven(x) <= hi
  {
    RoundMonotone(lo as real, x);
    RoundMonotone(x, hi as real);
    RoundIntegral(lo);
    RoundIntegral(hi);
  }

  // ---------------------------------------------------------------- scaled quantities

  /** An integer quantity `k` scaled by `x`: held for `x` seconds, or multiplied by a setting. */
  function Scaled(k: int, x: real): real
  {
    k as real * x
  }

  lemma ScaledMonotone(k1: int, k2: int, x: real)
    requires k1 <= k2 && 0.0 <= x
    ensures Scaled(k1, x) <= Scaled(k2, x)
  {
    assert (k2 - k1) as real * x >= 0.0;
  }

  /** Scaling a non-negative quantity by a factor of at most 1 does not increase it. */
  lemma ScaledBelow(k: int, f: real)
    requires 0 <= k && f <= 1.0
    ensures Scaled(k, f) <= k as real
  {
    assert k as real * (1.0 - f) >= 0.0;
  }

  /** Scaling a non-negative quantity by a factor of at least 1 does not decrease it. */
  lemma ScaledAbove(k: int, f: real)
    requires 0 <= k && 1.0 <= f
    ensures k as real <= Scaled(k, f)
  {
    assert k as real * (f - 1.0) >= 0.0;
  }

  lemma ScaledAdd(k: int, x: real, y: real)
    ensures Scaled(k, x) + Scaled(k, y) == Scaled(k, x + y)
  {
  }

  /** A total of at most `m` held over a positive span averages to at most `m`. */
  lemma AverageBound(total: real, m: int, span: real)
    requires 0.0 <= total <= Scaled(m, span) && span > 0.0
    ensures 0.0 <= total / span <= m as real
  {
    var q := total / span;
    assert q * span == total;
    assert (m as real - q) * span >= 0.0;
  }
}

=== FILE: suggestion_policy.dfy ===
/**
 * The per-summary suggestion of kra/tasks/make_suggestion.py: a new memory limit from the
 * peak usage and the OOM kills of the container, a new CPU request from the average usage,
 * each only when the current value lies outside a band around the target, and a priority
 * that adds up how far off the current values are.
 *
 * The tunables (`MEM_TARGET_REQUEST`, `MEM_BOUNDS`, ...) come from the Django settings and are
 * a parameter here. The free-text reasons are datatypes holding the numbers the text shows;
 * the empty string is `NoMemoryReason` / `NoCpuReason`.
 */
module SuggestionPolicy {
  import opened Common
  import opened Rounding
  import opened Summaries

  /** The settings the suggestion rules read. */
  datatype Settings = Settings(
    memTargetRequest: real,
    oomPriority: int,
    memMin: int,
    memLowerFactor: real,
    memUpperFactor: real,
    cpuTargetRequest: real,
    cpuLowerFactor: real,
    cpuUpperFactor: real)

  /**
   * Settings under which the rules make sense: the band contains the target, the minimum and
   * the OOM bonus are not negative.
   */
  predicate Sensible(st: Settings)
  {
    0 <= st.memMin && 0 <= st.oomPriority && 0.0 < st.memTargetRequest
    && 0.0 <= st.memLowerFactor <= 1.0 <= st.memUpperFactor
    && 0.0 < st.cpuTargetRequest
    && 0.0 <= st.cpuLowerFactor <= 1.0 <= st.cpuUpperFactor
  }

  /** An OOMEvent with the fields the rules read: its container's workload, name and memory limit. */
  datatype OomEvent = OomEvent(workload: nat, containerName: string, happenedAt: int, containerLimitMi: Option<nat>)

  /** `if oom.container.memory_limit_mi:` — a limit is set and is not zero. */
  predicate HasLimit(e: OomEvent)
  {
    e.containerLimitMi.Some? && e.containerLimitMi.value != 0
  }

  datatype MemoryReason =
    | NoMemoryReason
    | OomKilled(happenedAt: int, limitMi: nat)
    | LimitBelowLower(limitMi: nat, lowerBound: int)
    | LimitAboveUpper(limitMi: nat, upperBound: int)

  datatype CpuReason =
    | NoCpuReason
    | RequestBelowLower(requestM: nat, lowerBound: int)
    | RequestAboveUpper(requestM: nat, upperBound: int)

  /** A memory target: the value scaled by `MEM_TARGET_REQUEST`, rounded up. */
  function MemTarget(st: Settings, mi: int): int
  {
    Ceil(Scaled(mi, st.memTargetRequest))
  }

  // ---------------------------------------------------------------- _suggest_memory

  /** The loop over the OOM events: the target so far, the priority and the reason. */
  datatype OomScan = OomScan(target: int, priority: int, reason: MemoryReason)

  /**
   * The loop at make_suggestion.py:55-61, from the usage target `start`: an event whose
   * container had a limit raises the target to that limit's target when it is higher, and
   * then sets the OOM priority and reason.
   */
  function ScanOoms(st: Settings, start: int, events: seq<OomEvent>): OomScan
  {
    if events == [] then OomScan(start, 0, NoMemoryReason)
    else
      var n := |events| - 1;
      var p := ScanOoms(st, start, events[..n]);
      var e := events[n];
      if HasLimit(e) && MemTarget(st, e.containerLimitMi.value) > p.target
      then OomScan(MemTarget(st, e.containerLimitMi.value), st.oomPriority, OomKilled(e.happenedAt, e.containerLimitMi.value))
      else p
  }

  /**
   * The scan ends on the largest of `start` and the targets of the limits of the killed
   * containers; it leaves priority 0 and no reason when no kill raised the target, and
   * otherwise the OOM priority and the reason of a kill whose limit gives that target.
   */
  lemma {:induction false} ScanOomsSpec(st: Settings, start: int, events: seq<OomEvent>)
    ensures var r := ScanOoms(st, start, events);
      && start <= r.target
      && (forall i :: 0 <= i < |events| && HasLimit(events[i]) ==> MemTarget(st, events[i].containerLimitMi.value) <= r.target)
      && (r.target == start ==> r.priority == 0 && r.reason == NoMemoryReason)
      && (r.target != start ==>
            && r.priority == st.oomPriority
            && exists i :: 0 <= i < |events| && HasLimit(events[i])
                 && r.target == MemTarget(st, events[i].containerLimitMi.value)
                 && r.reason == OomKilled(events[i].happenedAt, events[i].containerLimitMi.value))
  {
    if events != [] {
      var n := |events| - 1;
      ScanOomsSpec(st, start, events[..n]);
      var p := ScanOoms(st, start, events[..n]);
      var r := ScanOoms(st, start, events);
      forall i | 0 <= i < |events| && HasLimit(events[i])
        ensures MemTarget(st, events[i].containerLimitMi.value) <= r.target
      {
        if i < n {
          assert events[..n][i] == events[i];
        }
      }
      if r != p {
        assert r.target == MemTarget(st, events[n].containerLimitMi.value);
      } else if r.target != start {
        var i :| 0 <= i < n && HasLimit(events[..n][i])
          && p.target == MemTarget(st, events[..n][i].containerLimitMi.value)
          && p.reason == OomKilled(events[..n][i].happenedAt, events[..n][i].containerLimitMi.value);
        assert events[..n][i] == events[i];
      }
    }
  }

  /** What `_suggest_memory` returns: the new limit (None for none), the priority and the reason. */
  datatype MemorySuggestion = MemorySuggestion(newLimitMi: Option<int>, priority: int, reason: MemoryReason)

  /** The final target: the OOM-raised usage target, at least `MEM_MIN`. */
  function MemoryTarget(st: Settings, stat: Summary, events: seq<OomEvent>): int
  {
    Max(ScanOoms(st, MemTarget(st, stat.maxMemoryMi), events).target, st.memMin)
  }

  function MemoryLower(st: Settings, t: int): int
  {
    Max(Ceil(Scaled(t, st.memLowerFactor)), st.memMin)
  }

  function MemoryUpper(st: Settings, t: int): int
  {
    Ceil(Scaled(t, st.memUpperFactor))
  }

  function Max(a: int, b: int): int
  {
    if a < b then b else a
  }

  /** `_suggest_memory(stat, oom_events)`. */
  function SuggestMemory(st: Settings, stat: Summary, events: seq<OomEvent>): MemorySuggestion
  {
    var scan := ScanOoms(st, MemTarget(st, stat.maxMemoryMi), events);
    var t := MemoryTarget(st, stat, events);
    var lower := MemoryLower(st, t);
    var upper := MemoryUpper(st, t);
    match stat.memoryLimitMi
    case Some(l) =>
      if l < lower then
        MemorySuggestion(Some(t), scan.priority + (t - l), if scan.reason == NoMemoryReason then LimitBelowLower(l, lower) else scan.reason)
      else if l > upper then
        MemorySuggestion(Some(t), scan.priority + (l - t), LimitAboveUpper(l, upper))
      else
        MemorySuggestion(None, 0, NoMemoryReason)
    case None =>
      MemorySuggestion(Some(t), t + if events != [] then st.oomPriority else 0, scan.reason)
  }

  /**
   * The memory rule: the target is at least `MEM_MIN`, the peak usage target and the target of
   * every killed container's limit, and so is the lower bound's floor `MEM_MIN`; a new limit is
   * suggested exactly when there is no limit or the limit is outside [lower, upper], and it is
   * then the target; no suggestion means priority 0 and no reason.
   */
  lemma SuggestMemoryMeaning(st: Settings, stat: Summary, events: seq<OomEvent>)
    ensures var t := MemoryTarget(st, stat, events);
      var r := SuggestMemory(st, stat, events);
      && st.memMin <= t && st.memMin <= MemoryLower(st, t)
      && MemTarget(st, stat.maxMemoryMi) <= t
      && (forall i :: 0 <= i < |events| && HasLimit(events[i]) ==> MemTarget(st, events[i].containerLimitMi.value) <= t)
      && (r.newLimitMi.Some? <==>
            stat.memoryLimitMi.None? || stat.memoryLimitMi.value < MemoryLower(st, t) || stat.memoryLimitMi.value > MemoryUpper(st, t))
      && (r.newLimitMi.Some? ==> r.newLimitMi.value == t)
      && (r.newLimitMi.None? ==> r.priority == 0 && r.reason == NoMemoryReason)
  {
    ScanOomsSpec(st, MemTarget(st, stat.maxMemoryMi), events);
  }

  /**
   * The priority of a memory suggestion: the distance from the current limit to the target,
   * plus `OOM_PRIORITY` when a kill raised the target; with no limit, the target, plus
   * `OOM_PRIORITY` when there was any kill at all.
   */
  lemma SuggestMemoryPriority(st: Settings, stat: Summary, events: seq<OomEvent>)
    requires Sensible(st)
    ensures var t := MemoryTarget(st, stat, events);
      var r := SuggestMemory(st, stat, events);
      var bonus := ScanOoms(st, MemTarget(st, stat.maxMemoryMi), events).priority;
      && (bonus == 0 || bonus == st.oomPriority)
      && (stat.memoryLimitMi.None? ==> r.priority == t + if events != [] then st.oomPriority else 0)
      && (stat.memoryLimitMi.Some? && r.newLimitMi.Some? ==>
            r.priority == bonus + (if stat.memoryLimitMi.value < t then t - stat.memoryLimitMi.value else stat.memoryLimitMi.value - t))
  {
    ScanOomsSpec(st, MemTarget(st, stat.maxMemoryMi), events);
    var t := MemoryTarget(st, stat, events);
    if stat.memoryLimitMi.Some? && SuggestMemory(st, stat, events).newLimitMi.Some? {
      MemoryBand(st, t);
    }
  }

  /** Under sensible settings the band around a target contains it. */
  lemma MemoryBand(st: Settings, t: int)
    requires Sensible(st) && st.memMin <= t
    ensures MemoryLower(st, t) <= t <= MemoryUpper(st, t)
  {
    ScaledBelow(t, st.memLowerFactor);
    ScaledAbove(t, st.memUpperFactor);
    CeilBand(t, Scaled(t, st.memLowerFactor), Scaled(t, st.memUpperFactor));
  }

  lemma CeilBand(t: int, lo: real, up: real)
    requires lo <= t as real <= up
    ensures Ceil(lo) <= t <= Ceil(up)
  {
  }

  lemma RoundBand(t: int, lo: real, up: real)
    requires lo <= t as real <= up
    ensures RoundHalfEven(lo) <= t <= RoundHalfEven(up)
  {
    RoundMonotone(lo, t as real);
    RoundMonotone(t as real, up);
    RoundIntegral(t);
  }

  /**
   * Under sensible settings a suggested memory change always has a positive priority, and
   * the reason says why: a kill, or the limit against the bound it crossed.
   */
  lemma SuggestMemoryPositive(st: Settings, stat: Summary, events: seq<OomEvent>)
    requires Sensible(st)
    ensures var r := SuggestMemory(st, stat, events);
      && (r.newLimitMi.Some? && stat.memoryLimitMi.Some? ==> 0 < r.priority)
      && (stat.memoryLimitMi.None? ==> 0 <= r.priority)
    ensures var r := SuggestMemory(st, stat, events);
      var t := MemoryTarget(st, stat, events);
      stat.memoryLimitMi.Some? && r.newLimitMi.Some? ==>
        match r.reason
        case OomKilled(_, _) => true
        case LimitBelowLower(l, lower) => l == stat.memoryLimitMi.value && l < lower == MemoryLower(st, t)
        case LimitAboveUpper(l, upper) => l == stat.memoryLimitMi.value && l > upper == MemoryUpper(st, t)
        case NoMemoryReason => false
  {
    var start := MemTarget(st, stat.maxMemoryMi);
    ScanOomsSpec(st, start, events);
    var t := MemoryTarget(st, stat, events);
    MemoryBand(st, t);
  }

  // ---------------------------------------------------------------- _suggest_cpu

  /** What `_suggest_cpu` returns. */
  datatype CpuSuggestion = CpuSuggestion(newRequestM: Option<int>, priority: int, reason: CpuReason)

  /** The CPU target: the average usage scaled by `CPU_TARGET_REQUEST`, rounded half to even. */
  function CpuTarget(st: Settings, stat: Summary): int
  {
    RoundHalfEven(Scaled(stat.avgCpuM, st.cpuTargetRequest))
  }

  function CpuLower(st: Settings, t: int): int
  {
    RoundHalfEven(Scaled(t, st.cpuLowerFactor))
  }

  function CpuUpper(st: Settings, t: int): int
  {
    RoundHalfEven(Scaled(t, st.cpuUpperFactor))
  }

  /**
   * `_suggest_cpu(stat)` with the upper-bound reason naming the upper bound. The code names
   * the lower bound there; `SuggestCpuAsWritten` keeps that.
   */
  function SuggestCpu(st: Settings, stat: Summary): CpuSuggestion
  {
    var t := CpuTarget(st, stat);
    var lower := CpuLower(st, t);
    var upper := CpuUpper(st, t);
    match stat.cpuRequestM
    case Some(req) =>
      if req < lower then CpuSuggestion(Some(t), t - req, RequestBelowLower(req, lower))
      else if req > upper then CpuSuggestion(Some(t), req - t, RequestAboveUpper(req, upper))
      else CpuSuggestion(None, 0, NoCpuReason)
    case None => CpuSuggestion(Some(t), t, NoCpuReason)
  }

  /**
   * The CPU rule: a new request is suggested exactly when there is none or it lies outside
   * [lower, upper]; it is then the target, the priority is the distance to the target (the
   * target itself with no request), and the reason states the request against the bound it
   * crossed.
   */
  lemma SuggestCpuMeaning(st: Settings, stat: Summary)
    ensures var t := CpuTarget(st, stat);
      var lower, upper := CpuLower(st, t), CpuUpper(st, t);
      var r := SuggestCpu(st, stat);
      && (r.newRequestM.Some? <==> stat.cpuRequestM.None? || stat.cpuRequestM.value < lower || stat.cpuRequestM.value > upper)
      && (r.newRequestM.Some? ==> r.newRequestM.value == t)
      && (r.newRequestM.None? ==> r.priority == 0 && r.reason == NoCpuReason)
      && (stat.cpuRequestM.None? ==> r.priority == t)
      && (match r.reason
          case NoCpuReason => true
          case RequestBelowLower(req, b) => stat.cpuRequestM == Some(req) && req < b == lower
          case RequestAboveUpper(req, b) => stat.cpuRequestM == Some(req) && req > b == upper)
  {
  }

  /** Under sensible settings and a non-negative average, a suggested request change has a positive priority unless the target is 0. */
  lemma SuggestCpuPositive(st: Settings, stat: Summary)
    requires Sensible(st) && 0 <= stat.avgCpuM
    ensures var r := SuggestCpu(st, stat);
      && (r.newRequestM.Some? && stat.cpuRequestM.Some? ==> 0 < r.priority)
      && (stat.cpuRequestM.None? ==> 0 <= r.priority)
  {
    var t := CpuTarget(st, stat);
    CpuBand(st, stat);
  }

  /** Under sensible settings and a non-negative average the band around the CPU target contains it. */
  lemma CpuBand(st: Settings, stat: Summary)
    requires Sensible(st) && 0 <= stat.avgCpuM
    ensures var t := CpuTarget(st, stat);
      0 <= t && CpuLower(st, t) <= t <= CpuUpper(st, t)
  {
    CpuTargetNonNegative(st, stat);
    var t := CpuTarget(st, stat);
    ScaledBelow(t, st.cpuLowerFactor);
    ScaledAbove(t, st.cpuUpperFactor);
    RoundBand(t, Scaled(t, st.cpuLowerFactor), Scaled(t, st.cpuUpperFactor));
  }

  lemma CpuTargetNonNegative(st: Settings, stat: Summary)
    requires Sensible(st) && 0 <= stat.avgCpuM
    ensures 0 <= CpuTarget(st, stat)
  {
    ScaledMonotone(0, stat.avgCpuM, st.cpuTargetRequest);
    RoundMonotone(0.0, Scaled(stat.avgCpuM, st.cpuTargetRequest));
    RoundIntegral(0);
  }

  /** `_suggest_cpu(stat)` as written: the upper-bound reason shows the lower bound (line 108). */
  function SuggestCpuAsWritten(st: Settings, stat: Summary): CpuSuggestion
  {
    var r := SuggestCpu(st, stat);
    match r.reason
    case RequestAboveUpper(req, _) => r.(reason := RequestAboveUpper(req, CpuLower(st, CpuTarget(st, stat))))
    case _ => r
  }

  /**
   * With an average of 100m, a CPU target factor of 1 and bounds (0.5, 2), a 300m request is
   * above the upper bound 200m, but the reason as written says "> upper bound 50m".
   */
  lemma CpuReasonMislabelled()
    ensures var st := Settings(1.0, 0, 0, 0.5, 2.0, 1.0, 0.5, 2.0);
      var stat := Summary(0, "app", None, Some(300), 0, 0, 0, 100, 0, 0);
      && SuggestCpu(st, stat).reason == RequestAboveUpper(300, 200)
      && SuggestCpuAsWritten(st, stat).reason == RequestAboveUpper(300, 50)
      && SuggestCpuAsWritten(st, stat).newRequestM == SuggestCpu(st, stat).newRequestM
  {
    var st := Settings(1.0, 0, 0, 0.5, 2.0, 1.0, 0.5, 2.0);
    var stat := Summary(0, "app", None, Some(300), 0, 0, 0, 100, 0, 0);
    RoundIntegral(100);
    assert CpuTarget(st, stat) == 100;
    RoundIntegral(50);
    RoundIntegral(200);
    assert 100 as real * 0.5 == 50 as real;
    assert 100 as real * 2.0 == 200 as real;
  }

  // ---------------------------------------------------------------- _make_suggestion

  /** The fields `_make_suggestion` sets on the Suggestion. */
  datatype Suggestion = Suggestion(
    newMemoryLimitMi: Option<int>,
    newCpuRequestM: Option<int>,
    memoryReason: MemoryReason,
    cpuReason: CpuReason,
    priority: int)

  /**
   * The result of `_make_suggestion`: a suggestion to save, or None — in which case the
   * summary's existing suggestion, if there was one, has been deleted.
   */
  datatype Outcome = Save(suggestion: Suggestion) | Drop(deletedExisting: bool)

  /** `_make_suggestion(stat, oom_events)`; `hasExisting` says whether `stat.suggestion` exists. */
  function MakeSuggestion(st: Settings, stat: Summary, events: seq<OomEvent>, hasExisting: bool): Outcome
  {
    var mem := SuggestMemory(st, stat, events);
    var cpu := SuggestCpu(st, stat);
    if mem.newLimitMi.None? && cpu.newRequestM.None? then Drop(hasExisting)
    else Save(Suggestion(mem.newLimitMi, cpu.newRequestM, mem.reason, cpu.reason, mem.priority + cpu.priority))
  }

  /**
   * A suggestion is kept exactly when memory or CPU needs a change; it then carries both
   * rules' values and reasons and the sum of their priorities. Otherwise the old suggestion
   * is deleted when there was one.
   */
  lemma MakeSuggestionMeaning(st: Settings, stat: Summary, events: seq<OomEvent>, hasExisting: bool)
    ensures var mem, cpu := SuggestMemory(st, stat, events), SuggestCpu(st, stat);
      var r := MakeSuggestion(st, stat, events, hasExisting);
      && (r.Save? <==> mem.newLimitMi.Some? || cpu.newRequestM.Some?)
      && (r.Drop? ==> r.deletedExisting == hasExisting)
      && (r.Save? ==>
            && r.suggestion.newMemoryLimitMi == mem.newLimitMi && r.suggestion.newCpuRequestM == cpu.newRequestM
            && r.suggestion.memoryReason == mem.reason && r.suggestion.cpuReason == cpu.reason
            && r.suggestion.priority == mem.priority + cpu.priority)
  {
  }

  /**
   * Under sensible settings with current limits and requests in place, a kept suggestion has a
   * positive priority: each suggested change adds a positive amount, and the other adds 0.
   */
  lemma MakeSuggestionPositive(st: Settings, stat: Summary, events: seq<OomEvent>, hasExisting: bool)
    requires Sensible(st) && 0 <= stat.avgCpuM && stat.memoryLimitMi.Some? && stat.cpuRequestM.Some?
    ensures var r := MakeSuggestion(st, stat, events, hasExisting);
      r.Save? ==> 0 < r.suggestion.priority
  {
    SuggestMemoryPositive(st, stat, events);
    SuggestMemoryMeaning(st, stat, events);
    SuggestCpuPositive(st, stat);
  }

  // ---------------------------------------------------------------- make_suggestion task

  /** The events of a summary's container: `OOMEvent.objects.filter(container__pod__workload_id=..., container__name=...)`. */
  function EventsOf(events: seq<OomEvent>, workload: nat, name: string): (r: seq<OomEvent>)
    ensures forall e :: e in r <==> e in events && e.workload == workload && e.containerName == name
  {
    if events == [] then []
    else
      var n := |events| - 1;
      EventsOf(events[..n], workload, name) + if events[n].workload == workload && events[n].containerName == name then [events[n]] else []
  }

  /** `Summary.objects.get(workload_id=..., container_name=...)`; None where Django raises DoesNotExist. */
  function FindSummary(summaries: seq<Summary>, workload: nat, name: string): (r: Option<Summary>)
    ensures r.Some? ==> r.value in summaries && r.value.workload == workload && r.value.containerName == name
    ensures r.None? ==> forall s :: s in summaries ==> !(s.workload == workload && s.containerName == name)
  {
    if summaries == [] then None
    else if summaries[0].workload == workload && summaries[0].containerName == name then Some(summaries[0])
    else FindSummary(summaries[1..], workload, name)
  }

  /**
   * The stored suggestions, one per summary, keyed by the summary's workload and container
   * name (`Suggestion.summary` is a one-to-one field).
   */
  class SuggestionTable {
    var rows: map<(nat, string), Suggestion>

    constructor ()
      ensures rows == map[]
    {
      rows := map[];
    }

    /**
     * The `make_suggestion(workload_id, container_name)` task: the summary's suggestion is
     * replaced by the new one, or deleted when neither memory nor CPU needs a change; the other
     * summaries' suggestions are untouched, and nothing changes when the summary does not exist.
     */
    method Refresh(st: Settings, summaries: seq<Summary>, events: seq<OomEvent>, workload: nat, name: string)
      returns (found: bool)
      modifies this
      ensures found == FindSummary(summaries, workload, name).Some?
      ensures !found ==> rows == old(rows)
      ensures found ==>
        var key := (workload, name);
        var stat := FindSummary(summaries, workload, name).value;
        match MakeSuggestion(st, stat, EventsOf(events, workload, name), key in old(rows))
        case Save(s) => rows == old(rows)[key := s]
        case Drop(_) => rows == old(rows) - {key}
      ensures forall k :: k != (workload, name) ==> (k in rows <==> k in old(rows)) && (k in rows ==> rows[k] == old(rows)[k])
    {
      var stat := FindSummary(summaries, workload, name);
      if stat.None? {
        return false;
      }
      var key := (workload, name);
      var sug := MakeSuggestion(st, stat.value, EventsOf(events, workload, name), key in rows);
      match sug {
        case Save(s) => rows := rows[key := s];
        case Drop(_) => rows := rows - {key};
      }
      found := true;
    }
  }
}

=== FILE: summaries.dfy ===
/**
 * The summary tasks of kra/tasks/make_summary.py and kra/tasks/make_summaries.py.
 *
 * The per-container statistics of a workload's containers are grouped by container name; the
 * workload's old summaries are deleted and one Summary is made per name. `_fill_summary`
 * folds a name's container statistics into the Summary: maxima from 0, totals as sums,
 * averages rounded half to even, and the memory limit and CPU request of the most recently
 * started container of that name. Each container also gets an InstanceSummary copying its
 * statistics. `make_summaries` does this for every workload, in (namespace, name) order,
 * after deleting every summary.
 *
 * The statistics query is an input (see the ContainerAnalytics module). Objects handed to
 * `bulk_save` are written when its block completes; a block that raises writes nothing.
 */
module Summaries {
  import opened Common
  import opened Rounding
  import opened Models
  import opened Grouping
  import ContainerAnalytics

  /**
   * A row of the statistics query, as the summary tasks read it. The memory total and the
   * averages are NULL (`None`) where the query makes them so: the memory total of a container
   * with a single sample, and the averages over a zero span.
   */
  datatype ContainerSummary = ContainerSummary(
    podId: nat,
    name: string,
    maxMemoryMi: int,
    avgMemoryMi: Option<real>,
    stddevMemoryMi: real,
    maxCpuM: int,
    avgCpuM: Option<real>,
    stddevCpuM: real,
    totalSeconds: real,
    totalCpuMSeconds: real,
    totalMemoryMiSeconds: Option<real>)

  /** A Container row: the workload of its pod, its name, start time and resources. */
  datatype ContainerRow = ContainerRow(workload: Option<nat>, name: string, startedAt: int, memoryLimitMi: Option<nat>, cpuRequestM: Option<nat>)

  /** An InstanceSummary, with the workload and container name of the Summary it belongs to. */
  datatype InstanceSummary = InstanceSummary(
    workload: nat,
    containerName: string,
    maxMemoryMi: int,
    avgMemoryMi: Option<real>,
    stddevMemoryMi: real,
    maxCpuM: int,
    avgCpuM: Option<real>,
    stddevCpuM: real)

  datatype Summary = Summary(
    workload: nat,
    containerName: string,
    memoryLimitMi: Option<nat>,
    cpuRequestM: Option<nat>,
    maxMemoryMi: int,
    maxCpuM: int,
    avgMemoryMi: int,
    avgCpuM: int,
    stddevMemoryMi: int,
    stddevCpuM: int)

  /**
   * Why `_fill_summary` raised: no container of that name in the workload (`last_container`
   * is None), a NULL memory total added to the running total (TypeError), or a zero
   * `total_seconds` (ZeroDivisionError).
   */
  datatype FillError = NoContainer | NullMemoryTotal | ZeroTotalSeconds

  function NameOf(c: ContainerSummary): string
  {
    c.name
  }

  // ---------------------------------------------------------------- _fill_summary

  /** `Container.objects.filter(pod__workload=w, name=name).order_by('-started_at').first()`. */
  function LastStarted(rows: seq<ContainerRow>, w: nat, name: string): Option<ContainerRow>
  {
    if rows == [] then None
    else
      var n := |rows| - 1;
      var prev := LastStarted(rows[..n], w, name);
      if rows[n].workload == Some(w) && rows[n].name == name && (prev.None? || rows[n].startedAt > prev.value.startedAt)
      then Some(rows[n])
      else prev
  }

  /**
   * There is no latest-started container exactly when no container of that workload has that
   * name; otherwise it is one of them, started no earlier than any other.
   */
  lemma {:induction false} LastStartedSpec(rows: seq<ContainerRow>, w: nat, name: string)
    ensures var r := LastStarted(rows, w, name);
      && (r.None? <==> forall i :: 0 <= i < |rows| ==> !(rows[i].workload == Some(w) && rows[i].name == name))
      && (r.Some? ==> (
        && r.value in rows && r.value.workload == Some(w) && r.value.name == name
        && forall i :: 0 <= i < |rows| && rows[i].workload == Some(w) && rows[i].name == name ==>
             rows[i].startedAt <= r.value.startedAt))
  {
    if rows != [] {
      var n := |rows| - 1;
      LastStartedSpec(rows[..n], w, name);
      assert forall i :: 0 <= i < n ==> rows[..n][i] == rows[i];
    }
  }

  /** The values `_fill_summary` accumulates over the containers. */
  datatype Totals = Totals(
    maxMemoryMi: int,
    maxCpuM: int,
    seconds: real,
    cpuMSeconds: real,
    memoryMiSeconds: real,
    stddevCpuMSeconds: real,
    stddevMemoryMiSeconds: real)

  /** No container's memory total is NULL. */
  predicate NullFree(cs: seq<ContainerSummary>)
  {
    forall i :: 0 <= i < |cs| ==> cs[i].totalMemoryMiSeconds.Some?
  }

  /**
   * How many containers the loop gets through before `+=` meets a NULL memory total: the
   * containers before that point have non-NULL totals, and the one at it, if any, has a NULL one.
   */
  function {:induction false} NullFreePrefix(cs: seq<ContainerSummary>): (k: nat)
    ensures k <= |cs| && NullFree(cs[..k])
    ensures k < |cs| ==> cs[k].totalMemoryMiSeconds.None?
    ensures NullFree(cs) <==> k == |cs|
  {
    if cs == [] then 0
    else if cs[0].totalMemoryMiSeconds.None? then 0
    else
      var k := 1 + NullFreePrefix(cs[1..]);
      assert forall i :: 1 <= i < k ==> cs[..k][i] == cs[1..][..k - 1][i - 1];
      k
  }

  /** The loop meets its first NULL memory total at `i`. */
  lemma NullFreePrefixAt(cs: seq<ContainerSummary>, i: nat)
    requires i < |cs| && NullFree(cs[..i]) && cs[i].totalMemoryMiSeconds.None?
    ensures NullFreePrefix(cs) == i && !NullFree(cs)
  {
    var k := NullFreePrefix(cs);
    assert forall j :: 0 <= j < i ==> cs[..i][j] == cs[j];
    assert forall j :: 0 <= j < k ==> cs[..k][j] == cs[j];
  }

  /** One more turn of the loop over a container whose memory total is not NULL. */
  lemma AccumulateNext(cs: seq<ContainerSummary>, i: nat)
    requires i < |cs| && NullFree(cs[..i]) && cs[i].totalMemoryMiSeconds.Some?
    ensures NullFree(cs[..i + 1])
    ensures Accumulate(cs[..i + 1]) == Step(Accumulate(cs[..i]), cs[i])
  {
    assert cs[..i + 1][..i] == cs[..i];
  }

  /** One turn of the loop, over a container whose memory total is not NULL. */
  function Step(t: Totals, c: ContainerSummary): Totals
    requires c.totalMemoryMiSeconds.Some?
  {
    Totals(
      if c.maxMemoryMi > t.maxMemoryMi then c.maxMemoryMi else t.maxMemoryMi,
      if c.maxCpuM > t.maxCpuM then c.maxCpuM else t.maxCpuM,
      t.seconds + c.totalSeconds,
      t.cpuMSeconds + c.totalCpuMSeconds,
      t.memoryMiSeconds + c.totalMemoryMiSeconds.value,
      t.stddevCpuMSeconds + Product(c.stddevCpuM, c.totalSeconds),
      t.stddevMemoryMiSeconds + Product(c.stddevMemoryMi, c.totalSeconds))
  }

  /** A standard deviation weighed by the time it was measured over. */
  function Product(x: real, y: real): real
  {
    x * y
  }

  /** The accumulated values after the loop over `cs`, starting from zero. */
  function Accumulate(cs: seq<ContainerSummary>): Totals
    requires NullFree(cs)
  {
    if cs == [] then Totals(0, 0, 0.0, 0.0, 0.0, 0.0, 0.0)
    else Step(Accumulate(cs[..|cs| - 1]), cs[|cs| - 1])
  }

  /**
   * The maxima start from 0: they are at least 0 and at least every container's maximum, and
   * either 0 or some container's maximum. The totals of seconds and of memory are sums, so
   * they add up over a split of the containers.
   */
  lemma {:induction false} AccumulateMaxima(cs: seq<ContainerSummary>)
    requires NullFree(cs)
    ensures var t := Accumulate(cs);
      && t.maxMemoryMi >= 0 && t.maxCpuM >= 0
      && (forall c :: c in cs ==> c.maxMemoryMi <= t.maxMemoryMi && c.maxCpuM <= t.maxCpuM)
      && (t.maxMemoryMi == 0 || exists c :: c in cs && c.maxMemoryMi == t.maxMemoryMi)
      && (t.maxCpuM == 0 || exists c :: c in cs && c.maxCpuM == t.maxCpuM)
  {
    if cs != [] {
      var n := |cs| - 1;
      AccumulateMaxima(cs[..n]);
      assert cs == cs[..n] + [cs[n]];
    }
  }

  /** The totals add up over consecutive runs of containers. */
  lemma {:induction false} AccumulateSums(a: seq<ContainerSummary>, b: seq<ContainerSummary>)
    requires NullFree(a) && NullFree(b)
    ensures NullFree(a + b)
    ensures var ta, tb, t := Accumulate(a), Accumulate(b), Accumulate(a + b);
      && t.seconds == ta.seconds + tb.seconds
      && t.cpuMSeconds == ta.cpuMSeconds + tb.cpuMSeconds
      && t.memoryMiSeconds == ta.memoryMiSeconds + tb.memoryMiSeconds
      && t.stddevCpuMSeconds == ta.stddevCpuMSeconds + tb.stddevCpuMSeconds
      && t.stddevMemoryMiSeconds == ta.stddevMemoryMiSeconds + tb.stddevMemoryMiSeconds
    decreases |b|
  {
    if b == [] {
      assert a + b == a;
    } else {
      var n := |b| - 1;
      AccumulateSums(a, b[..n]);
      assert (a + b)[..|a + b| - 1] == a + b[..n];
    }
  }

  /** Containers whose memory totals, where not NULL, are bounded by their maximum over their time. */
  predicate Bounded(cs: seq<ContainerSummary>)
  {
    forall i :: 0 <= i < |cs| ==>
      && 0.0 <= cs[i].totalSeconds
      && (cs[i].totalMemoryMiSeconds.Some? ==>
            0.0 <= cs[i].totalMemoryMiSeconds.value <= Scaled(cs[i].maxMemoryMi, cs[i].totalSeconds))
  }

  /** When each container's memory total is at most its maximum over its time, so is the sum. */
  lemma {:induction false} AccumulateBounded(cs: seq<ContainerSummary>)
    requires Bounded(cs) && NullFree(cs)
    ensures var t := Accumulate(cs);
      0.0 <= t.seconds && 0.0 <= t.memoryMiSeconds <= Scaled(t.maxMemoryMi, t.seconds)
  {
    if cs != [] {
      var n := |cs| - 1;
      var c := cs[n];
      assert Bounded(cs[..n]) && NullFree(cs[..n]) by {
        forall i | 0 <= i < n ensures cs[..n][i] == cs[i] { }
      }
      AccumulateBounded(cs[..n]);
      AccumulateMaxima(cs[..n]);
      var p := Accumulate(cs[..n]);
      var t := Accumulate(cs);
      assert t == Step(p, c);
      ScaledMonotone(p.maxMemoryMi, t.maxMemoryMi, p.seconds);
      ScaledMonotone(c.maxMemoryMi, t.maxMemoryMi, c.totalSeconds);
      ScaledAdd(t.maxMemoryMi, p.seconds, c.totalSeconds);
    }
  }

  /** The InstanceSummary of a container. */
  function InstanceOf(w: nat, c: ContainerSummary): InstanceSummary
  {
    InstanceSummary(w, c.name, c.maxMemoryMi, c.avgMemoryMi, c.stddevMemoryMi, c.maxCpuM, c.avgCpuM, c.stddevCpuM)
  }

  function Instances(w: nat, cs: seq<ContainerSummary>): (r: seq<InstanceSummary>)
    ensures |r| == |cs| && forall i :: 0 <= i < |cs| ==> r[i] == InstanceOf(w, cs[i])
  {
    if cs == [] then [] else Instances(w, cs[..|cs| - 1]) + [InstanceOf(w, cs[|cs| - 1])]
  }

  /** `_fill_summary(summary, containers)`: the Summary of workload `w`'s containers named `name`. */
  function Fill(w: nat, name: string, cs: seq<ContainerSummary>, rows: seq<ContainerRow>): Result<Summary, FillError>
  {
    match LastStarted(rows, w, name)
    case None => Err(NoContainer)
    case Some(last) =>
      if !NullFree(cs) then Err(NullMemoryTotal)
      else
        var t := Accumulate(cs);
        if t.seconds == 0.0 then Err(ZeroTotalSeconds)
        else Ok(Summary(w, name, last.memoryLimitMi, last.cpuRequestM, t.maxMemoryMi, t.maxCpuM,
          RoundHalfEven(t.memoryMiSeconds / t.seconds), RoundHalfEven(t.cpuMSeconds / t.seconds),
          RoundHalfEven(t.stddevMemoryMiSeconds / t.seconds), RoundHalfEven(t.stddevCpuMSeconds / t.seconds)))
  }

  /** `n` is a nearest integer to `x`. */
  predicate Near(n: int, x: real)
  {
    x - 0.5 <= n as real <= x + 0.5
  }

  /**
   * `_fill_summary` fails when no container of that name is in the workload, when some
   * container's memory total is NULL, or when the containers' seconds add up to zero, in that
   * order of precedence. Otherwise the limit and request are those of the latest-started
   * container of that name; the maxima bound every container's and start from 0; and each
   * average is the time-weighted mean, rounded half to even.
   */
  lemma FillMeaning(w: nat, name: string, cs: seq<ContainerSummary>, rows: seq<ContainerRow>)
    ensures Fill(w, name, cs, rows) == Err(NoContainer) <==>
      forall i :: 0 <= i < |rows| ==> !(rows[i].workload == Some(w) && rows[i].name == name)
    ensures Fill(w, name, cs, rows) == Err(NullMemoryTotal) <==>
      LastStarted(rows, w, name).Some? && exists c :: c in cs && c.totalMemoryMiSeconds.None?
    ensures Fill(w, name, cs, rows) == Err(ZeroTotalSeconds) <==>
      LastStarted(rows, w, name).Some? && NullFree(cs) && Accumulate(cs).seconds == 0.0
    ensures Fill(w, name, cs, rows).Ok? ==>
      NullFree(cs) &&
      var s := Fill(w, name, cs, rows).value;
      var t := Accumulate(cs);
      && s.workload == w && s.containerName == name
      && (exists r :: r in rows && r.workload == Some(w) && r.name == name
            && s.memoryLimitMi == r.memoryLimitMi && s.cpuRequestM == r.cpuRequestM
            && forall q :: q in rows && q.workload == Some(w) && q.name == name ==> q.startedAt <= r.startedAt)
      && s.maxMemoryMi >= 0 && s.maxCpuM >= 0
      && (forall c :: c in cs ==> c.maxMemoryMi <= s.maxMemoryMi && c.maxCpuM <= s.maxCpuM)
      && t.seconds != 0.0
      && Near(s.avgMemoryMi, t.memoryMiSeconds / t.seconds) && Near(s.avgCpuM, t.cpuMSeconds / t.seconds)
      && Near(s.stddevMemoryMi, t.stddevMemoryMiSeconds / t.seconds) && Near(s.stddevCpuM, t.stddevCpuMSeconds / t.seconds)
  {
    if NullFree(cs) {
      AccumulateMaxima(cs);
    } else {
      var i :| 0 <= i < |cs| && cs[i].totalMemoryMiSeconds.None?;
      assert cs[i] in cs;
    }
    LastStartedSpec(rows, w, name);
    var last := LastStarted(rows, w, name);
    if last.Some? {
      var r := last.value;
      forall q | q in rows && q.workload == Some(w) && q.name == name ensures q.startedAt <= r.startedAt {
        var i :| 0 <= i < |rows| && rows[i] == q;
      }
    }
  }

  /**
   * A container measured only once has a NULL memory total in the statistics query (the
   * query keeps it, since its `total_seconds` is 0 and not NULL), so `_fill_summary` raises
   * for its name whenever that name has a latest-started container.
   */
  lemma SingleSampleFails(w: nat, name: string, cs: seq<ContainerSummary>, rows: seq<ContainerRow>,
                          k: nat, samples: seq<ContainerAnalytics.Sample>)
    requires k < |cs| && |samples| == 1 && LastStarted(rows, w, name).Some?
    requires ContainerAnalytics.Stats(samples).Some?
    requires cs[k].totalMemoryMiSeconds == ContainerAnalytics.Stats(samples).value.totalMemoryMiSeconds
    ensures Fill(w, name, cs, rows) == Err(NullMemoryTotal)
  {
    ContainerAnalytics.StatsMeaning(samples);
  }

  /**
   * With containers whose memory totals are bounded by their maximum over their time (as the
   * statistics query guarantees), the summary's average memory never exceeds its maximum.
   */
  lemma FillAverageBelowMax(w: nat, name: string, cs: seq<ContainerSummary>, rows: seq<ContainerRow>)
    requires Bounded(cs)
    requires Fill(w, name, cs, rows).Ok?
    ensures 0 <= Fill(w, name, cs, rows).value.avgMemoryMi <= Fill(w, name, cs, rows).value.maxMemoryMi
  {
    assert NullFree(cs);
    var t := Accumulate(cs);
    AccumulateBounded(cs);
    AverageBound(t.memoryMiSeconds, t.maxMemoryMi, t.seconds);
    RoundWithin(t.memoryMiSeconds / t.seconds, 0, t.maxMemoryMi);
  }

  // ---------------------------------------------------------------- the accumulator loop

  /**
   * `_fill_summary` as the source runs it: the latest-started container's resources, then one
   * pass over the containers that yields an InstanceSummary for each and accumulates maxima and
   * totals, then the rounded averages. `instances` are the ones yielded before it raised, if it
   * did: a NULL memory total raises before its container's InstanceSummary is yielded.
   */
  method FillSummary(w: nat, name: string, cs: seq<ContainerSummary>, rows: seq<ContainerRow>)
    returns (r: Result<Summary, FillError>, instances: seq<InstanceSummary>)
    ensures r == Fill(w, name, cs, rows)
    ensures instances == if LastStarted(rows, w, name).None? then [] else Instances(w, cs[..NullFreePrefix(cs)])
  {
    var last := LastStarted(rows, w, name);
    if last.None? {
      return Err(NoContainer), [];
    }
    var maxMemoryMi, maxCpuM := 0, 0;
    var seconds, cpuMSeconds, memoryMiSeconds := 0.0, 0.0, 0.0;
    var stddevCpuMSeconds, stddevMemoryMiSeconds := 0.0, 0.0;
    instances := [];
    for i := 0 to |cs|
      invariant NullFree(cs[..i])
      invariant instances == Instances(w, cs[..i])
      invariant Totals(maxMemoryMi, maxCpuM, seconds, cpuMSeconds, memoryMiSeconds, stddevCpuMSeconds, stddevMemoryMiSeconds)
        == Accumulate(cs[..i])
    {
      var c := cs[i];
      maxMemoryMi := if c.maxMemoryMi > maxMemoryMi then c.maxMemoryMi else maxMemoryMi;
      maxCpuM := if c.maxCpuM > maxCpuM then c.maxCpuM else maxCpuM;
      seconds := seconds + c.totalSeconds;
      cpuMSeconds := cpuMSeconds + c.totalCpuMSeconds;
      if c.totalMemoryMiSeconds.None? {
        NullFreePrefixAt(cs, i);
        return Err(NullMemoryTotal), instances;
      }
      AccumulateNext(cs, i);
      memoryMiSeconds := memoryMiSeconds + c.totalMemoryMiSeconds.value;
      stddevCpuMSeconds := stddevCpuMSeconds + Product(c.stddevCpuM, c.totalSeconds);
      stddevMemoryMiSeconds := stddevMemoryMiSeconds + Product(c.stddevMemoryMi, c.totalSeconds);
      assert cs[..i + 1][..i] == cs[..i];
      instances := instances + [InstanceOf(w, c)];
    }
    assert cs[..|cs|] == cs;
    assert NullFreePrefix(cs) == |cs|;
    if seconds == 0.0 {
      return Err(ZeroTotalSeconds), instances;
    }
    r := Ok(Summary(w, name, last.value.memoryLimitMi, last.value.cpuRequestM, maxMemoryMi, maxCpuM,
      RoundHalfEven(memoryMiSeconds / seconds), RoundHalfEven(cpuMSeconds / seconds),
      RoundHalfEven(stddevMemoryMiSeconds / seconds), RoundHalfEven(stddevCpuMSeconds / seconds)));
  }

  // ---------------------------------------------------------------- one workload

  /** The rows one `bulk_save` block writes. */
  datatype Built = Built(summaries: seq<Summary>, instances: seq<InstanceSummary>)

  /** One name's share of the block: its Summary (or the error making it raised) and its instances. */
  datatype Part = Part(summary: Result<Summary, FillError>, instances: seq<InstanceSummary>)

  /** The part of the name `name`: `_fill_summary` over that name's containers. */
  function PartOf(w: nat, cs: seq<ContainerSummary>, rows: seq<ContainerRow>, name: string): Part
  {
    var group := FilterBy(cs, NameOf, name);
    Part(Fill(w, name, group, rows), Instances(w, group))
  }

  /** The parts of the names `names`, in that order. */
  function Parts(w: nat, cs: seq<ContainerSummary>, rows: seq<ContainerRow>, names: seq<string>): (r: seq<Part>)
    ensures |r| == |names|
  {
    seq(|names|, i requires 0 <= i < |names| => PartOf(w, cs, rows, names[i]))
  }

  /** The rows of consecutive parts written together, or the first part's error (which makes the block write nothing). */
  function Assemble(parts: seq<Part>): Result<Built, FillError>
  {
    if parts == [] then Ok(Built([], []))
    else
      var n := |parts| - 1;
      match Assemble(parts[..n])
      case Err(e) => Err(e)
      case Ok(b) =>
        match parts[n].summary
        case Err(e) => Err(e)
        case Ok(s) => Ok(Built(b.summaries + [s], b.instances + parts[n].instances))
  }

  /** The instances of consecutive parts, one after the other. */
  function AllInstances(parts: seq<Part>): seq<InstanceSummary>
  {
    if parts == [] then [] else var n := |parts| - 1; AllInstances(parts[..n]) + parts[n].instances
  }

  /** The block over the names `names`, in that order: a Summary and its instances per name. */
  function BuildNames(w: nat, cs: seq<ContainerSummary>, rows: seq<ContainerRow>, names: seq<string>): Result<Built, FillError>
  {
    Assemble(Parts(w, cs, rows, names))
  }

  /** The rows written for workload `w` from its containers' statistics `cs`, grouped by name. */
  function Build(w: nat, cs: seq<ContainerSummary>, rows: seq<ContainerRow>): Result<Built, FillError>
  {
    BuildNames(w, cs, rows, KeysOf(cs, NameOf))
  }

  /** Every item of a concatenation of groups has one of the groups' keys. */
  lemma {:induction false} ConcatKeys<K, V>(xs: seq<V>, key: V -> K, keys: seq<K>, v: V)
    requires v in Concat(xs, key, keys)
    ensures key(v) in keys && v in xs
  {
    var n := |keys| - 1;
    if v in Concat(xs, key, keys[..n]) {
      ConcatKeys(xs, key, keys[..n], v);
    }
  }

  /** Parts fail together exactly when one of them fails. */
  lemma {:induction false} AssembleFails(parts: seq<Part>)
    ensures Assemble(parts).Err? <==> exists i :: 0 <= i < |parts| && parts[i].summary.Err?
  {
    if parts != [] {
      var n := |parts| - 1;
      AssembleFails(parts[..n]);
      assert forall i :: 0 <= i < n ==> parts[..n][i] == parts[i];
    }
  }

  /** Otherwise they give one Summary per part, in order, and all their instances. */
  lemma {:induction false} AssembleRows(parts: seq<Part>)
    requires Assemble(parts).Ok?
    ensures var b := Assemble(parts).value;
      && |b.summaries| == |parts|
      && (forall i :: 0 <= i < |parts| ==> parts[i].summary == Ok(b.summaries[i]))
      && b.instances == AllInstances(parts)
  {
    if parts != [] {
      var n := |parts| - 1;
      AssembleRows(parts[..n]);
      var p := Assemble(parts[..n]).value;
      var b := Assemble(parts).value;
      assert b.summaries == p.summaries + [parts[n].summary.value];
      forall i | 0 <= i < |parts|
        ensures parts[i].summary == Ok(b.summaries[i])
      {
        if i < n {
          assert parts[..n][i] == parts[i];
        }
      }
    }
  }

  /** The first failing part decides the outcome, whatever parts follow. */
  lemma {:induction false} AssembleErrPrefix(parts: seq<Part>, i: nat)
    requires i <= |parts| && Assemble(parts[..i]).Err?
    ensures Assemble(parts) == Assemble(parts[..i])
  {
    if i < |parts| {
      var n := |parts| - 1;
      assert parts[..n][..i] == parts[..i];
      AssembleErrPrefix(parts[..n], i);
    } else {
      assert parts[..i] == parts;
    }
  }

  lemma PartsPrefix(w: nat, cs: seq<ContainerSummary>, rows: seq<ContainerRow>, names: seq<string>, i: nat)
    requires i <= |names|
    ensures Parts(w, cs, rows, names[..i]) == Parts(w, cs, rows, names)[..i]
  {
  }

  /** The instances of the parts of `names` are the instances of their groups, one after the other. */
  lemma {:induction false} PartsInstances(w: nat, cs: seq<ContainerSummary>, rows: seq<ContainerRow>, names: seq<string>)
    ensures AllInstances(Parts(w, cs, rows, names)) == Instances(w, Concat(cs, NameOf, names))
  {
    if names != [] {
      var n := |names| - 1;
      var parts := Parts(w, cs, rows, names);
      PartsPrefix(w, cs, rows, names, n);
      PartsInstances(w, cs, rows, names[..n]);
      assert parts[n].instances == Instances(w, FilterBy(cs, NameOf, names[n]));
      InstancesAppend(w, Concat(cs, NameOf, names[..n]), FilterBy(cs, NameOf, names[n]));
    }
  }

  /** Over names `names`, the block fails exactly when some name's summary fails. */
  lemma BuildNamesFails(w: nat, cs: seq<ContainerSummary>, rows: seq<ContainerRow>, names: seq<string>)
    ensures BuildNames(w, cs, rows, names).Err? <==>
      exists i :: 0 <= i < |names| && Fill(w, names[i], FilterBy(cs, NameOf, names[i]), rows).Err?
  {
    var parts := Parts(w, cs, rows, names);
    AssembleFails(parts);
    assert forall i :: 0 <= i < |names| ==> parts[i].summary == Fill(w, names[i], FilterBy(cs, NameOf, names[i]), rows);
  }

  /**
   * Otherwise it holds one Summary per name, in order, each the one `_fill_summary` makes of
   * that name's group, and the instances of the groups one after the other.
   */
  lemma BuildNamesRows(w: nat, cs: seq<ContainerSummary>, rows: seq<ContainerRow>, names: seq<string>)
    requires BuildNames(w, cs, rows, names).Ok?
    ensures var b := BuildNames(w, cs, rows, names).value;
      && |b.summaries| == |names|
      && (forall i :: 0 <= i < |names| ==>
            Fill(w, names[i], FilterBy(cs, NameOf, names[i]), rows).Ok? &&
            b.summaries[i] == Fill(w, names[i], FilterBy(cs, NameOf, names[i]), rows).value)
      && b.instances == Instances(w, Concat(cs, NameOf, names))
  {
    var parts := Parts(w, cs, rows, names);
    AssembleRows(parts);
    PartsInstances(w, cs, rows, names);
    assert forall i :: 0 <= i < |names| ==> parts[i].summary == Fill(w, names[i], FilterBy(cs, NameOf, names[i]), rows);
  }

  lemma {:induction false} InstancesAppend(w: nat, a: seq<ContainerSummary>, b: seq<ContainerSummary>)
    ensures Instances(w, a + b) == Instances(w, a) + Instances(w, b)
  {
  }

  /** `make_summary` for one workload fails exactly when the summary of some container's name fails. */
  lemma BuildFails(w: nat, cs: seq<ContainerSummary>, rows: seq<ContainerRow>)
    ensures Build(w, cs, rows).Err? <==>
      exists c :: c in cs && Fill(w, c.name, FilterBy(cs, NameOf, c.name), rows).Err?
  {
    var keys := KeysOf(cs, NameOf);
    BuildNamesFails(w, cs, rows, keys);
    if c :| c in cs && Fill(w, c.name, FilterBy(cs, NameOf, c.name), rows).Err? {
      var j :| 0 <= j < |cs| && cs[j] == c;
      KeyListed(cs, NameOf, j);
      var i :| 0 <= i < |keys| && keys[i] == c.name;
    }
    if Build(w, cs, rows).Err? {
      var i :| 0 <= i < |keys| && Fill(w, keys[i], FilterBy(cs, NameOf, keys[i]), rows).Err?;
      var j := KeyWitness(cs, NameOf, keys[i]);
      assert cs[j] in cs && cs[j].name == keys[i];
    }
  }

  /**
   * Otherwise it writes exactly one Summary per distinct container name, each the summary of
   * that name's containers.
   */
  lemma BuildSummaries(w: nat, cs: seq<ContainerSummary>, rows: seq<ContainerRow>)
    requires Build(w, cs, rows).Ok?
    ensures var b := Build(w, cs, rows).value;
      && (forall i :: 0 <= i < |b.summaries| ==>
            Fill(w, b.summaries[i].containerName, FilterBy(cs, NameOf, b.summaries[i].containerName), rows).Ok? &&
            b.summaries[i] == Fill(w, b.summaries[i].containerName, FilterBy(cs, NameOf, b.summaries[i].containerName), rows).value)
      && (forall i, j :: 0 <= i < j < |b.summaries| ==> b.summaries[i].containerName != b.summaries[j].containerName)
  {
    var keys := KeysOf(cs, NameOf);
    var b := Build(w, cs, rows).value;
    BuildNamesRows(w, cs, rows, keys);
    FillNames(w, cs, rows, keys);
    forall i | 0 <= i < |b.summaries|
      ensures Fill(w, b.summaries[i].containerName, FilterBy(cs, NameOf, b.summaries[i].containerName), rows).Ok?
      ensures b.summaries[i] == Fill(w, b.summaries[i].containerName, FilterBy(cs, NameOf, b.summaries[i].containerName), rows).value
    {
      assert b.summaries[i].containerName == keys[i];
    }
    KeysOfSpec(cs, NameOf);
  }

  /** The names summarised are exactly the names of the containers. */
  lemma BuildNamesCovered(w: nat, cs: seq<ContainerSummary>, rows: seq<ContainerRow>)
    requires Build(w, cs, rows).Ok?
    ensures var b := Build(w, cs, rows).value;
      && (forall i :: 0 <= i < |b.summaries| ==> exists c :: c in cs && c.name == b.summaries[i].containerName)
      && (forall c :: c in cs ==> exists i :: 0 <= i < |b.summaries| && b.summaries[i].containerName == c.name)
  {
    var keys := KeysOf(cs, NameOf);
    var b := Build(w, cs, rows).value;
    BuildNamesOrder(w, cs, rows, keys);
    forall c | c in cs ensures exists i :: 0 <= i < |b.summaries| && b.summaries[i].containerName == c.name {
      var j :| 0 <= j < |cs| && cs[j] == c;
      KeyListed(cs, NameOf, j);
      var i :| 0 <= i < |keys| && keys[i] == c.name;
      assert b.summaries[i].containerName == keys[i];
    }
    forall i | 0 <= i < |b.summaries| ensures exists c :: c in cs && c.name == b.summaries[i].containerName {
      assert b.summaries[i].containerName == keys[i];
      var j := KeyWitness(cs, NameOf, keys[i]);
      assert cs[j] in cs;
    }
  }

  /**
   * And one InstanceSummary per container of `cs`, of workload `w`: the containers rearranged
   * by name, each as often as it occurs.
   */
  lemma BuildInstances(w: nat, cs: seq<ContainerSummary>, rows: seq<ContainerRow>)
    requires Build(w, cs, rows).Ok?
    ensures exists order :: multiset(order) == multiset(cs) && Build(w, cs, rows).value.instances == Instances(w, order)
  {
    BuildNamesRows(w, cs, rows, KeysOf(cs, NameOf));
    GroupsPartition(cs, NameOf);
  }

  /** The block's summaries are those of the names, in order, all of workload `w`. */
  lemma BuildNamesOrder(w: nat, cs: seq<ContainerSummary>, rows: seq<ContainerRow>, names: seq<string>)
    requires BuildNames(w, cs, rows, names).Ok?
    ensures var b := BuildNames(w, cs, rows, names).value;
      |b.summaries| == |names| && forall i :: 0 <= i < |names| ==> b.summaries[i].workload == w && b.summaries[i].containerName == names[i]
  {
    BuildNamesRows(w, cs, rows, names);
    FillNames(w, cs, rows, names);
  }

  /** A summary `Fill` makes carries the workload and container name it was made for. */
  lemma {:induction false} FillNames(w: nat, cs: seq<ContainerSummary>, rows: seq<ContainerRow>, names: seq<string>)
    requires forall i :: 0 <= i < |names| ==> Fill(w, names[i], FilterBy(cs, NameOf, names[i]), rows).Ok?
    ensures forall i :: 0 <= i < |names| ==>
      var s := Fill(w, names[i], FilterBy(cs, NameOf, names[i]), rows).value;
      s.workload == w && s.containerName == names[i]
  {
  }

  /** Every InstanceSummary of workload `w` belongs to one of its containers' names. */
  lemma InstancesNamed(w: nat, cs: seq<ContainerSummary>, rows: seq<ContainerRow>)
    requires Build(w, cs, rows).Ok?
    ensures var b := Build(w, cs, rows).value;
      forall k :: 0 <= k < |b.instances| ==>
        b.instances[k].workload == w && b.instances[k].containerName in KeysOf(cs, NameOf)
  {
    var keys := KeysOf(cs, NameOf);
    var b := Build(w, cs, rows).value;
    BuildNamesRows(w, cs, rows, keys);
    var order := Concat(cs, NameOf, keys);
    forall k | 0 <= k < |b.instances|
      ensures b.instances[k].workload == w && b.instances[k].containerName in keys
    {
      ConcatKeys(cs, NameOf, keys, order[k]);
    }
  }

  /** Regenerating one workload: the statement the source runs and the rows its block writes. */
  method BuildWorkload(w: nat, cs: seq<ContainerSummary>, rows: seq<ContainerRow>) returns (r: Result<Built, FillError>)
    ensures r == Build(w, cs, rows)
  {
    var names, groups := GroupBy(cs, NameOf);
    var summaries, instances := [], [];
    for i := 0 to |names|
      invariant Assemble(Parts(w, cs, rows, names)[..i]) == Ok(Built(summaries, instances))
    {
      ghost var parts := Parts(w, cs, rows, names);
      assert parts[..i + 1][..i] == parts[..i];
      var s, yielded := FillSummary(w, names[i], Lookup(groups, names[i]), rows);
      assert parts[i] == PartOf(w, cs, rows, names[i]);
      assert parts[i].summary == s;
      if s.Err? {
        AssembleErrPrefix(parts, i + 1);
        return Err(s.error);
      }
      assert yielded == parts[i].instances;
      summaries := summaries + [s.value];
      instances := instances + yielded;
    }
    assert Parts(w, cs, rows, names)[..|names|] == Parts(w, cs, rows, names);
    return Ok(Built(summaries, instances));
  }

  // ---------------------------------------------------------------- the stored rows

  /** The key of `unique_together = ('workload', 'container_name')`. */
  function KeyOf(s: Summary): (nat, string)
  {
    (s.workload, s.containerName)
  }

  /** At most one Summary per (workload, container name). */
  predicate DistinctKeys(summaries: seq<Summary>)
  {
    forall i, j :: 0 <= i < j < |summaries| ==> KeyOf(summaries[i]) != KeyOf(summaries[j])
  }

  /** `x` is an instance of `s`: its `aggregated` foreign key. */
  predicate Owns(s: Summary, x: InstanceSummary)
  {
    s.workload == x.workload && s.containerName == x.containerName
  }

  /** Every InstanceSummary belongs to a stored Summary (deleting a Summary cascades to them). */
  predicate Owned(summaries: seq<Summary>, instances: seq<InstanceSummary>)
  {
    forall x :: x in instances ==> exists s :: s in summaries && Owns(s, x)
  }

  /** The invariant of the two tables. */
  predicate Consistent(summaries: seq<Summary>, instances: seq<InstanceSummary>)
  {
    DistinctKeys(summaries) && Owned(summaries, instances)
  }

  /** The summaries left by `Summary.objects.filter(workload_id=w).delete()`, in their order. */
  function OtherSummaries(ss: seq<Summary>, w: nat): (r: seq<Summary>)
    ensures forall s :: s in r <==> s in ss && s.workload != w
  {
    if ss == [] then []
    else
      var n := |ss| - 1;
      var prev := OtherSummaries(ss[..n], w);
      if ss[n].workload != w then prev + [ss[n]] else prev
  }

  /** The instances left by the same delete, through the cascade. */
  function OtherInstances(xs: seq<InstanceSummary>, w: nat): (r: seq<InstanceSummary>)
    ensures forall x :: x in r <==> x in xs && x.workload != w
  {
    if xs == [] then []
    else
      var n := |xs| - 1;
      var prev := OtherInstances(xs[..n], w);
      if xs[n].workload != w then prev + [xs[n]] else prev
  }

  lemma {:induction false} OtherSummariesDistinct(ss: seq<Summary>, w: nat)
    requires DistinctKeys(ss)
    ensures DistinctKeys(OtherSummaries(ss, w))
  {
    if ss != [] {
      var n := |ss| - 1;
      assert DistinctKeys(ss[..n]) by {
        forall i, j | 0 <= i < j < n ensures KeyOf(ss[..n][i]) != KeyOf(ss[..n][j]) {
          assert ss[..n][i] == ss[i] && ss[..n][j] == ss[j];
        }
      }
      OtherSummariesDistinct(ss[..n], w);
      var prev := OtherSummaries(ss[..n], w);
      if ss[n].workload != w {
        var r := prev + [ss[n]];
        forall i, j | 0 <= i < j < |r| ensures KeyOf(r[i]) != KeyOf(r[j]) {
          if j == |prev| {
            assert r[i] == prev[i] && prev[i] in ss[..n];
            var p :| 0 <= p < n && ss[..n][p] == prev[i];
            assert ss[p] == r[i] && r[j] == ss[n];
          } else {
            assert r[i] == prev[i] && r[j] == prev[j];
          }
        }
      }
    }
  }

  /**
   * Every stored Suggestion belongs to a stored Summary: `Suggestion.summary` is a one-to-one key,
   * here the key of the Summary it points at.
   */
  predicate SuggestionsOwned(summaries: seq<Summary>, suggestions: seq<(nat, string)>)
  {
    forall k :: k in suggestions ==> exists s :: s in summaries && KeyOf(s) == k
  }

  /**
   * The suggestions left by `Summary.objects.filter(workload_id=w).delete()`, through the cascade
   * of `Suggestion.summary`, in their order.
   */
  function OtherSuggestions(ks: seq<(nat, string)>, w: nat): (r: seq<(nat, string)>)
    ensures forall k :: k in r <==> k in ks && k.0 != w
  {
    if ks == [] then []
    else
      var n := |ks| - 1;
      var prev := OtherSuggestions(ks[..n], w);
      assert ks == ks[..n] + [ks[n]];
      if ks[n].0 != w then prev + [ks[n]] else prev
  }

  /** The cascade keeps every remaining suggestion's summary: both belong to other workloads. */
  lemma DeleteSuggestionsOwned(ss: seq<Summary>, ks: seq<(nat, string)>, w: nat)
    requires SuggestionsOwned(ss, ks)
    ensures SuggestionsOwned(OtherSummaries(ss, w), OtherSuggestions(ks, w))
  {
    var rs := OtherSummaries(ss, w);
    forall k | k in OtherSuggestions(ks, w) ensures exists s :: s in rs && KeyOf(s) == k {
      var s :| s in ss && KeyOf(s) == k;
      assert s in rs;
    }
  }

  /** Deleting one workload's summaries keeps the stored rows consistent. */
  lemma DeleteConsistent(ss: seq<Summary>, xs: seq<InstanceSummary>, w: nat)
    requires Consistent(ss, xs)
    ensures Consistent(OtherSummaries(ss, w), OtherInstances(xs, w))
  {
    var rs, ri := OtherSummaries(ss, w), OtherInstances(xs, w);
    OtherSummariesDistinct(ss, w);
    forall x | x in ri ensures exists s :: s in rs && Owns(s, x) {
      var s :| s in ss && Owns(s, x);
      assert s in rs;
    }
  }

  /**
   * Rows of other workloads, consistent, followed by a consistent block of rows of workload `w`
   * alone, are consistent.
   */
  lemma AppendConsistent(ss: seq<Summary>, xs: seq<InstanceSummary>, bs: seq<Summary>, bi: seq<InstanceSummary>, w: nat)
    requires Consistent(ss, xs) && Consistent(bs, bi)
    requires forall s :: s in ss ==> s.workload != w
    requires forall i :: 0 <= i < |bs| ==> bs[i].workload == w
    ensures Consistent(ss + bs, xs + bi)
  {
    var rs, ri := ss + bs, xs + bi;
    forall i, j | 0 <= i < j < |rs| ensures KeyOf(rs[i]) != KeyOf(rs[j]) {
      if j < |ss| {
        assert rs[i] == ss[i] && rs[j] == ss[j];
      } else if i < |ss| {
        assert rs[i] == ss[i] && ss[i] in ss;
        assert rs[j] == bs[j - |ss|];
      } else {
        assert rs[i] == bs[i - |ss|] && rs[j] == bs[j - |ss|];
      }
    }
    forall x | x in ri ensures exists s :: s in rs && Owns(s, x) {
      if x in xs {
        var s :| s in ss && Owns(s, x);
        assert s in rs;
      } else {
        var s :| s in bs && Owns(s, x);
        assert s in rs;
      }
    }
    assert Owned(rs, ri);
  }

  /** The summaries one block writes have distinct keys, all of workload `w`. */
  lemma BuildDistinct(w: nat, cs: seq<ContainerSummary>, rows: seq<ContainerRow>)
    requires Build(w, cs, rows).Ok?
    ensures DistinctKeys(Build(w, cs, rows).value.summaries)
    ensures forall i :: 0 <= i < |Build(w, cs, rows).value.summaries| ==> Build(w, cs, rows).value.summaries[i].workload == w
  {
    BuildSummaries(w, cs, rows);
    BuildNamesOrder(w, cs, rows, KeysOf(cs, NameOf));
  }

  /** Every instance one block writes belongs to one of the block's summaries. */
  lemma BuildOwned(w: nat, cs: seq<ContainerSummary>, rows: seq<ContainerRow>)
    requires Build(w, cs, rows).Ok?
    ensures Owned(Build(w, cs, rows).value.summaries, Build(w, cs, rows).value.instances)
  {
    var keys := KeysOf(cs, NameOf);
    var b := Build(w, cs, rows).value;
    BuildNamesOrder(w, cs, rows, keys);
    InstancesNamed(w, cs, rows);
    forall x | x in b.instances ensures exists s :: s in b.summaries && Owns(s, x) {
      var k :| 0 <= k < |b.instances| && b.instances[k] == x;
      var i :| 0 <= i < |keys| && keys[i] == x.containerName;
      assert Owns(b.summaries[i], x);
    }
  }

  /** Writing a workload's regenerated rows after deleting its old ones keeps them consistent. */
  lemma ReplaceConsistent(ss: seq<Summary>, xs: seq<InstanceSummary>, w: nat, cs: seq<ContainerSummary>, rows: seq<ContainerRow>)
    requires Consistent(ss, xs) && Build(w, cs, rows).Ok?
    ensures var b := Build(w, cs, rows).value;
      Consistent(OtherSummaries(ss, w) + b.summaries, OtherInstances(xs, w) + b.instances)
  {
    var b := Build(w, cs, rows).value;
    DeleteConsistent(ss, xs, w);
    BuildDistinct(w, cs, rows);
    BuildOwned(w, cs, rows);
    AppendConsistent(OtherSummaries(ss, w), OtherInstances(xs, w), b.summaries, b.instances, w);
  }

  // ---------------------------------------------------------------- every workload

  /** A Workload row, as `make_summaries` orders it. */
  datatype Workload = Workload(id: nat, namespace: string, name: string)

  /** A Pod row: its id and the workload it belongs to, if any. */
  datatype Pod = Pod(id: nat, workload: Option<nat>)

  function PodIdOf(c: ContainerSummary): nat
  {
    c.podId
  }

  function WorkloadIdOf(p: Pod): Option<nat>
  {
    p.workload
  }

  /** `order_by('namespace', 'name')`. */
  predicate WorkloadLe(x: Workload, y: Workload)
  {
    NamespacedLe(x.namespace, x.name, y.namespace, y.name)
  }

  /** Workloads are rows with distinct primary keys. */
  predicate DistinctIds(ws: seq<Workload>)
  {
    forall i, j :: 0 <= i < j < |ws| ==> ws[i].id != ws[j].id
  }

  /**
   * `make_summaries` visits every workload once, in (namespace, name) order, and sorting keeps
   * the primary keys distinct.
   */
  lemma VisitOrder(ws: seq<Workload>)
    ensures var order := SortBy(ws, WorkloadLe);
      Sorted(order, WorkloadLe) && multiset(order) == multiset(ws)
    ensures DistinctIds(ws) ==> DistinctIds(SortBy(ws, WorkloadLe))
  {
    NamespacedLeTotalPreorder();
    assert TotalPreorder(WorkloadLe);
    SortBySorted(ws, WorkloadLe);
    var order := SortBy(ws, WorkloadLe);
    if DistinctIds(ws) {
      NoDupsPermutation(ws, order);
      forall i, j | 0 <= i < j < |order| ensures order[i].id != order[j].id {
        assert order[i] in multiset(ws) && order[j] in multiset(ws);
        var p :| 0 <= p < |ws| && ws[p] == order[i];
        var q :| 0 <= q < |ws| && ws[q] == order[j];
      }
    }
  }

  /** The containers of pods `ps`, pod by pod, each pod's in query order. */
  function PodsContainers(all: seq<ContainerSummary>, ps: seq<Pod>): seq<ContainerSummary>
  {
    if ps == [] then []
    else
      var n := |ps| - 1;
      PodsContainers(all, ps[..n]) + FilterBy(all, PodIdOf, ps[n].id)
  }

  /** The containers `make_summaries` regroups by name for workload `wid`. */
  function WorkloadContainers(all: seq<ContainerSummary>, pods: seq<Pod>, wid: nat): seq<ContainerSummary>
  {
    PodsContainers(all, FilterBy(pods, WorkloadIdOf, Some(wid)))
  }

  lemma {:induction false} PodsContainersMembers(all: seq<ContainerSummary>, ps: seq<Pod>, c: ContainerSummary)
    ensures c in PodsContainers(all, ps) <==> c in all && exists p :: p in ps && p.id == c.podId
  {
    if ps != [] {
      var n := |ps| - 1;
      PodsContainersMembers(all, ps[..n], c);
      FilterByCount(all, PodIdOf, c);
      if c in all && c.podId == ps[n].id {
        assert c in multiset(FilterBy(all, PodIdOf, c.podId));
      }
      assert ps == ps[..n] + [ps[n]];
    }
  }

  /**
   * A workload's containers are exactly the summarised containers of the pods that belong to
   * it.
   */
  lemma WorkloadContainersMembers(all: seq<ContainerSummary>, pods: seq<Pod>, wid: nat, c: ContainerSummary)
    ensures c in WorkloadContainers(all, pods, wid) <==>
      c in all && exists p :: p in pods && p.workload == Some(wid) && p.id == c.podId
  {
    var mine := FilterBy(pods, WorkloadIdOf, Some(wid));
    PodsContainersMembers(all, mine, c);
    forall p | p in pods && p.workload == Some(wid) ensures p in mine {
      FilterByCount(pods, WorkloadIdOf, p);
      assert p in multiset(pods);
    }
  }

  /** The outcome of each workload's block, for workloads `ws` in that order. */
  function Blocks(all: seq<ContainerSummary>, pods: seq<Pod>, ws: seq<Workload>, rows: seq<ContainerRow>): (r: seq<Result<Built, FillError>>)
    ensures |r| == |ws|
  {
    seq(|ws|, k requires 0 <= k < |ws| => Build(ws[k].id, WorkloadContainers(all, pods, ws[k].id), rows))
  }

  /** The `k`th block is the `k`th workload's. */
  lemma BlockAt(all: seq<ContainerSummary>, pods: seq<Pod>, ws: seq<Workload>, rows: seq<ContainerRow>, k: nat)
    requires k < |ws|
    ensures Blocks(all, pods, ws, rows)[k] == Build(ws[k].id, WorkloadContainers(all, pods, ws[k].id), rows)
  {
  }

  /** The rows of consecutive blocks written together, or the first block's error. */
  function Together(blocks: seq<Result<Built, FillError>>): Result<Built, FillError>
  {
    if blocks == [] then Ok(Built([], []))
    else
      var n := |blocks| - 1;
      match Together(blocks[..n])
      case Err(e) => Err(e)
      case Ok(b) =>
        match blocks[n]
        case Err(e) => Err(e)
        case Ok(d) => Ok(Built(b.summaries + d.summaries, b.instances + d.instances))
  }

  /** What `make_summaries` writes: every workload's rows, in (namespace, name) order. */
  function Regenerated(all: seq<ContainerSummary>, pods: seq<Pod>, workloads: seq<Workload>, rows: seq<ContainerRow>): Result<Built, FillError>
  {
    Together(Blocks(all, pods, SortBy(workloads, WorkloadLe), rows))
  }

  lemma {:induction false} TogetherErrPrefix(blocks: seq<Result<Built, FillError>>, i: nat)
    requires i <= |blocks| && Together(blocks[..i]).Err?
    ensures Together(blocks) == Together(blocks[..i])
  {
    if i < |blocks| {
      var n := |blocks| - 1;
      assert blocks[..n][..i] == blocks[..i];
      TogetherErrPrefix(blocks[..n], i);
    } else {
      assert blocks[..i] == blocks;
    }
  }

  /** Blocks written together fail exactly when one of them fails. */
  lemma {:induction false} TogetherFails(blocks: seq<Result<Built, FillError>>)
    ensures Together(blocks).Err? <==> exists k :: 0 <= k < |blocks| && blocks[k].Err?
  {
    if blocks != [] {
      var n := |blocks| - 1;
      TogetherFails(blocks[..n]);
      assert forall k :: 0 <= k < n ==> blocks[..n][k] == blocks[k];
    }
  }

  /** Otherwise they hold exactly the summaries of the blocks. */
  lemma {:induction false} TogetherSummaries(blocks: seq<Result<Built, FillError>>)
    requires Together(blocks).Ok?
    ensures forall k :: 0 <= k < |blocks| ==> blocks[k].Ok?
    ensures forall s :: s in Together(blocks).value.summaries <==>
      exists k :: 0 <= k < |blocks| && s in blocks[k].value.summaries
  {
    TogetherFails(blocks);
    if blocks != [] {
      var n := |blocks| - 1;
      TogetherSummaries(blocks[..n]);
      assert forall k :: 0 <= k < n ==> blocks[..n][k] == blocks[k];
    }
  }

  /**
   * Consistent blocks, each of its own workload `ids[k]` and the workloads distinct, are
   * consistent together.
   */
  lemma {:induction false} TogetherConsistent(blocks: seq<Result<Built, FillError>>, ids: seq<nat>)
    requires |ids| == |blocks| && NoDups(ids) && Together(blocks).Ok?
    requires forall k :: 0 <= k < |blocks| && blocks[k].Ok? ==>
      && Consistent(blocks[k].value.summaries, blocks[k].value.instances)
      && forall s :: s in blocks[k].value.summaries ==> s.workload == ids[k]
    ensures Consistent(Together(blocks).value.summaries, Together(blocks).value.instances)
    ensures forall s :: s in Together(blocks).value.summaries ==> s.workload in ids
  {
    if blocks != [] {
      var n := |blocks| - 1;
      NoDupsLast(ids);
      assert forall k :: 0 <= k < n ==> blocks[..n][k] == blocks[k] && ids[..n][k] == ids[k];
      TogetherConsistent(blocks[..n], ids[..n]);
      var p := Together(blocks[..n]).value;
      var d := blocks[n].value;
      forall s | s in p.summaries ensures s.workload != ids[n] {
      }
      forall i | 0 <= i < |d.summaries| ensures d.summaries[i].workload == ids[n] {
        assert d.summaries[i] in d.summaries;
      }
      AppendConsistent(p.summaries, p.instances, d.summaries, d.instances, ids[n]);
    }
  }

  function Ids(ws: seq<Workload>): (r: seq<nat>)
    ensures |r| == |ws| && forall k :: 0 <= k < |ws| ==> r[k] == ws[k].id
  {
    if ws == [] then [] else Ids(ws[..|ws| - 1]) + [ws[|ws| - 1].id]
  }

  /** Each workload's block is consistent and of that workload alone. */
  lemma BlocksConsistent(all: seq<ContainerSummary>, pods: seq<Pod>, ws: seq<Workload>, rows: seq<ContainerRow>)
    ensures var blocks := Blocks(all, pods, ws, rows);
      forall k :: 0 <= k < |blocks| && blocks[k].Ok? ==>
        && Consistent(blocks[k].value.summaries, blocks[k].value.instances)
        && forall s :: s in blocks[k].value.summaries ==> s.workload == Ids(ws)[k]
  {
    var blocks := Blocks(all, pods, ws, rows);
    forall k | 0 <= k < |blocks| && blocks[k].Ok?
      ensures Consistent(blocks[k].value.summaries, blocks[k].value.instances)
      ensures forall s :: s in blocks[k].value.summaries ==> s.workload == Ids(ws)[k]
    {
      var cs := WorkloadContainers(all, pods, ws[k].id);
      BlockAt(all, pods, ws, rows, k);
      BuildDistinct(ws[k].id, cs, rows);
      BuildOwned(ws[k].id, cs, rows);
    }
  }

  /** A workload's block has a summary for the name of each of its containers. */
  lemma BuildCovers(w: nat, cs: seq<ContainerSummary>, rows: seq<ContainerRow>, c: ContainerSummary)
    requires Build(w, cs, rows).Ok? && c in cs
    ensures exists s :: s in Build(w, cs, rows).value.summaries && s.workload == w && s.containerName == c.name
  {
    var d := Build(w, cs, rows).value;
    BuildNamesCovered(w, cs, rows);
    BuildNamesOrder(w, cs, rows, KeysOf(cs, NameOf));
    var i :| 0 <= i < |d.summaries| && d.summaries[i].containerName == c.name;
    assert d.summaries[i] in d.summaries;
  }

  /** Each summary of a workload's block is the summary of that workload's containers of its name. */
  lemma BuildSound(w: nat, cs: seq<ContainerSummary>, rows: seq<ContainerRow>, s: Summary)
    requires Build(w, cs, rows).Ok? && s in Build(w, cs, rows).value.summaries
    ensures s.workload == w && Fill(w, s.containerName, FilterBy(cs, NameOf, s.containerName), rows) == Ok(s)
  {
    BuildSummaries(w, cs, rows);
    BuildNamesOrder(w, cs, rows, KeysOf(cs, NameOf));
  }

  /** `make_summaries` writes a Summary for each workload and each name of its containers. */
  lemma RegeneratedCovers(all: seq<ContainerSummary>, pods: seq<Pod>, workloads: seq<Workload>, rows: seq<ContainerRow>,
                          wl: Workload, c: ContainerSummary)
    requires Regenerated(all, pods, workloads, rows).Ok?
    requires wl in workloads && c in WorkloadContainers(all, pods, wl.id)
    ensures exists s :: s in Regenerated(all, pods, workloads, rows).value.summaries && s.workload == wl.id && s.containerName == c.name
  {
    var order := SortBy(workloads, WorkloadLe);
    var blocks := Blocks(all, pods, order, rows);
    TogetherSummaries(blocks);
    assert wl in multiset(order);
    var k :| 0 <= k < |order| && order[k] == wl;
    BlockAt(all, pods, order, rows, k);
    BuildCovers(wl.id, WorkloadContainers(all, pods, wl.id), rows, c);
    var s :| s in blocks[k].value.summaries && s.workload == wl.id && s.containerName == c.name;
    assert s in Together(blocks).value.summaries;
  }

  /**
   * And only for those: each Summary it writes is the summary of one workload's containers of
   * that name.
   */
  lemma RegeneratedSound(all: seq<ContainerSummary>, pods: seq<Pod>, workloads: seq<Workload>, rows: seq<ContainerRow>, s: Summary)
    requires Regenerated(all, pods, workloads, rows).Ok?
    requires s in Regenerated(all, pods, workloads, rows).value.summaries
    ensures exists wl :: (wl in workloads && s.workload == wl.id
      && Fill(wl.id, s.containerName, FilterBy(WorkloadContainers(all, pods, wl.id), NameOf, s.containerName), rows) == Ok(s))
  {
    var order := SortBy(workloads, WorkloadLe);
    var blocks := Blocks(all, pods, order, rows);
    TogetherSummaries(blocks);
    var k :| 0 <= k < |blocks| && s in blocks[k].value.summaries;
    var wl := order[k];
    assert wl in multiset(workloads);
    BlockAt(all, pods, order, rows, k);
    BuildSound(wl.id, WorkloadContainers(all, pods, wl.id), rows, s);
  }

  /** The regenerated rows are consistent when the workloads visited have distinct ids. */
  lemma RegeneratedConsistent(all: seq<ContainerSummary>, pods: seq<Pod>, ws: seq<Workload>, rows: seq<ContainerRow>)
    requires DistinctIds(ws) && Together(Blocks(all, pods, ws, rows)).Ok?
    ensures Consistent(Together(Blocks(all, pods, ws, rows)).value.summaries, Together(Blocks(all, pods, ws, rows)).value.instances)
  {
    BlocksConsistent(all, pods, ws, rows);
    TogetherConsistent(Blocks(all, pods, ws, rows), Ids(ws));
  }

  /** A block that succeeds adds its rows after those of the blocks before it. */
  /** The first failing block decides what the blocks written together give. */
  lemma TogetherErrAt(blocks: seq<Result<Built, FillError>>, i: nat, b: Built)
    requires i < |blocks| && Together(blocks[..i]) == Ok(b) && blocks[i].Err?
    ensures Together(blocks) == Err(blocks[i].error)
  {
    assert blocks[..i + 1][..i] == blocks[..i];
    TogetherErrPrefix(blocks, i + 1);
  }

  lemma TogetherStep(blocks: seq<Result<Built, FillError>>, i: nat, b: Built)
    requires i < |blocks| && Together(blocks[..i]) == Ok(b) && blocks[i].Ok?
    ensures Together(blocks[..i + 1]) == Ok(Built(b.summaries + blocks[i].value.summaries, b.instances + blocks[i].value.instances))
  {
    assert blocks[..i + 1][..i] == blocks[..i];
  }

  /**
   * `for pod in pods_by_workload_id[wl.id]: for c in containers_by_pod_id[pod.id]`: the
   * containers of pods `ps`, pod by pod.
   */
  method GatherContainers(all: seq<ContainerSummary>, ps: seq<Pod>, containersByPod: map<nat, seq<ContainerSummary>>)
    returns (cs: seq<ContainerSummary>)
    requires forall k :: Lookup(containersByPod, k) == FilterBy(all, PodIdOf, k)
    ensures cs == PodsContainers(all, ps)
  {
    cs := [];
    for j := 0 to |ps|
      invariant cs == PodsContainers(all, ps[..j])
    {
      assert ps[..j + 1][..j] == ps[..j];
      cs := cs + Lookup(containersByPod, ps[j].id);
    }
    assert ps[..|ps|] == ps;
  }

  /**
   * The loop of `make_summaries` over workloads `order`: each workload's containers gathered
   * pod by pod from the two groupings, regrouped by name and summarised; the first error ends it.
   */
  method RegenerateAll(all: seq<ContainerSummary>, pods: seq<Pod>, order: seq<Workload>, rows: seq<ContainerRow>,
                       containersByPod: map<nat, seq<ContainerSummary>>, podsByWorkload: map<Option<nat>, seq<Pod>>)
    returns (r: Result<Built, FillError>)
    requires forall k :: Lookup(containersByPod, k) == FilterBy(all, PodIdOf, k)
    requires forall k :: Lookup(podsByWorkload, k) == FilterBy(pods, WorkloadIdOf, k)
    ensures r == Together(Blocks(all, pods, order, rows))
  {
    ghost var blocks := Blocks(all, pods, order, rows);
    var written, writtenInstances := [], [];
    for i := 0 to |order|
      invariant Together(blocks[..i]) == Ok(Built(written, writtenInstances))
    {
      var wl := order[i];
      var cs := GatherContainers(all, Lookup(podsByWorkload, Some(wl.id)), containersByPod);
      var built := BuildWorkload(wl.id, cs, rows);
      BlockAt(all, pods, order, rows, i);
      assert blocks[i] == built;
      if built.Err? {
        TogetherErrAt(blocks, i, Built(written, writtenInstances));
        return Err(built.error);
      }
      TogetherStep(blocks, i, Built(written, writtenInstances));
      written := written + built.value.summaries;
      writtenInstances := writtenInstances + built.value.instances;
    }
    assert blocks[..|order|] == blocks;
    return Ok(Built(written, writtenInstances));
  }

  /** The Summary and InstanceSummary tables. */
  class SummaryStore {
    var summaries: seq<Summary>
    var instances: seq<InstanceSummary>
    /** The Suggestion rows, each by the key of the Summary it belongs to. */
    var suggestions: seq<(nat, string)>

    predicate Valid()
      reads this
    {
      Consistent(summaries, instances) && SuggestionsOwned(summaries, suggestions)
    }

    constructor ()
      ensures Valid() && summaries == [] && instances == [] && suggestions == []
    {
      summaries, instances, suggestions := [], [], [];
    }

    /**
     * `make_summary(workload_id)`: delete the workload's summaries (and through the cascades
     * their instances and suggestions), then write its regenerated rows, or nothing if the block
     * raises. Every other workload's rows are left as they were.
     */
    method MakeSummary(w: nat, cs: seq<ContainerSummary>, rows: seq<ContainerRow>) returns (r: Option<FillError>)
      requires Valid()
      modifies this
      ensures Valid()
      ensures match Build(w, cs, rows)
        case Ok(b) =>
          r.None? && summaries == OtherSummaries(old(summaries), w) + b.summaries
          && instances == OtherInstances(old(instances), w) + b.instances
        case Err(e) =>
          r == Some(e) && summaries == OtherSummaries(old(summaries), w)
          && instances == OtherInstances(old(instances), w)
      ensures suggestions == OtherSuggestions(old(suggestions), w)
    {
      var built := BuildWorkload(w, cs, rows);
      DeleteConsistent(summaries, instances, w);
      DeleteSuggestionsOwned(summaries, suggestions, w);
      if built.Ok? {
        ReplaceConsistent(summaries, instances, w, cs, rows);
      }
      summaries, instances := OtherSummaries(summaries, w), OtherInstances(instances, w);
      suggestions := OtherSuggestions(suggestions, w);
      if built.Err? {
        return Some(built.error);
      }
      summaries := summaries + built.value.summaries;
      instances := instances + built.value.instances;
      r := None;
    }

    /**
     * `make_summaries`: delete every Summary (and through the cascades every instance and every
     * suggestion), then
     * regenerate each workload's rows in (namespace, name) order; if any workload's block
     * raises, nothing is written.
     */
    method MakeSummaries(all: seq<ContainerSummary>, pods: seq<Pod>, workloads: seq<Workload>, rows: seq<ContainerRow>)
      returns (r: Option<FillError>)
      requires DistinctIds(workloads)
      modifies this
      ensures Valid()
      ensures match Regenerated(all, pods, workloads, rows)
        case Ok(b) => r.None? && summaries == b.summaries && instances == b.instances
        case Err(e) => r == Some(e) && summaries == [] && instances == []
      ensures suggestions == []
    {
      var podIds, containersByPod := GroupBy(all, PodIdOf);
      var workloadIds, podsByWorkload := GroupBy(pods, WorkloadIdOf);
      summaries, instances, suggestions := [], [], [];
      var order := SortBy(workloads, WorkloadLe);
      var built := RegenerateAll(all, pods, order, rows, containersByPod, podsByWorkload);
      if built.Err? {
        return Some(built.error);
      }
      VisitOrder(workloads);
      RegeneratedConsistent(all, pods, order, rows);
      summaries, instances := built.value.summaries, built.value.instances;
      r := None;
    }
  }
}
